=== FILE: README.md ===
# A Dafny model of the couples' game app

The application is a React front end for couples' party games:
- a task library editor that keeps three libraries (board-game tasks, position cards, punishments), each holding role × sub-category arrays of records;
- a board game in which players roll a die, move along a path and are shown a task drawn from a library;
- two draw games (punishments and position cards);
- a pomodoro timer;
- an emoji suggester;
- a one-off migration of the locally saved data to a remote store.

This project models the logic of those pieces as pure functions over immutable datatypes, and proves what the code promises about them.

Modules, one per source unit:

| module | file | models |
|---|---|---|
| `Wrappers` | wrappers.dfy | `Option`, for `undefined`/`null` |
| `Text` | text.dfy | the JavaScript string primitives used: `trim`, ASCII `toLowerCase`, `includes`, `String(n)`, `padStart`, `parseInt` |
| `Types` | types.dfy | roles, sub-categories, records, libraries, players, settings, constants |
| `Helpers` | helpers.dfy | `getLibraryConfig`, `generateMapPath`, `formatTime`, `addIds` |
| `Emoji` | emoji.dfy | the emoji pools, `getRandomEmoji`, `getSmartEmoji`, `getRandomEmojis` |
| `EditItem` | edit_item.dfy | the edit dialog: form initialisation, auto emoji, submit merge |
| `TaskEditor` | task_editor.dfy | the library editor: view, add, delete, update/move, export, import, template, reset |
| `ChessGame` | chess_game.dfy | the board game: board size, dice, move, pools, result modal content, turn, displays |
| `App` | app.dfy | the top-level state: defaults, start/reset game, turn rotation, modal wiring, player edits |
| `PunishmentGame` | punishment_game.dfy | tier settings, pool, draw, close |
| `PositionCards` | position_cards.dfy | single-bucket draw, colour defaults, redraw on change |
| `Database` | database.dfy | bulk-import row mapping, id assignment, settings update, game statistics |
| `Migration` | migration.dfy | flattening the saved libraries, the migration plan and run, rebuilding libraries, loaded settings |
| `Pomodoro` | pomodoro.dfy | the timer state machine and the duration inputs |

Modelling conventions:
- A library is `map<string, map<string, seq<Item>>>`. Keys are strings because libraries are JavaScript objects that can be imported from any JSON. `Bucket` reads a missing bucket as empty, as `lib?.[role]?.[sub] || []` does.
- A record is one `Item` with an optional field for every field any library uses.
- Truthiness, `||` and `===` are written out: `Truthy`, `Or`, `IdTruthy`, `NumOr`. Ids are numbers or strings and never equal each other.
- `Math.random()` is a caller-supplied index `pick` (with a precondition that it is in range) or a real `u` in [0, 1). `Date.now()` is an integer parameter `now`. The ids that `addIds` and the remote store create are parameters.
- Object enumeration order (`Object.entries`) is a sequence of entries in the migration.

## Model

| member | source | states |
|---|---|---|
| Types.SubsPartition | src/types/index.ts:19-75 | each library has exactly three distinct sub-categories, and each sub-category belongs to exactly one library |
| Types.Or | src/components/screens/PositionCardsScreen.tsx:40-41 | `o \|\| d` gives the field when it is a non-empty string, else the default |
| Types.NumOr | src/components/screens/ChessGameScreen.tsx:55-57 | `n \|\| d` on a number keeps it unless it is missing or 0, as for the board size and the migrated focus and break lengths |
| Types.TextContent | src/components/modals/EditItemModal.tsx:48 | the text the emoji suggester reads is the content, or else the title when the content is empty |
| Types.Bucket | src/components/screens/PunishmentGameScreen.tsx:25-28 | a bucket that exists is read as is; a missing role or sub-category reads as the empty list |
| Types.EmptyRoleData | src/constants/index.ts:13-22 | a role entry has exactly the given sub-categories, each empty |
| Types.DefaultLibraryEmpty | src/constants/index.ts:12-79 | the default libraries have every bucket of both roles, all empty, and no other bucket |
| Types.DefaultLibraryBuckets | src/constants/index.ts:12-79 | any bucket read from a default library is empty, and the buckets of its own sub-categories exist under both roles |
| Text.Trim | src/components/screens/TaskEditorScreen.tsx:74-95 | `trim` yields a string without white space at either end, no longer than the input |
| Text.TrimStart | src/components/screens/TaskEditorScreen.tsx:74-95 | the result is no longer than the input and does not start with white space |
| Text.TrimEnd | src/components/screens/TaskEditorScreen.tsx:74-95 | the result is a prefix of the input that does not end with white space |
| Text.TrimInfix | src/components/screens/TaskEditorScreen.tsx:74-95 | `trim` returns the infix left after removing a white-space prefix and a white-space suffix |
| Text.TrimEmptyIff | src/components/screens/TaskEditorScreen.tsx:62-81 | a field trims to empty exactly when it is all white space |
| Text.TrimIdempotent | src/components/screens/TaskEditorScreen.tsx:84-97 | trimming twice equals trimming once |
| Text.ToLower | src/utils/emojiGenerator.ts:70 | lower-casing keeps the length and maps each character by the ASCII rule |
| Text.ToLowerIdempotent | src/utils/emojiGenerator.ts:70 | lower-casing twice equals lower-casing once |
| Text.NatToString | src/utils/helpers.ts:71-75 | `String(n)` is the shortest decimal form and reads back as `n` |
| Text.PadStart2 | src/utils/helpers.ts:73-74 | `padStart(2, '0')` leaves long strings alone and left-pads short ones with zeros to length 2 |
| Text.ParseInt | src/components/screens/PomodoroScreen.tsx:173 | the empty entry is unparsable, and an entry of decimal digits reads as its value |
| Text.ParseIntRoundTrip | src/components/screens/PomodoroScreen.tsx:171-174 | `parseInt` reads back every integer that `String` writes |
| Helpers.GetLibraryConfig | src/utils/helpers.ts:9-58 | a configuration exists exactly for the three library keys; each has roles [male, female], its own three sub-categories, empty default data, and its required fields |
| Helpers.FieldsOfConfig | src/utils/helpers.ts:24-54 | required fields are content+icon for tasks and punishments, title+description+icon for cards |
| Helpers.TaskConfig | src/utils/helpers.ts:11-25 | the task library has roles male and female, sub-categories warmup, intimate and adventure, the empty default, and requires content and icon |
| Helpers.CardConfig | src/utils/helpers.ts:26-40 | the position cards have roles male and female, modes cute, fun and deep, the empty default, and require title, description and icon |
| Helpers.PunishmentConfig | src/utils/helpers.ts:41-55 | the punishments have roles male and female, intensities mild, medium and intense, the empty default, and require content and icon |
| Helpers.ConfigDefault | src/utils/helpers.ts:9-58 | the default data a configuration names is that library's empty default |
| Helpers.GenerateMapPath | src/utils/helpers.ts:61-68 | the path has one tile per cell, and tile i carries index i |
| Helpers.JsRem | src/utils/helpers.ts:73 | JavaScript `%` takes the sign of the dividend |
| Helpers.FormatTime | src/utils/helpers.ts:71-75 | for 0 ≤ s < 6000 the text has five characters, digits around a colon at position 2 |
| Helpers.FormatTimeRoundTrip | src/utils/helpers.ts:71-75 | for 0 ≤ s < 6000, `formatTime(s)` is exactly `mm:ss` with digits and decodes back to s |
| Helpers.AddIds | src/utils/helpers.ts:78-101 | every array keeps its length and order, and every record gets an id with its other fields unchanged; non-array second-level values and first-level values that are neither object nor array are dropped; `null` becomes `{}` |
| Helpers.AddIdsKeepsLibraryShape | src/utils/helpers.ts:78-101 | stamping ids onto a library keeps its roles, buckets and bucket lengths |
| Emoji.PoolInAll | src/utils/emojiGenerator.ts:4-49 | every pool is contained in the flattened list |
| Emoji.EveryEmojiGlyph | src/utils/emojiGenerator.ts:4-49 | every listed emoji is a non-empty symbol string with no white space at its ends |
| Emoji.RandomEmoji | src/utils/emojiGenerator.ts:56-62 | a draw with a category comes from that pool, and a draw without one from the whole list |
| Emoji.SmartCategory | src/utils/emojiGenerator.ts:69-108 | no category is chosen exactly when the lower-cased text matches no keyword group; a chosen one is one of the six routed pools |
| Emoji.FirstMatch | src/utils/emojiGenerator.ts:73-108 | the chosen category is that of the first keyword group the text matches, and none when no group matches |
| Emoji.SmartEmoji | src/utils/emojiGenerator.ts:69-109 | the suggestion comes from the routed pool, or from the whole list when no keyword matches, and is unchanged by `trim` |
| Emoji.SmartCategoryIgnoresCase | src/utils/emojiGenerator.ts:70 | routing gives the same category for the text and for its lower-cased form |
| Emoji.KissRoutesToIntimate | src/utils/emojiGenerator.ts:73-78 | text containing "kiss" in any ASCII case routes to the intimate pool, whatever else it contains |
| Emoji.RandomEmojis | src/utils/emojiGenerator.ts:118-120 | the non-unique mode returns exactly `count` emojis, one per draw, and none for a count of 0 or below |
| Emoji.DrawUnique | src/utils/emojiGenerator.ts:122-133 | the unique loop returns a duplicate-free list of at most `count`, containing every draw it consumed, and stops early only at `count` or at the limit |
| Emoji.RandomEmojisUnique | src/utils/emojiGenerator.ts:122-133 | as written: with `count` above the number of distinct emojis, the loop consumes every draw offered |
| Emoji.RandomEmojisUniqueBounded | src/utils/emojiGenerator.ts:122-133 | with the distinct count as the limit, a short result means the draws ran out or every distinct emoji was returned |
| Emoji.FewerDistinctThanListed | src/utils/emojiGenerator.ts:4-49 | the flattened list holds fewer distinct emojis than entries; 🙈, for one, is in both the faces and the animals pool |
| EditItem.InitForm | src/components/modals/EditItemModal.tsx:28-35 | each form field is the record's field, or `''` when it is missing or empty |
| EditItem.OnOpen | src/components/modals/EditItemModal.tsx:28-41 | when the dialog opens on a record, the form is initialised from it and the role and sub-category reset to the current view; otherwise nothing changes |
| EditItem.AutoEmoji | src/components/modals/EditItemModal.tsx:47-53 | with empty content and title the form is unchanged; otherwise only the icon changes, to an emoji from the routed pool |
| EditItem.Submit | src/components/modals/EditItemModal.tsx:55-63 | id, colour and text colour are kept; content, title and description take the form values; the icon falls back to the record's when the form icon is empty |
| EditItem.SubmitUnchangedForm | src/components/modals/EditItemModal.tsx:30-35 | submitting an untouched form keeps the icon, and returns the record unchanged exactly when it already had content, title and description; missing title and description become `''` |
| EditItem.SubmitIdempotent | src/components/modals/EditItemModal.tsx:55-63 | submitting the same form twice equals submitting it once |
| TaskEditor.CurrentData | src/components/screens/TaskEditorScreen.tsx:39-41 | the bucket on view is read as stored when the library, role and sub-category exist, and as empty otherwise |
| TaskEditor.SyncSubMode | src/components/screens/TaskEditorScreen.tsx:45-52 | a sub-category that is not one of the library's is replaced by the library's first; a valid one is kept |
| TaskEditor.SelectLibrary | src/components/screens/TaskEditorScreen.tsx:561-569 | switching library keeps the role and lands on one of the new library's sub-categories |
| TaskEditor.SyncSubModeIdempotent | src/components/screens/TaskEditorScreen.tsx:45-52 | the sub-category correction is idempotent |
| TaskEditor.SetBucket | src/components/screens/TaskEditorScreen.tsx:99-115 | writing a bucket sets it and leaves every other bucket as it was |
| TaskEditor.IconNeverEmpty | src/components/screens/TaskEditorScreen.tsx:62-72 | the icon field never fails the required-field check, because an empty icon is filled with an emoji |
| TaskEditor.IconAloneNotEmpty | src/components/screens/TaskEditorScreen.tsx:62-72 | checking the icon field alone never reports an empty field |
| TaskEditor.TaskNeverRefused | src/components/screens/TaskEditorScreen.tsx:76-81 | the task library accepts any form, empty content included |
| TaskEditor.CardRefusedIff | src/components/screens/TaskEditorScreen.tsx:62-81 | a position card is refused exactly when its title or description trims to empty |
| TaskEditor.PunishmentRefusedIff | src/components/screens/TaskEditorScreen.tsx:62-81 | a punishment is refused exactly when its content trims to empty |
| TaskEditor.FinalIcon | src/components/screens/TaskEditorScreen.tsx:84 | the stored icon is the trimmed user icon, or else a suggested emoji; it is never empty |
| TaskEditor.NewItem | src/components/screens/TaskEditorScreen.tsx:84-97 | the added record has id `Date.now()`, all four form fields trimmed, and a non-empty icon |
| TaskEditor.Add | src/components/screens/TaskEditorScreen.tsx:58-119 | adding is refused exactly when validation fails; otherwise exactly one record is appended at the end of the selected bucket and every other bucket and library is unchanged |
| TaskEditor.RemoveId | src/components/screens/TaskEditorScreen.tsx:127 | deleting by id never lengthens the bucket |
| TaskEditor.RemoveIdAbsent | src/components/screens/TaskEditorScreen.tsx:127 | filtering by an id that no record carries returns the list unchanged |
| TaskEditor.RemoveIdMembers | src/components/screens/TaskEditorScreen.tsx:127 | after deletion a record remains exactly when it was there and its id differs from the one deleted |
| TaskEditor.RemoveIdConcat | src/components/screens/TaskEditorScreen.tsx:127 | deletion filters each part of a list independently, so survivors keep their relative order |
| TaskEditor.RemoveIdCount | src/components/screens/TaskEditorScreen.tsx:127 | deletion removes every record with the id, no more and no fewer |
| TaskEditor.Delete | src/components/screens/TaskEditorScreen.tsx:121-141 | only the current bucket changes, and it loses exactly the records with the id |
| TaskEditor.DeleteAbsentId | src/components/screens/TaskEditorScreen.tsx:127 | deleting an id that is not present leaves the bucket's contents unchanged |
| TaskEditor.AddThenDelete | src/components/screens/TaskEditorScreen.tsx:84-127 | deleting the id of a fresh record undoes the add when no other record had that id |
| TaskEditor.DeleteKey | src/components/screens/TaskEditorScreen.tsx:663 | the button's key is the record's id when truthy, else its index as a number |
| TaskEditor.DeleteClicked | src/components/screens/TaskEditorScreen.tsx:663 | as written: the delete button passes `item.id \|\| index`, and deletion removes the records with that id |
| TaskEditor.IdlessRecordSurvivesDelete | src/components/screens/TaskEditorScreen.tsx:663 | a record without an id survives a click on its own delete button |
| TaskEditor.IdlessDeleteExample | src/components/screens/TaskEditorScreen.tsx:663 | a bucket whose one record has no id still holds it after its delete click |
| TaskEditor.DeleteAt | src/components/screens/TaskEditorScreen.tsx:663 | corrected: removing the clicked position shortens the bucket by one and shifts the later records |
| TaskEditor.DeleteAtAgrees | src/components/screens/TaskEditorScreen.tsx:663 | for a record with a truthy id unique in its bucket, the corrected delete agrees with the written one |
| TaskEditor.Replace | src/components/screens/TaskEditorScreen.tsx:154-177 | in-place update replaces every record with the id, keeps all others, and keeps length and order |
| TaskEditor.ReplaceIdempotent | src/components/screens/TaskEditorScreen.tsx:154-177 | replacing twice equals replacing once |
| TaskEditor.Update | src/components/screens/TaskEditorScreen.tsx:150-226 | with the same category the bucket is rewritten in place; otherwise the record leaves the old bucket and is appended to the new one, and the view switches to the new category; other libraries are unchanged |
| TaskEditor.UpdateInPlaceKeepsIds | src/components/screens/TaskEditorScreen.tsx:154-177 | an in-place update keeps the bucket's ids position by position |
| TaskEditor.MoveKeepsCount | src/components/screens/TaskEditorScreen.tsx:178-220 | moving a record whose id occurs once in its bucket keeps the combined size of the source and target buckets |
| TaskEditor.Export | src/components/screens/TaskEditorScreen.tsx:229-248 | export refuses only an absent library; an empty one exports |
| TaskEditor.IsBundle | src/components/screens/TaskEditorScreen.tsx:261 | the parsed object is a bundle exactly when it has one of the three library sections |
| TaskEditor.BundleIffSections | src/components/screens/TaskEditorScreen.tsx:261 | the bundle test on the parsed object agrees with the sections it carries |
| TaskEditor.Import | src/components/screens/TaskEditorScreen.tsx:251-308 | unparsable input changes nothing; a bundle replaces exactly the libraries it carries; otherwise the payload must have both roles, or nothing changes |
| TaskEditor.ApplyBundle | src/components/screens/TaskEditorScreen.tsx:264-280 | each library whose section the bundle carries is replaced by that section; every other library is kept as it was |
| TaskEditor.Carried | src/components/screens/TaskEditorScreen.tsx:261-285 | the libraries a bundle carries are exactly those whose section is present, each once |
| TaskEditor.BundleCount | src/components/screens/TaskEditorScreen.tsx:261-285 | the success counter equals the number of libraries the bundle carries |
| TaskEditor.ExportImportRoundTrip | src/components/screens/TaskEditorScreen.tsx:229-308 | an exported library imports back as itself (leaving the libraries unchanged) exactly when it has both roles and no key named like a library section; with such a key it is taken as a bundle |
| TaskEditor.ExampleItem | src/components/screens/TaskEditorScreen.tsx:316-350 | the example record has id `example-id-1` and exactly the library's fields |
| TaskEditor.FillExample | src/components/screens/TaskEditorScreen.tsx:322-345 | the sample value is set for exactly the listed fields, every other field and the id are kept |
| TaskEditor.Template | src/components/screens/TaskEditorScreen.tsx:311-363 | the template gives both roles, in every sub-category, a one-record list with the example record |
| TaskEditor.TemplateImports | src/components/screens/TaskEditorScreen.tsx:287-363 | a template passes the single-library import check and imports as itself |
| TaskEditor.Reset | src/components/screens/TaskEditorScreen.tsx:530-542 | corrected: reset sets the library to a fresh copy of its default data and leaves the others unchanged |
| TaskEditor.ResetEmpties | src/components/screens/TaskEditorScreen.tsx:530-542 | corrected: after a reset the bucket on view is empty, and it exists when the view names a role and one of the library's sub-categories |
| TaskEditor.InitialStore | src/utils/helpers.ts:9-58 | at start-up each library's default is its declared empty default, and no library is the default object |
| TaskEditor.StoreReset | src/components/screens/TaskEditorScreen.tsx:536-539 | as written: the reset library becomes the default object itself; it equals the declared default while that object is unchanged |
| TaskEditor.StoreAdd | src/components/screens/TaskEditorScreen.tsx:99-112 | an add changes the libraries exactly as `Add`, and when the library is the default object the default receives the same record |
| TaskEditor.StoreDelete | src/components/screens/TaskEditorScreen.tsx:121-140 | a delete changes the libraries exactly as `Delete` and leaves the defaults alone, since it builds a new library object |
| TaskEditor.StoreUpdate | src/components/screens/TaskEditorScreen.tsx:150-225 | an update changes the libraries and the view exactly as `Update` and leaves the defaults alone |
| TaskEditor.StoreImport | src/components/screens/TaskEditorScreen.tsx:251-308 | an import changes the libraries exactly as `Import`; the replaced libraries are fresh objects; a failed import changes nothing |
| TaskEditor.ResetAfterAddKeepsRecord | src/components/screens/TaskEditorScreen.tsx:99-112 | as written: reset, add a record and reset again, and the bucket holds the default's records plus the added one, because the add wrote into the default object |
| TaskEditor.ResetAddResetExample | src/components/screens/TaskEditorScreen.tsx:536-539 | as written: from start-up, reset, add and reset leave the added record in the bucket, while the corrected reset gives the empty bucket |
| ChessGame.TotalCells | src/components/screens/ChessGameScreen.tsx:55-57 | each dimension falls back to its default (8 rows, 9 columns) on its own when missing or 0: rows × cols when both are set and non-zero, rows × 9 or 8 × cols when only one is, and the 72 cells of the default board when neither is |
| ChessGame.RollDice | src/components/screens/ChessGameScreen.tsx:65-79 | a roll is ignored while rolling; otherwise it lies in 1..6 |
| ChessGame.Target | src/components/screens/ChessGameScreen.tsx:84 | the target is the last cell exactly when start + steps reaches it; otherwise it is start + steps; it never lies behind the start or past the last cell |
| ChessGame.Clamp | src/components/screens/ChessGameScreen.tsx:84 | the position never passes the last cell |
| ChessGame.StepPositions | src/components/screens/ChessGameScreen.tsx:86-96 | the k-th intermediate position is the clamped start+k |
| ChessGame.StepPositionsShape | src/components/screens/ChessGameScreen.tsx:86-96 | the intermediate positions are non-decreasing and stay on the board |
| ChessGame.Pool | src/components/screens/ChessGameScreen.tsx:122-162 | warmup pools the three card buckets as "title: description", intimate the three task buckets, adventure the three punishment buckets, all for the landing player's gender |
| ChessGame.PoolFromRoleBuckets | src/components/screens/ChessGameScreen.tsx:122-162 | every pool entry comes from a bucket of the landing player's role in the difficulty's library |
| ChessGame.Move | src/components/screens/ChessGameScreen.tsx:82-193 | only the mover's position changes, to the clamped target; landing on the last cell shows the winner modal; otherwise the picked pool task, titled with the difficulty and its source library and carrying the task's content and icon, or the ⚠️ warning for an empty pool, is shown as a non-winner |
| ChessGame.NextTurn | src/components/screens/ChessGameScreen.tsx:195-198 | the turn passes to (i+1) mod count and the dice are cleared |
| ChessGame.TaskCount | src/components/screens/ChessGameScreen.tsx:406-428 | as written: for warmup and adventure the displayed count is the size of both roles' pools; for intimate it is at most that size |
| ChessGame.PoolCount | src/components/screens/ChessGameScreen.tsx:406-428 | corrected: the count for warmup is the cute, fun and deep cards of both roles; for intimate the warmup, intimate and adventure tasks of both roles; for adventure the mild, medium and intense punishments of both roles; 0 otherwise |
| ChessGame.PoolSizes | src/components/screens/ChessGameScreen.tsx:122-162 | both roles' pools of a difficulty hold exactly the records of that library's three buckets of both roles |
| ChessGame.TaskCountMatchesPools | src/components/screens/ChessGameScreen.tsx:406-428 | for warmup and adventure the displayed count equals the corrected count |
| ChessGame.IntimateCountBelowPool | src/components/screens/ChessGameScreen.tsx:419 | as written the intimate count is the two `intimate` buckets; it is at most the corrected count, and equal to it exactly when both roles' warmup and adventure task buckets are empty |
| ChessGame.IntimateCountMisses | src/components/screens/ChessGameScreen.tsx:419 | as written: the intimate count misses warmup and adventure tasks that the intimate pool draws |
| ChessGame.RollDisabled | src/components/screens/ChessGameScreen.tsx:373 | the roll button is disabled while rolling; otherwise exactly when a roll of one would not move the player, i.e. at the last of the 72 default cells |
| ChessGame.RollDisabledOnBoard | src/components/screens/ChessGameScreen.tsx:373 | corrected: the same check against the configured board, so it is disabled exactly when a roll cannot move the player on that board |
| ChessGame.RollDisabledDefaultBoard | src/components/screens/ChessGameScreen.tsx:373 | on the default board the written check agrees with the corrected rows × cols check |
| ChessGame.RollDisabledWrongBoard | src/components/screens/ChessGameScreen.tsx:373 | as written: on a 10 × 10 board the button locks at cell 71, and on a 5 × 5 board it stays enabled after the finish |
| App.AddIdsEmptyLibrary | src/App.tsx:47-53 | adding ids to an all-empty library returns the same library |
| App.DefaultLibrariesAreDefaults | src/App.tsx:47-53 | the initial libraries are the three empty defaults |
| App.Initial | src/App.tsx:47-71 | exactly two players with ids 0 and 1, both at 0, male then female; index 0; focus 25, break 5, warmup |
| App.StartGame | src/App.tsx:89-92 | starting marks the game started and shows the board; players, turn, libraries, settings and any active task are kept, so a pending task is shown on the board exactly when one was active |
| App.ResetGame | src/App.tsx:95-100 | every player goes back to 0 with other fields unchanged, and the index is 0 |
| App.NextTurn | src/App.tsx:110-112 | the index becomes (i+1) mod the number of players, and nothing else changes |
| App.NextTurns | src/App.tsx:110-112 | after n turns only the index has changed, and it is (i+n) mod the number of players |
| App.TwoPlayersAlternate | src/App.tsx:110-112 | with two players, after n turns the index is (i+n) mod 2 |
| App.ShowTask | src/App.tsx:102-104 | showing a task sets it as the active task and changes nothing else; the result dialog is visible exactly when the board is on screen |
| App.ShowThenDismiss | src/components/common/TaskResultModal.tsx:11-19 | showing a task on the board and closing its dialog hides the dialog; a winner's task leaves the turn where it was, any other task passes it to the next player |
| App.Dismiss | src/components/common/TaskResultModal.tsx:11-19 | closing always dismisses; a non-winner advances the turn exactly once; a winner never does |
| App.ChangePlayer | src/components/modals/GlobalSettingsModal.tsx:21-85 | only the player at the index changes, only in the named field (name, avatar, gender or colour), and the list keeps its length |
| App.RandomAvatar | src/components/modals/GlobalSettingsModal.tsx:57 | the random-avatar button changes only that player's avatar, to a listed emoji |
| App.OnlyDismissAdvances | src/App.tsx:206-212 | apart from a game reset, only dismissing a task that is not a win moves the turn, and then by one step |
| PunishmentGame.Pool | src/components/screens/PunishmentGameScreen.tsx:24-28 | the pool is the enabled tiers of the role in order mild, medium, intense; a record is in it exactly when it is in an enabled tier |
| PunishmentGame.Draw | src/components/screens/PunishmentGameScreen.tsx:23-39 | an empty pool, or one without content, gives the ⚠️ sentinel; otherwise the record at the pick, even one without content; every draw is face down |
| PunishmentGame.DrawFromEnabledTiers | src/components/screens/PunishmentGameScreen.tsx:23-39 | a drawn card is the sentinel or a record of an enabled tier of the selected role |
| PunishmentGame.AllTiersOff | src/components/screens/PunishmentGameScreen.tsx:24-34 | with every tier off only the sentinel can be drawn |
| PunishmentGame.Close | src/components/screens/PunishmentGameScreen.tsx:41-44 | closing clears the card and the flip |
| PunishmentGame.Toggle | src/components/screens/PunishmentGameScreen.tsx:96-116 | each tier button flips its own flag and no other |
| PunishmentGame.ToggleTwice | src/components/screens/PunishmentGameScreen.tsx:96-116 | pressing a tier button twice restores the settings |
| PositionCards.WithDefaults | src/components/screens/PositionCardsScreen.tsx:38-42 | colour and text colour fall back to `bg-pink-100` and `text-pink-800`; every other field is kept |
| PositionCards.WithDefaultsIdempotent | src/components/screens/PositionCardsScreen.tsx:38-42 | the defaults apply once, and a card with both colours is unchanged |
| PositionCards.Draw | src/components/screens/PositionCardsScreen.tsx:24-43 | an absent or empty bucket gives the red "无卡牌" sentinel; otherwise the card at the pick with defaults; the result always has both colours |
| PositionCards.DrawFromBucket | src/components/screens/PositionCardsScreen.tsx:25 | a drawn card comes from the one bucket of the role and mode |
| PositionCards.Mount | src/components/screens/PositionCardsScreen.tsx:14-47 | on mount the screen shows male and cute, and draws at once: the ⚠️ card when that bucket is empty, else the picked card with colour defaults, replacing the loading card |
| PositionCards.MountThenRerender | src/components/screens/PositionCardsScreen.tsx:14-47 | after mounting, a render with the same role, mode and library keeps the drawn card; any change draws from the new bucket |
| PositionCards.Rerender | src/components/screens/PositionCardsScreen.tsx:24-47 | the card is redrawn exactly when the role, the mode or the library changed |
| Database.ContentRecords | src/services/database.ts:153-160 | one row per input, in order, with the device id; a missing or empty icon becomes the default |
| Database.BulkImportTasks | src/services/database.ts:153-160 | task rows: one per input, with the device id and a non-empty icon (📝 by default) |
| Database.BulkImportPunishments | src/services/database.ts:309-316 | punishment rows: one per input, with the device id and a non-empty icon (🎭 by default) |
| Database.BulkImportCards | src/services/database.ts:231-241 | card rows: icon 💑, colour `bg-pink-500` and text colour `text-white` by default |
| Database.CardRecordsFilled | src/services/database.ts:231-241 | every inserted card row has a non-empty icon, colour and text colour |
| Database.Save | src/services/database.ts:153-167 | the store keeps every inserted row as is, in order, each under the id it assigns |
| Database.UpdateSettings | src/services/database.ts:79-91 | the given columns are overwritten; the board size is kept |
| Database.GetGameStats | src/services/database.ts:363-383 | with no data the statistics are all zero; otherwise the total is the number of records and wins never exceed it |
| Database.Fold | src/services/database.ts:377-380 | the fold keeps the total it was given and counts at most one win per record |
| Database.TallyStep | src/services/database.ts:377-380 | one step of the `forEach` keeps wins, the set of types and each per-type count in line with the records seen |
| Database.SumStep | src/services/database.ts:377-380 | bumping one type's count, and listing the type when it is new, raises the sum of the counts by one |
| Database.FoldSnoc | src/services/database.ts:377-380 | the counts stay in line with the records when one more record is folded in |
| Database.FoldCounts | src/services/database.ts:377-380 | the fold counts truthy winners and records per type, and its per-type counts add up to the number of records |
| Database.GameStatsCounts | src/services/database.ts:363-383 | total equals the number of records, wins the number with a truthy winner (so wins ≤ total), and the per-type counts sum to the total |
| Migration.Find | src/services/migration.ts:194 | a lookup misses exactly when no entry has the key |
| Migration.FindLast | src/services/migration.ts:194 | in an object without repeated keys, a lookup takes the last entry when it has the key and otherwise looks among the others |
| Migration.Flatten | src/services/migration.ts:50-66 | every flattened row has no id yet and a truthy icon |
| Migration.Shape | src/services/migration.ts:56-61 | a flattened record carries no id and always a truthy icon |
| Migration.Kept | src/services/migration.ts:54-63 | flattening one array keeps at most its records |
| Migration.KeptShaped | src/services/migration.ts:50-67 | every flattened record is the shaped form of a record of the array that passed the filter |
| Migration.PlaceKeeps | src/services/migration.ts:194-200 | one `push` keeps every role and sub-category and appends the row's item to its own bucket only, when that bucket exists |
| Migration.BuildFromShape | src/services/migration.ts:193-201 | the build keeps its base's roles and sub-categories |
| Migration.BuildFromContents | src/services/migration.ts:193-201 | the build appends to each existing bucket the items of the rows tagged with it, in order |
| Migration.BuildFromSelect | src/services/migration.ts:193-201 | the build keeps its base's shape and files each row, in order, under its own role and sub-category |
| Migration.BuildTaskLibrary | src/services/migration.ts:187-205 | the rebuilt task library has exactly the roles male and female, all three difficulty buckets of each, and each holds exactly its rows in order |
| Migration.BuildPositionCardsLibrary | src/services/migration.ts:207-228 | the rebuilt card library has exactly male and female, all three mode buckets of each, each holding exactly its rows in order |
| Migration.BuildPunishmentLibrary | src/services/migration.ts:230-247 | the rebuilt punishment library has exactly male and female, all three intensity buckets of each, each holding exactly its rows in order |
| Migration.BuildLibrary | src/services/migration.ts:187-247 | each build returns all six buckets even for no rows, each holding exactly its rows in order; rows with an unknown role or sub-category are dropped |
| Migration.ContentRows | src/services/migration.ts:195-199 | a task or punishment read back keeps only id, content and icon |
| Migration.CardRows | src/services/migration.ts:215-222 | a card read back keeps its own fields, with `text_color` as `textColor` |
| Migration.Roundtrip | src/services/database.ts:153-167 | inserting rows and reading them back keeps each row's role and sub-category and gives each record as it reads back |
| Migration.SelectPointwise | src/services/migration.ts:193-201 | a row-by-row rewrite that keeps the tags commutes with filing rows into buckets |
| Migration.FlattenSelect | src/services/migration.ts:45-73 | the flattened rows tagged (r, s) are exactly the kept records of bucket (r, s), shaped, in order |
| Migration.RoundTripBuckets | src/services/migration.ts:45-247 | flattening, inserting and rebuilding gives each bucket exactly its kept records in order, as they read back; only ids are new |
| Migration.ContentSurvives | src/services/migration.ts:55-199 | tasks and punishments come back unchanged apart from their ids |
| Migration.CardsLoseTextColor | src/services/migration.ts:85-93 | as written: every migrated card reads back with text colour `text-white` |
| Migration.CardTextColorExample | src/services/migration.ts:85-93 | as written, a card with text colour `text-pink-800` reads back with `text-white`; carried along, it reads back unchanged |
| Migration.CardsKeepTextColor | src/services/database.ts:239 | corrected: a migrated card keeps its own text colour and gets `text-white` only when it had none |
| Migration.SettingsCall | src/services/migration.ts:36-40 | the migrated settings fall back to warmup, 25 and 5 |
| Migration.ImportCalls | src/services/migration.ts:46-72 | a library is imported only when present and only with its non-empty flattened rows |
| Migration.Plan | src/services/migration.ts:15-19 | with the flag already 'true' there is nothing to do; there are at most five calls |
| Migration.PlanParts | src/services/migration.ts:21-135 | the calls come in source order: players, settings, tasks, cards, punishments |
| Migration.PlanPlayers | src/services/migration.ts:22-31 | players are migrated exactly when at least two are saved, and with the first two names and avatars |
| Migration.PlanSettings | src/services/migration.ts:34-42 | settings are migrated exactly when the saved object has a key |
| Migration.PlanImports | src/services/migration.ts:45-135 | each import carries the non-empty flattened rows of its own library |
| Migration.NonEmptyLibraryImported | src/services/migration.ts:69-72 | a task library with a kept record is imported |
| Migration.Run | src/services/migration.ts:21-143 | calls run in order until one fails; the flag is written exactly when every call succeeded |
| Migration.Migrate | src/services/migration.ts:9-144 | nothing happens when the flag is 'true'; otherwise the flag is written only after every call succeeded |
| Migration.LoadSettings | src/services/migration.ts:169-177 | the loaded settings carry focus, break, difficulty and board size from the row |
| Migration.SettingsRoundTrip | src/services/migration.ts:36-177 | set settings that are migrated and loaded back keep their difficulty, focus and break |
| Pomodoro.LengthsOf | src/components/screens/PomodoroScreen.tsx:18-19 | phase lengths are minutes × 60 |
| Pomodoro.Rollover | src/components/screens/PomodoroScreen.tsx:44-59 | at zero the timer stops, flips phase, restarts the new phase at full length and opens the dialog with the matching message; otherwise nothing |
| Pomodoro.Restart | src/components/screens/PomodoroScreen.tsx:69-73 | reset gives a stopped timer in the focus phase at full length |
| Pomodoro.Initial | src/components/screens/PomodoroScreen.tsx:21-23 | the timer starts stopped, in focus, at the focus length |
| Pomodoro.Tick | src/components/screens/PomodoroScreen.tsx:34-42 | a tick happens only while running and not at zero, and decrements by exactly one |
| Pomodoro.PlayPause | src/components/screens/PomodoroScreen.tsx:61 | play/pause toggles only the running flag |
| Pomodoro.Skip | src/components/screens/PomodoroScreen.tsx:63-67 | skip stops the timer, flips the phase and sets the new phase's full length |
| Pomodoro.CloseAlert | src/components/screens/PomodoroScreen.tsx:75-77 | closing the dialog changes nothing else |
| Pomodoro.Apply | src/components/screens/PomodoroScreen.tsx:28-32 | a settings change that keeps both phase lengths leaves the timer alone; one that changes a length (with a non-zero focus) restarts it |
| Pomodoro.InitialInv | src/components/screens/PomodoroScreen.tsx:21-23 | with positive lengths the timer starts within its phase |
| Pomodoro.ApplyInv | src/components/screens/PomodoroScreen.tsx:21-73 | with positive lengths 0 < timeLeft ≤ phase length holds after every event |
| Pomodoro.PhaseEnds | src/components/screens/PomodoroScreen.tsx:34-59 | a running phase with k seconds left ends after exactly k ticks, in the other phase at full length with the dialog open |
| Pomodoro.DurationInput | src/components/screens/PomodoroScreen.tsx:171-174 | a duration input stores `parseInt` of the entry, or 1 when it is 0 or unparsable; negatives pass through |
| Pomodoro.DurationInputRoundTrip | src/components/screens/PomodoroScreen.tsx:171-186 | any non-zero number typed in is stored as itself |
| Pomodoro.SetFocus | src/components/screens/PomodoroScreen.tsx:171-174 | the focus input changes only the focus length |
| Pomodoro.SetBreak | src/components/screens/PomodoroScreen.tsx:183-186 | the break input changes only the break length |

## Left out

- Rendering, JSX, CSS classes, animation delays and `setTimeout`/`setInterval`. A move is atomic plus its sequence of intermediate positions. The timer is discrete ticks.
- The Supabase client and every network call: profile and settings creation, `updatePlayerInfo`, the single-record add, delete and query calls of each service, `recordGame` and `getGameHistory`. The model keeps only the pure parts of the bulk imports, the settings update, the id assignment and the statistics query. Reads return rows in insertion order, although the source's queries carry no ordering clause.
- `localStorage`, `JSON.stringify` and the persistence effects. `JSON.parse` is an `Option` (the import's `data`, the migration's saved objects).
- File download and upload (Blob, URL, anchor, FileReader).
- `alert`, `confirm` and `console` output. The reset and import confirmations are taken as accepted. The pomodoro dialog's message is kept.
- The pomodoro's floating-point progress percentage and its styling.
- Device-id generation. The device id is a parameter.
- Text.ToLower: lower-cases ASCII letters only, where JavaScript's `toLowerCase` applies the full Unicode mapping. Routing can differ: "\u212AISS" (KELVIN SIGN, which lower-cases to `k`) routes to the intimate pool in the source but not in the model. Emoji.SmartEmoji, Emoji.SmartCategory and Emoji.SmartCategoryIgnoresCase inherit this.
- TaskEditor.Add: the icon validity check takes `substring(0, 1)`, a UTF-16 code unit. The model takes the first code point, so validity (non-empty after trim) is the same.
- TaskEditor.Add requires only the edited library to exist; the source creates the bucket with a `|| []` fallback, and so does the model.
- TaskEditor.Update requires the edited buckets to exist. The source reads them without a fallback and would throw.
- TaskEditor.Import: a parsed value is either an object of libraries or nothing. Truthy non-object values where a section or role is expected (e.g. `"male": 1`) are not representable, so the model says nothing about what the source does with them.
- TaskEditor.StoreAdd: object identity is modelled only for the default libraries, which is where the source shares an object. Every other in-place write is modelled as building a new value.
- Database.Fold: the per-type tally counts every game type from 0. The source tallies into a plain `{}`, so a type named after an inherited property behaves differently: "constructor", "toString" or "valueOf" read a function and store a string, and "__proto__" adds no own key. The model does not represent those types.
- Database.GetGameStats: inherits the Database.Fold gap for game types named after inherited object properties.
- Database.GameStatsCounts: the per-type counts sum to the total only for game types that are not inherited object property names; for those the source stores a string or no key at all.
- ChessGame.Move requires the difficulty's library to be present. The source reads it with a fallback for the roles only.
- ChessGame.TaskCount and ChessGame.PoolCount take the three libraries complete (`Complete`), as the application's state always has them.
- Migration.Flatten: a first-level value that is an array, `null` or a scalar yields no rows, as in the source. Its array elements are records, not arrays.
- Migration.BuildFromSelect: a row whose role or sub-category names an inherited object property (such as `constructor`) makes the source throw. The model drops it like any unknown key.
- Migration.Plan: the cards are flattened with the corrected rule that carries the text colour (see Findings). The as-written rule is `CardRule`.
- Migration.LoadSettings: the loaded difficulty is kept as a string. The remote row is not checked against the known sub-categories.
- PositionCards.Rerender: a change of library is detected by value. The source compares object identity.
- PositionCards.Mount: the first render shows the loading card only until the mount effect runs; the model goes straight to the drawn card and keeps `LOADING_CARD` as the initial state only.
- Pomodoro.ApplyInv: holds only for positive lengths. With a zero length the zero effect would flip phases without end, and with a negative one the countdown never reaches zero.
- The screens in `ProfileScreen`, `HomeScreen`, `FeaturesScreen` and the common UI components are not part of this model.

## Findings

| source | as written | input that shows it | evidently intended | confidence | as-written member | corrected member |
|---|---|---|---|---|---|---|
| src/utils/emojiGenerator.ts:125 | the unique loop stops at `used.size < ALL_EMOJIS.length`, which counts duplicate entries (262 entries, 214 distinct) | `getRandomEmojis(215, true)`: `used` can never exceed 214, so the loop draws forever | stop at the number of distinct emojis | high (not executed) | Emoji.RandomEmojisUnique | Emoji.RandomEmojisUniqueBounded |
| src/components/screens/TaskEditorScreen.tsx:663 | delete passes `item.id \|\| index`, and deletion filters by id | a record without an id at index 0: the filter compares `undefined !== 0`, and nothing is removed | delete the clicked record | medium (not executed) | TaskEditor.IdlessDeleteExample | TaskEditor.DeleteAt |
| src/components/screens/ChessGameScreen.tsx:419 | the intimate difficulty's count sums only the `intimate` buckets | one warmup task and no intimate task: the count shows 0, while the intimate pool has 1 | the number of tasks the difficulty draws from | medium (not executed) | ChessGame.IntimateCountMisses | ChessGame.PoolCount |
| src/components/screens/ChessGameScreen.tsx:373 | the roll button is disabled at `pos === TOTAL_STEPS - 1`, i.e. cell 71 of the fixed 72 cells | a 10 × 10 board: the button locks at cell 71 of 100; a 5 × 5 board: it stays enabled past the finish | compare with rows × cols − 1 | high (not executed) | ChessGame.RollDisabledWrongBoard | ChessGame.RollDisabledOnBoard |
| src/services/migration.ts:86-93 | card flattening omits `textColor`, so `bulkImportCards` stores `text-white` | a card with `textColor: 'text-pink-800'` reads back with `text-white` | carry `textColor`, which `bulkImportCards` reads | medium (not executed) | Migration.CardTextColorExample | Migration.CardsKeepTextColor |
| src/components/screens/TaskEditorScreen.tsx:536-539 | reset stores the library's `defaultData` object itself, and `handleAddItem` (lines 99-108) writes into the library object it finds | reset, add a record, reset again: the record is still in the bucket, because the add wrote into the default object | reset to an empty copy of the defaults | medium (not executed) | TaskEditor.ResetAddResetExample | TaskEditor.ResetEmpties |

=== FILE: app.dfy ===
/**
 The application shell: its initial state, game reset and turn rotation, the
 board game's result modal, and the player edits of the settings dialog.
 */
module App {
  import opened Wrappers
  import opened Types
  import opened Helpers
  import Emoji

  /** The state the shell keeps; the screen is its string key, e.g. `"CHESS_GAME"`. */
  datatype AppState = AppState(
    screen: string,
    gameStarted: bool,
    players: seq<Player>,
    index: int,
    activeTask: Option<ModalTask>,
    libs: Libraries,
    settings: Settings)

  const CHESS_GAME: string := "CHESS_GAME"
  const HOME: string := "HOME"

  const DEFAULT_PLAYERS: seq<Player> := [
    Player(0, "哥哥", "👦", 0, "bg-blue-500", Male),
    Player(1, "妹妹", "👧", 0, "bg-pink-500", Female)
  ]

  /** Focus 25 minutes, break 5, warm-up difficulty, default board. */
  const DEFAULT_SETTINGS: Settings := Settings(25, 5, Warmup, None, None)

  /** The arrays-of-items objects of an `addIds` result, read back as a library. */
  function AsLibrary(m: map<string, OutEntry>): Library {
    map k | k in m && m[k].OutObj? :: m[k].subs
  }

  /** The initial libraries: each empty default library with ids added. */
  function DefaultLibraries(newId: (string, Option<string>, nat) -> string): Libraries {
    map k: LibraryKind | true :: AsLibrary(AddIds(AsEntries(DefaultLibrary(k)), newId))
  }

  /** Adding ids to a library whose buckets are all empty gives the same library back. */
  lemma AddIdsEmptyLibrary(lib: Library, newId: (string, Option<string>, nat) -> string)
    requires forall r, s :: r in lib && s in lib[r] ==> lib[r][s] == []
    ensures AsLibrary(AddIds(AsEntries(lib), newId)) == lib
  {
    var out := AddIds(AsEntries(lib), newId);
    var res := AsLibrary(out);
    AddIdsKeepsLibraryShape(lib, newId);
    forall r | r in lib ensures res[r] == lib[r] {
      assert out[r].OutObj?;
      forall s | s in lib[r] ensures out[r].subs[s] == lib[r][s] {
        assert |out[r].subs[s]| == |lib[r][s]| == 0;
      }
      assert out[r].subs.Keys == lib[r].Keys;
    }
    assert res.Keys == lib.Keys;
  }

  /** The initial libraries are the empty defaults. */
  lemma DefaultLibrariesAreDefaults(newId: (string, Option<string>, nat) -> string, k: LibraryKind)
    ensures k in DefaultLibraries(newId) && DefaultLibraries(newId)[k] == DefaultLibrary(k)
  {
    DefaultLibraryEmpty(k);
    AddIdsEmptyLibrary(DefaultLibrary(k), newId);
  }

  /** The state at start-up without saved data (saved data is loaded by I/O left out here). */
  function Initial(newId: (string, Option<string>, nat) -> string): (a: AppState)
    ensures |a.players| == 2 && a.index == 0 && a.activeTask.None? && a.screen == HOME
    ensures a.players[0].id == 0 && a.players[1].id == 1
    ensures a.players[0].gender == Male && a.players[1].gender == Female
    ensures forall i :: 0 <= i < 2 ==> a.players[i].pos == 0
    ensures a.settings.focus == 25 && a.settings.brk == 5 && a.settings.chessDifficulty == Warmup
    ensures forall k :: k in a.libs && a.libs[k] == DefaultLibrary(k)
  {
    var a := AppState(HOME, false, DEFAULT_PLAYERS, 0, None, DefaultLibraries(newId), DEFAULT_SETTINGS);
    forall k ensures k in a.libs && a.libs[k] == DefaultLibrary(k) {
      DefaultLibrariesAreDefaults(newId, k);
    }
    a
  }

  /**
   `startGame`: the board is shown with the game marked started; the players,
   whose turn it is, the libraries and the settings carry over, and a task
   left active is on screen again.
   */
  function StartGame(a: AppState): (r: AppState)
    ensures r.gameStarted && r.screen == CHESS_GAME
    ensures r.players == a.players && r.index == a.index
    ensures r.libs == a.libs && r.settings == a.settings && r.activeTask == a.activeTask
    ensures ModalVisible(r) <==> a.activeTask.Some?
  {
    a.(gameStarted := true, screen := CHESS_GAME)
  }

  /** `resetGame`: every piece back to cell 0, the first player's turn, back to the home screen. */
  function ResetGame(a: AppState): (r: AppState)
    ensures |r.players| == |a.players|
    ensures forall i :: 0 <= i < |a.players| ==> r.players[i] == a.players[i].(pos := 0)
    ensures r.index == 0 && !r.gameStarted && r.screen == HOME
    ensures r.activeTask == a.activeTask && r.libs == a.libs && r.settings == a.settings
  {
    a.(gameStarted := false,
       players := seq(|a.players|, i requires 0 <= i < |a.players| => a.players[i].(pos := 0)),
       index := 0, screen := HOME)
  }

  /** `nextTurn`: the next player in order, wrapping around. */
  function NextTurn(a: AppState): (r: AppState)
    requires |a.players| > 0 && a.index >= 0
    ensures 0 <= r.index < |a.players|
    ensures r.index == (a.index + 1) % |a.players|
    ensures r == a.(index := r.index)
  {
    a.(index := (a.index + 1) % |a.players|)
  }

  /** `n` turns in a row: the index moves `n` places forward, wrapping around. */
  function NextTurns(a: AppState, n: nat): (r: AppState)
    requires |a.players| > 0 && a.index >= 0
    ensures r == a.(index := r.index) && r.index >= 0
    ensures a.index < |a.players| ==> r.index == (a.index + n) % |a.players|
    decreases n
  {
    if n == 0 then a
    else
      ModShift(a.index, n, |a.players|);
      NextTurns(NextTurn(a), n - 1)
  }

  /** Taking one step and wrapping, then `n - 1` more, is taking all `n` and wrapping. */
  lemma ModShift(i: int, n: nat, m: int)
    requires 0 <= i && 0 < m && n > 0
    ensures i < m ==> ((i + 1) % m + (n - 1)) % m == (i + n) % m
  {
    if i + 1 == m {
      var x := n - 1;
      ModUnique(m, 1, m, 0);
      assert (x / m + 1) * m == (x / m) * m + m;
      ModUnique(x + m, x / m + 1, m, x % m);
    } else if i + 1 < m {
      ModUnique(i + 1, 0, m, i + 1);
    }
  }

  /** A remainder is the unique one: `q * m + r` with `0 <= r < m` leaves `r`. */
  lemma ModUnique(x: int, q: int, m: int, r: int)
    requires m > 0 && 0 <= r < m && x == q * m + r
    ensures x % m == r
  {
    var q', r' := x / m, x % m;
    assert x == q' * m + r';
    assert (q - q') * m == r' - r;
    if q - q' >= 1 {
      assert false;
    } else if q - q' <= -1 {
      assert false;
    }
  }

  /** With two players, after `n` turns the index is the parity of `n` (starting from player 0). */
  lemma TwoPlayersAlternate(a: AppState, n: nat)
    requires |a.players| == 2 && 0 <= a.index < 2
    ensures NextTurns(a, n).index == (a.index + n) % 2
  {
  }

  // ---------------------------------------------------------------------------
  // The result modal
  // ---------------------------------------------------------------------------

  /** The result modal is on screen only on the board-game screen, with a task to show. */
  predicate ModalVisible(a: AppState) {
    a.screen == CHESS_GAME && a.activeTask.Some?
  }

  /**
   `showTaskModal`: the task becomes the active one; the modal is on screen
   exactly when the board is; nothing else changes.
   */
  function ShowTask(a: AppState, t: ModalTask): (r: AppState)
    ensures r.activeTask == Some(t)
    ensures ModalVisible(r) <==> a.screen == CHESS_GAME
    ensures r.players == a.players && r.index == a.index && r.screen == a.screen
    ensures r.libs == a.libs && r.settings == a.settings && r.gameStarted == a.gameStarted
  {
    a.(activeTask := Some(t))
  }

  /**
   The modal's close button: the modal is dismissed, and the turn passes to
   the next player exactly when the task was not a win.
   */
  function Dismiss(a: AppState): (r: AppState)
    requires ModalVisible(a) && |a.players| > 0 && a.index >= 0
    ensures r.activeTask.None? && !ModalVisible(r)
    ensures a.activeTask.value.isWinner ==> r == a.(activeTask := None)
    ensures !a.activeTask.value.isWinner ==>
              r == a.(activeTask := None, index := (a.index + 1) % |a.players|)
  {
    var closed := a.(activeTask := None);
    if a.activeTask.value.isWinner then closed else NextTurn(closed)
  }

  /**
   A task shown on the board and then closed: the modal is gone and the turn
   passes on exactly when the task was not a win.
   */
  lemma ShowThenDismiss(a: AppState, t: ModalTask)
    requires a.screen == CHESS_GAME && |a.players| > 0 && 0 <= a.index
    ensures var r := Dismiss(ShowTask(a, t));
            && !ModalVisible(r) && r.players == a.players
            && (t.isWinner ==> r == a.(activeTask := None))
            && (!t.isWinner ==> r == a.(activeTask := None, index := (a.index + 1) % |a.players|))
  {
  }

  // ---------------------------------------------------------------------------
  // Player edits
  // ---------------------------------------------------------------------------

  /** A field the settings dialog edits, with its new value. */
  datatype PlayerEdit =
    | SetName(name: string)
    | SetAvatar(avatar: string)
    | SetGender(gender: Role)
    | SetColor(color: string)

  function ApplyEdit(p: Player, e: PlayerEdit): Player {
    match e
    case SetName(n) => p.(name := n)
    case SetAvatar(v) => p.(avatar := v)
    case SetGender(g) => p.(gender := g)
    case SetColor(c) => p.(color := c)
  }

  /** `handlePlayerChange`: only the player at `index` changes, and only in the edited field. */
  function ChangePlayer(players: seq<Player>, index: int, e: PlayerEdit): (r: seq<Player>)
    ensures |r| == |players|
    ensures forall i :: 0 <= i < |players| && i != index ==> r[i] == players[i]
    ensures 0 <= index < |players| ==>
              && r[index].id == players[index].id && r[index].pos == players[index].pos
              && (!e.SetColor? ==> r[index].color == players[index].color)
              && (e.SetName? ==> r[index] == players[index].(name := e.name))
              && (e.SetAvatar? ==> r[index] == players[index].(avatar := e.avatar))
              && (e.SetGender? ==> r[index] == players[index].(gender := e.gender))
              && (e.SetColor? ==> r[index] == players[index].(color := e.color))
  {
    seq(|players|, i requires 0 <= i < |players| => if i == index then ApplyEdit(players[i], e) else players[i])
  }

  /** The random-avatar button: a new avatar from all emojis, nothing else changes. */
  function RandomAvatar(players: seq<Player>, index: int, pick: nat): (r: seq<Player>)
    requires pick < |Emoji.ALL_EMOJIS|
    ensures |r| == |players|
    ensures forall i :: 0 <= i < |players| && i != index ==> r[i] == players[i]
    ensures 0 <= index < |players| ==>
              r[index] == players[index].(avatar := r[index].avatar)
              && r[index].avatar in Emoji.ALL_EMOJIS
  {
    ChangePlayer(players, index, SetAvatar(Emoji.RandomEmoji(None, pick)))
  }

  // ---------------------------------------------------------------------------
  // Who moves the turn
  // ---------------------------------------------------------------------------

  /** The shell's actions that touch the game. */
  datatype Action =
    | Start
    | Reset
    | Show(task: ModalTask)
    | Close
    | Navigate(screen: string)
    | EditPlayer(index: int, edit: PlayerEdit)

  /** An action's effect; closing does something only while the modal is visible. */
  function Apply(a: AppState, act: Action): AppState
    requires |a.players| > 0 && a.index >= 0
  {
    match act
    case Start => StartGame(a)
    case Reset => ResetGame(a)
    case Show(t) => ShowTask(a, t)
    case Close => if ModalVisible(a) then Dismiss(a) else a
    case Navigate(s) => a.(screen := s)
    case EditPlayer(i, e) => a.(players := ChangePlayer(a.players, i, e))
  }

  /**
   Apart from a game reset, only closing the result modal of a task that is
   not a win changes whose turn it is, and that is one step forward.
   */
  lemma OnlyDismissAdvances(a: AppState, act: Action)
    requires |a.players| > 0 && 0 <= a.index
    ensures var r := Apply(a, act);
            r.index != a.index ==>
              act.Reset? || (act.Close? && ModalVisible(a) && !a.activeTask.value.isWinner
                             && r.index == (a.index + 1) % |a.players|)
  {
  }
}

=== FILE: chess_game.dfy ===
/**
 The board game: board size, the dice, moving the current player's piece,
 the task drawn for the landing player, and the turn rotation.

 The step animation is one atomic move together with the sequence of
 positions the piece passes through. `Math.random()` is a real `u` in
 [0, 1) or an index into the pool being drawn from.
 */
module ChessGame {
  import opened Wrappers
  import opened Types

  // ---------------------------------------------------------------------------
  // Board and dice
  // ---------------------------------------------------------------------------

  /**
   The number of cells of the board: the rows and columns of the settings,
   each falling back to the 8 × 9 grid when missing or 0.
   */
  function TotalCells(s: Settings): (n: int)
    ensures s.boardRows.None? && s.boardCols.None? ==> n == TOTAL_STEPS
    ensures s.boardRows.Some? && s.boardRows.value != 0 && s.boardCols.Some? && s.boardCols.value != 0 ==>
              n == s.boardRows.value * s.boardCols.value
    ensures s.boardRows == Some(0) && s.boardCols == Some(0) ==> n == TOTAL_STEPS
    ensures s.boardRows.Some? && s.boardRows.value != 0 && (s.boardCols.None? || s.boardCols == Some(0)) ==>
              n == s.boardRows.value * GRID_COLS
    ensures (s.boardRows.None? || s.boardRows == Some(0)) && s.boardCols.Some? && s.boardCols.value != 0 ==>
              n == GRID_ROWS * s.boardCols.value
    ensures (s.boardRows.None? || s.boardRows == Some(0)) && (s.boardCols.None? || s.boardCols == Some(0)) ==>
              n == TOTAL_STEPS
  {
    NumOr(s.boardRows, GRID_ROWS) * NumOr(s.boardCols, GRID_COLS)
  }

  /** `rollDice`: ignored while a roll is in progress, else `Math.floor(u * 6) + 1`. */
  function RollDice(rolling: bool, u: real): (r: Option<int>)
    requires 0.0 <= u < 1.0
    ensures r.None? <==> rolling
    ensures r.Some? ==> 1 <= r.value <= 6
  {
    if rolling then None else Some((u * 6.0).Floor + 1)
  }

  // ---------------------------------------------------------------------------
  // Moving
  // ---------------------------------------------------------------------------

  /** `Math.min(x, total - 1)`: no cell beyond the last. */
  function Clamp(x: int, total: int): (r: int)
    ensures r <= total - 1 && r <= x
    ensures r == x || r == total - 1
  {
    if x < total - 1 then x else total - 1
  }

  /** The cell a move of `steps` from `start` ends on: the last cell once the move would reach or pass it. */
  function Target(start: int, steps: nat, total: int): (r: int)
    ensures r == total - 1 <==> start + steps >= total - 1
    ensures r < total - 1 ==> r == start + steps
    ensures start <= total - 1 ==> start <= r <= total - 1
  {
    Clamp(start + steps, total)
  }

  /** The positions shown one after another by the step animation. */
  function StepPositions(start: int, steps: nat, total: int): (path: seq<int>)
    ensures |path| == steps
    ensures forall k :: 0 <= k < steps ==> path[k] == Clamp(start + k + 1, total)
  {
    seq(steps, k requires 0 <= k < steps => Clamp(start + k + 1, total))
  }

  /**
   The animation never moves backwards, stays on the board and ends on the
   target cell.
   */
  lemma StepPositionsShape(start: int, steps: nat, total: int)
    requires 0 <= start <= total - 1
    ensures var path := StepPositions(start, steps, total);
            && (forall i, j :: 0 <= i <= j < steps ==> path[i] <= path[j])
            && (forall k :: 0 <= k < steps ==> start <= path[k] <= total - 1)
            && (steps > 0 ==> path[steps - 1] == Target(start, steps, total))
  {
  }

  /** What the board game's result modal is given. */
  datatype Outcome = Shown(task: ModalTask) | Advance

  datatype MoveResult = MoveResult(players: seq<Player>, path: seq<int>, outcome: Outcome)

  /** The item fields a drawn task shows. */
  datatype Drawn = Drawn(content: Option<string>, icon: Option<string>)

  /** The library each difficulty draws from. */
  function PoolKind(d: Sub): Option<LibraryKind> {
    match d
    case Warmup => Some(PositionCardsLibrary)
    case Intimate => Some(TaskLibrary)
    case Adventure => Some(PunishmentLibrary)
    case _ => None
  }

  function TaskSource(d: Sub): string {
    match d
    case Warmup => "姿势卡牌"
    case Intimate => "飞行棋任务"
    case Adventure => "惩罚游戏"
    case _ => ""
  }

  function DifficultyName(d: Sub): string {
    if d == Warmup then "热身" else if d == Intimate then "亲昵" else "挑战"
  }

  /** The three buckets of one role of a library, concatenated in display order. */
  function RoleItems(lib: Library, role: Role, k: LibraryKind): seq<Item> {
    var subs := SubsOf(k);
    Bucket(lib, RoleKey(role), SubKey(subs[0])) + Bucket(lib, RoleKey(role), SubKey(subs[1]))
    + Bucket(lib, RoleKey(role), SubKey(subs[2]))
  }

  /** A position card as a board task: content `title: description`, its icon. */
  function CardAsTask(card: Item): Drawn {
    Drawn(Some(Show(card.title) + ": " + Show(card.description)), card.icon)
  }

  function ItemAsTask(item: Item): Drawn {
    Drawn(item.content, item.icon)
  }

  /**
   The task pool of the landing player: every bucket of the player's role in
   the difficulty's library, position cards turned into tasks; empty for a
   difficulty outside the three.
   */
  function Pool(libs: Libraries, role: Role, d: Sub): (pool: seq<Drawn>)
    requires PoolKind(d).Some? ==> PoolKind(d).value in libs
    ensures PoolKind(d).None? ==> pool == []
    ensures PoolKind(d).Some? ==>
              var items := RoleItems(libs[PoolKind(d).value], role, PoolKind(d).value);
              && |pool| == |items|
              && forall i :: 0 <= i < |items| ==>
                   pool[i] == (if d == Warmup then CardAsTask(items[i]) else ItemAsTask(items[i]))
  {
    match PoolKind(d)
    case None => []
    case Some(k) =>
      var items := RoleItems(libs[k], role, k);
      if d == Warmup then seq(|items|, i requires 0 <= i < |items| => CardAsTask(items[i]))
      else seq(|items|, i requires 0 <= i < |items| => ItemAsTask(items[i]))
  }

  /** Every entry of the pool comes from one of the three buckets of the landing player's role. */
  lemma PoolFromRoleBuckets(libs: Libraries, role: Role, d: Sub, i: nat)
    requires PoolKind(d).Some? && PoolKind(d).value in libs
    requires i < |Pool(libs, role, d)|
    ensures var k := PoolKind(d).value;
            exists s, x :: s in SubsOf(k) && x in Bucket(libs[k], RoleKey(role), SubKey(s))
              && Pool(libs, role, d)[i] == (if d == Warmup then CardAsTask(x) else ItemAsTask(x))
  {
    var k := PoolKind(d).value;
    var subs := SubsOf(k);
    var b0 := Bucket(libs[k], RoleKey(role), SubKey(subs[0]));
    var b1 := Bucket(libs[k], RoleKey(role), SubKey(subs[1]));
    var b2 := Bucket(libs[k], RoleKey(role), SubKey(subs[2]));
    var items := RoleItems(libs[k], role, k);
    assert items == b0 + b1 + b2;
    var x := items[i];
    if i < |b0| {
      assert x == b0[i] && x in b0 && subs[0] in subs;
    } else if i < |b0| + |b1| {
      assert x == b1[i - |b0|] && x in b1 && subs[1] in subs;
    } else {
      assert x == b2[i - |b0| - |b1|] && x in b2 && subs[2] in subs;
    }
  }

  function WinnerTask(name: string): ModalTask {
    ModalTask("游戏结束！", Some(name + " 获胜！请为另一方准备一个小惊喜作为惩罚。"), Some("🎉"), true)
  }

  function PoolTask(d: Sub, t: Drawn): ModalTask {
    ModalTask(DifficultyName(d) + "任务 (" + TaskSource(d) + ")", t.content, t.icon, false)
  }

  function WarningTask(role: Role, d: Sub): ModalTask {
    var who := if role == Male then "男生" else "女生";
    ModalTask("提示",
      Some("当前【" + who + " - " + DifficultyName(d) + " - " + TaskSource(d) + "】任务库为空，请前往管理页面添加任务！"),
      Some(WARNING_ICON), false)
  }

  /**
   `movePiece(steps)` for the current player: the piece goes to
   `min(start + steps, total - 1)`. Reaching the last cell shows the winner's
   modal. Otherwise, when `u` falls under the trigger chance, a task from the
   pool (or the empty-pool warning) is shown; only a miss advances the turn.
   */
  function Move(players: seq<Player>, idx: int, steps: nat, s: Settings, libs: Libraries, u: real, pick: nat): (r: MoveResult)
    requires 0 <= idx < |players|
    requires 0.0 <= u < 1.0
    requires PoolKind(s.chessDifficulty).Some? ==> PoolKind(s.chessDifficulty).value in libs
    requires var pool := Pool(libs, players[idx].gender, s.chessDifficulty); pool == [] || pick < |pool|
    ensures |r.players| == |players|
    ensures forall i :: 0 <= i < |players| && i != idx ==> r.players[i] == players[i]
    ensures r.players[idx] == players[idx].(pos := r.players[idx].pos)
    ensures steps > 0 ==> r.players[idx].pos == Target(players[idx].pos, steps, TotalCells(s))
    ensures steps == 0 ==> r.players[idx].pos == players[idx].pos
    ensures r.path == StepPositions(players[idx].pos, steps, TotalCells(s))
    ensures r.outcome.Shown?
    ensures r.outcome.task.isWinner <==> Target(players[idx].pos, steps, TotalCells(s)) == TotalCells(s) - 1
    ensures r.outcome.task.isWinner ==> r.outcome.task == WinnerTask(players[idx].name)
    ensures !r.outcome.task.isWinner ==>
              var pool := Pool(libs, players[idx].gender, s.chessDifficulty);
              && (pool == [] ==> r.outcome.task == WarningTask(players[idx].gender, s.chessDifficulty))
              && (pool != [] ==> r.outcome.task == PoolTask(s.chessDifficulty, pool[pick])
                                 && r.outcome.task.content == pool[pick].content
                                 && r.outcome.task.icon == pool[pick].icon)
  {
    var total := TotalCells(s);
    var p := players[idx];
    var start := p.pos;
    var target := Target(start, steps, total);
    var path := StepPositions(start, steps, total);
    var moved := players[idx := p.(pos := if steps > 0 then path[steps - 1] else start)];
    if target == total - 1 then
      MoveResult(moved, path, Shown(WinnerTask(p.name)))
    else if u < TASK_TRIGGER_CHANCE then
      var pool := Pool(libs, p.gender, s.chessDifficulty);
      if |pool| > 0 then MoveResult(moved, path, Shown(PoolTask(s.chessDifficulty, pool[pick])))
      else MoveResult(moved, path, Shown(WarningTask(p.gender, s.chessDifficulty)))
    else
      MoveResult(moved, path, Advance)
  }

  /** The board game's own `nextTurn`: the next player, and the dice display cleared. */
  function NextTurn(idx: int, count: int): (r: (int, Option<int>))
    requires idx >= 0 && count > 0
    ensures 0 <= r.0 < count && r.0 == (idx + 1) % count
    ensures r.1.None?
  {
    ((idx + 1) % count, None)
  }

  // ---------------------------------------------------------------------------
  // Displays that disagree with the engine
  // ---------------------------------------------------------------------------

  /** All three libraries are present, as the application state always has them. */
  predicate Complete(libs: Libraries) {
    TaskLibrary in libs && PositionCardsLibrary in libs && PunishmentLibrary in libs
  }

  function Len(lib: Library, role: string, sub: string): nat {
    |Bucket(lib, role, sub)|
  }

  /** The records of three sub-categories of a library, over both roles. */
  function BothRoles(lib: Library, a: string, b: string, c: string): nat {
    Len(lib, "male", a) + Len(lib, "male", b) + Len(lib, "male", c)
    + Len(lib, "female", a) + Len(lib, "female", b) + Len(lib, "female", c)
  }

  /** A pool has one entry per record of the role's three buckets. */
  lemma PoolSize(libs: Libraries, role: Role, d: Sub)
    requires PoolKind(d).Some? && PoolKind(d).value in libs
    ensures var k := PoolKind(d).value;
            var subs := SubsOf(k);
            |Pool(libs, role, d)| == Len(libs[k], RoleKey(role), SubKey(subs[0]))
                                     + Len(libs[k], RoleKey(role), SubKey(subs[1]))
                                     + Len(libs[k], RoleKey(role), SubKey(subs[2]))
  {
  }

  /** Both roles' pools of a difficulty, counted bucket by bucket. */
  lemma WarmupPools(libs: Libraries)
    requires Complete(libs)
    ensures |Pool(libs, Male, Warmup)| + |Pool(libs, Female, Warmup)|
            == BothRoles(libs[PositionCardsLibrary], "cute", "fun", "deep")
  {
    PoolSize(libs, Male, Warmup);
    PoolSize(libs, Female, Warmup);
  }

  lemma IntimatePools(libs: Libraries)
    requires Complete(libs)
    ensures |Pool(libs, Male, Intimate)| + |Pool(libs, Female, Intimate)|
            == BothRoles(libs[TaskLibrary], "warmup", "intimate", "adventure")
  {
    PoolSize(libs, Male, Intimate);
    PoolSize(libs, Female, Intimate);
  }

  lemma AdventurePools(libs: Libraries)
    requires Complete(libs)
    ensures |Pool(libs, Male, Adventure)| + |Pool(libs, Female, Adventure)|
            == BothRoles(libs[PunishmentLibrary], "mild", "medium", "intense")
  {
    PoolSize(libs, Male, Adventure);
    PoolSize(libs, Female, Adventure);
  }

  lemma PoolSizes(libs: Libraries, d: Sub)
    requires Complete(libs)
    ensures var n := |Pool(libs, Male, d)| + |Pool(libs, Female, d)|;
            && (d == Warmup ==> n == BothRoles(libs[PositionCardsLibrary], "cute", "fun", "deep"))
            && (d == Intimate ==> n == BothRoles(libs[TaskLibrary], "warmup", "intimate", "adventure"))
            && (d == Adventure ==> n == BothRoles(libs[PunishmentLibrary], "mild", "medium", "intense"))
            && (PoolKind(d).None? ==> n == 0)
  {
    if d == Warmup {
      WarmupPools(libs);
    } else if d == Intimate {
      IntimatePools(libs);
    } else if d == Adventure {
      AdventurePools(libs);
    }
  }

  /**
   The task count the difficulty dialog shows, as written: both roles' three
   buckets for warm-up and challenge, but only the `intimate` buckets for
   "intimate". For warm-up and challenge that is the size of both roles'
   pools; for "intimate" it can fall short of it.
   */
  function TaskCount(libs: Libraries, d: Sub): (n: nat)
    requires Complete(libs)
    ensures d != Intimate ==> n == |Pool(libs, Male, d)| + |Pool(libs, Female, d)|
    ensures d == Intimate ==> n <= |Pool(libs, Male, d)| + |Pool(libs, Female, d)|
  {
    PoolSizes(libs, d);
    if d == Warmup then BothRoles(libs[PositionCardsLibrary], "cute", "fun", "deep")
    else if d == Intimate then Len(libs[TaskLibrary], "male", "intimate") + Len(libs[TaskLibrary], "female", "intimate")
    else if d == Adventure then BothRoles(libs[PunishmentLibrary], "mild", "medium", "intense")
    else 0
  }

  /**
   The count as evidently intended: the size of both roles' pools, which is
   every bucket of the difficulty's library over both roles.
   */
  function PoolCount(libs: Libraries, d: Sub): (n: nat)
    requires Complete(libs)
    ensures d == Warmup ==> n == BothRoles(libs[PositionCardsLibrary], "cute", "fun", "deep")
    ensures d == Intimate ==> n == BothRoles(libs[TaskLibrary], "warmup", "intimate", "adventure")
    ensures d == Adventure ==> n == BothRoles(libs[PunishmentLibrary], "mild", "medium", "intense")
    ensures PoolKind(d).None? ==> n == 0
  {
    PoolSizes(libs, d);
    |Pool(libs, Male, d)| + |Pool(libs, Female, d)|
  }

  /** For warm-up and challenge the display matches the pools. */
  lemma TaskCountMatchesPools(libs: Libraries, d: Sub)
    requires Complete(libs)
    requires d != Intimate
    ensures TaskCount(libs, d) == PoolCount(libs, d)
  {
  }

  /**
   For "intimate" the display never overcounts, and it is right exactly when
   neither role has a warm-up or challenge task, which the pool also draws.
   */
  lemma IntimateCountBelowPool(libs: Libraries)
    requires Complete(libs)
    ensures TaskCount(libs, Intimate) == Len(libs[TaskLibrary], "male", "intimate") + Len(libs[TaskLibrary], "female", "intimate")
    ensures TaskCount(libs, Intimate) <= PoolCount(libs, Intimate)
    ensures TaskCount(libs, Intimate) == PoolCount(libs, Intimate) <==>
              var t := libs[TaskLibrary];
              Len(t, "male", "warmup") == 0 && Len(t, "male", "adventure") == 0
              && Len(t, "female", "warmup") == 0 && Len(t, "female", "adventure") == 0
  {
  }

  /** One male warm-up task: the pool for "intimate" has it, the displayed count says 0. */
  lemma IntimateCountMisses()
    ensures var item := Item(None, Some("t"), None, None, None, None, None);
            var libs := map[TaskLibrary := map["male" := map["warmup" := [item]]],
                            PositionCardsLibrary := map[], PunishmentLibrary := map[]];
            && Complete(libs)
            && TaskCount(libs, Intimate) == 0 && PoolCount(libs, Intimate) == 1
  {
    var item := Item(None, Some("t"), None, None, None, None, None);
    var libs := map[TaskLibrary := map["male" := map["warmup" := [item]]],
                    PositionCardsLibrary := map[], PunishmentLibrary := map[]];
    assert RoleItems(libs[TaskLibrary], Male, TaskLibrary) == [item];
    assert RoleItems(libs[TaskLibrary], Female, TaskLibrary) == [];
  }

  /**
   Whether the roll button is disabled, as written: the finish is the fixed
   cell `TOTAL_STEPS - 1`, which on the 8 × 9 board is the one cell from
   which no roll moves the piece.
   */
  function RollDisabled(rolling: bool, pos: int): (r: bool)
    ensures rolling ==> r
    ensures !rolling && 0 <= pos <= TOTAL_STEPS - 1 ==> (r <==> Target(pos, 1, TOTAL_STEPS) == pos)
  {
    rolling || pos == TOTAL_STEPS - 1
  }

  /**
   The roll button as evidently intended: disabled on the last cell of the
   board in use, the one cell of that board from which no roll moves the piece.
   */
  function RollDisabledOnBoard(rolling: bool, pos: int, s: Settings): (r: bool)
    ensures rolling ==> r
    ensures !rolling && 0 <= pos <= TotalCells(s) - 1 ==> (r <==> Target(pos, 1, TotalCells(s)) == pos)
  {
    rolling || pos == TotalCells(s) - 1
  }

  /** The two agree on the default board. */
  lemma RollDisabledDefaultBoard(rolling: bool, pos: int, s: Settings)
    requires s.boardRows.None? && s.boardCols.None?
    ensures RollDisabled(rolling, pos) <==> RollDisabledOnBoard(rolling, pos, s)
  {
  }

  /**
   On a 10 × 10 board a player on cell 71 (not the last, 99) cannot roll,
   although every roll from there would move the piece forward; on a 5 × 5
   board the winner on cell 24 can roll again.
   */
  lemma RollDisabledWrongBoard()
    ensures var s := Settings(25, 5, Warmup, Some(10), Some(10));
            RollDisabled(false, 71) && !RollDisabledOnBoard(false, 71, s)
            && forall steps: nat :: 1 <= steps <= 6 ==> Target(71, steps, TotalCells(s)) > 71
    ensures var s := Settings(25, 5, Warmup, Some(5), Some(5));
            !RollDisabled(false, 24) && RollDisabledOnBoard(false, 24, s)
  {
  }
}

=== FILE: database.dfy ===
/**
 The pure parts of the remote store layer: the rows the three bulk imports
 insert, the ids the store assigns, the settings update, and the game
 statistics fold. The network calls themselves are not modelled.
 */
module Database {
  import opened Wrappers
  import opened Types

  /**
   An object handed to a bulk import: a record of a library plus the role
   and sub-category (`difficulty` or `mode`) it was filed under.
   */
  datatype Tagged = Tagged(role: string, sub: string, item: Item)

  /** A row of `task_library` or `punishment_library`, as inserted. */
  datatype ContentRecord = ContentRecord(deviceId: string, role: string, sub: string, content: Option<string>, icon: string)

  /** A row of `position_cards`, as inserted. */
  datatype CardRecord = CardRecord(
    deviceId: string, role: string, mode: string,
    title: Option<string>, description: Option<string>,
    icon: string, color: string, textColor: string)

  const TASK_ICON: string := "📝"
  const CARD_ICON: string := "💑"
  const PUNISHMENT_ICON: string := "🎭"
  const CARD_COLOR: string := "bg-pink-500"
  const CARD_TEXT_COLOR: string := "text-white"

  /** One row per input, in order, stamped with the device id; a missing or empty icon becomes `defaultIcon`. */
  function ContentRecords(deviceId: string, rows: seq<Tagged>, defaultIcon: string): (r: seq<ContentRecord>)
    ensures |r| == |rows|
    ensures forall i :: 0 <= i < |rows| ==>
              && r[i].deviceId == deviceId && r[i].role == rows[i].role && r[i].sub == rows[i].sub
              && r[i].content == rows[i].item.content
              && r[i].icon == Or(rows[i].item.icon, defaultIcon)
  {
    seq(|rows|, i requires 0 <= i < |rows| =>
      ContentRecord(deviceId, rows[i].role, rows[i].sub, rows[i].item.content, Or(rows[i].item.icon, defaultIcon)))
  }

  /** `bulkImportTasks`: the rows inserted into `task_library`. */
  function BulkImportTasks(deviceId: string, rows: seq<Tagged>): (r: seq<ContentRecord>)
    ensures |r| == |rows|
    ensures forall i :: 0 <= i < |rows| ==> r[i].deviceId == deviceId && r[i].icon != ""
  {
    ContentRecords(deviceId, rows, TASK_ICON)
  }

  /** `bulkImportPunishments`: the rows inserted into `punishment_library`. */
  function BulkImportPunishments(deviceId: string, rows: seq<Tagged>): (r: seq<ContentRecord>)
    ensures |r| == |rows|
    ensures forall i :: 0 <= i < |rows| ==> r[i].deviceId == deviceId && r[i].icon != ""
  {
    ContentRecords(deviceId, rows, PUNISHMENT_ICON)
  }

  /**
   `bulkImportCards`: one `position_cards` row per input; icon, colour and
   text colour fall back to `💑`, `bg-pink-500` and `text-white`.
   */
  function BulkImportCards(deviceId: string, rows: seq<Tagged>): (r: seq<CardRecord>)
    ensures |r| == |rows|
    ensures forall i :: 0 <= i < |rows| ==>
              && r[i].deviceId == deviceId && r[i].role == rows[i].role && r[i].mode == rows[i].sub
              && r[i].title == rows[i].item.title && r[i].description == rows[i].item.description
              && r[i].icon == Or(rows[i].item.icon, CARD_ICON)
              && r[i].color == Or(rows[i].item.color, CARD_COLOR)
              && r[i].textColor == Or(rows[i].item.textColor, CARD_TEXT_COLOR)
  {
    seq(|rows|, i requires 0 <= i < |rows| =>
      var x := rows[i].item;
      CardRecord(deviceId, rows[i].role, rows[i].sub, x.title, x.description,
                 Or(x.icon, CARD_ICON), Or(x.color, CARD_COLOR), Or(x.textColor, CARD_TEXT_COLOR)))
  }

  /** Every inserted row has a non-empty icon, colour and text colour. */
  lemma CardRecordsFilled(deviceId: string, rows: seq<Tagged>)
    ensures forall c :: c in BulkImportCards(deviceId, rows) ==> c.icon != "" && c.color != "" && c.textColor != ""
  {
    var r := BulkImportCards(deviceId, rows);
    forall c | c in r ensures c.icon != "" && c.color != "" && c.textColor != "" {
      var i :| 0 <= i < |r| && r[i] == c;
    }
  }

  /** A row as read back: the store adds the id. */
  datatype Saved<R> = Saved(id: Id, rec: R)

  /**
   The store assigns ids to inserted rows. Reads return the rows in insertion
   order here; the source's reads carry no ordering clause.
   */
  function Save<R>(recs: seq<R>, ids: seq<Id>): (r: seq<Saved<R>>)
    requires |ids| == |recs|
    ensures |r| == |recs|
    ensures forall i :: 0 <= i < |recs| ==> r[i].rec == recs[i] && r[i].id == ids[i]
  {
    seq(|recs|, i requires 0 <= i < |recs| => Saved(ids[i], recs[i]))
  }

  // ---------------------------------------------------------------------------
  // Settings
  // ---------------------------------------------------------------------------

  /** A row of `game_settings`. */
  datatype SettingsRow = SettingsRow(chessDifficulty: string, focus: int, brk: int, boardRows: Option<int>, boardCols: Option<int>)

  /** The columns an `updateSettings` call sets. */
  datatype SettingsUpdate = SettingsUpdate(chessDifficulty: string, focus: int, brk: int)

  /** `updateSettings({...})`: the named columns are overwritten, the board size is kept. */
  function UpdateSettings(row: SettingsRow, u: SettingsUpdate): (r: SettingsRow)
    ensures r.chessDifficulty == u.chessDifficulty && r.focus == u.focus && r.brk == u.brk
    ensures r.boardRows == row.boardRows && r.boardCols == row.boardCols
  {
    row.(chessDifficulty := u.chessDifficulty, focus := u.focus, brk := u.brk)
  }

  // ---------------------------------------------------------------------------
  // Game statistics
  // ---------------------------------------------------------------------------

  /** The two columns `getGameStats` selects from `game_history`. */
  datatype GameRecord = GameRecord(gameType: string, winner: Option<string>)

  datatype GameStats = GameStats(totalGames: nat, gamesByType: map<string, nat>, wins: nat)

  /** One step of the `forEach`: bump the record's type, count a truthy winner. */
  function Step(st: GameStats, g: GameRecord): GameStats {
    var prior := if g.gameType in st.gamesByType then st.gamesByType[g.gameType] else 0;
    st.(gamesByType := st.gamesByType[g.gameType := prior + 1],
        wins := if Truthy(g.winner) then st.wins + 1 else st.wins)
  }

  /** The `forEach` over the records, left to right, from `{}` and zero wins. */
  function Fold(data: seq<GameRecord>, total: nat): (st: GameStats)
    ensures st.totalGames == total && st.wins <= |data|
  {
    if data == [] then GameStats(total, map[], 0)
    else Step(Fold(data[..|data| - 1], total), data[|data| - 1])
  }

  /** `getGameStats`: a missing result set counts as no games; otherwise one game per record. */
  function GetGameStats(data: Option<seq<GameRecord>>): (st: GameStats)
    ensures data.None? ==> st.totalGames == 0 && st.gamesByType == map[] && st.wins == 0
    ensures data.Some? ==> st.totalGames == |data.value| && st.wins <= st.totalGames
  {
    match data
    case None => GameStats(0, map[], 0)
    case Some(d) => Fold(d, |d|)
  }

  /** Records of type `t`. */
  function CountType(data: seq<GameRecord>, t: string): nat {
    if data == [] then 0 else (if data[0].gameType == t then 1 else 0) + CountType(data[1..], t)
  }

  /** Records with a truthy winner. */
  function CountWins(data: seq<GameRecord>): (n: nat)
    ensures n <= |data|
  {
    if data == [] then 0 else (if Truthy(data[0].winner) then 1 else 0) + CountWins(data[1..])
  }

  /** The game types in order of first appearance: the key order of `gamesByType`. */
  function TypesOf(data: seq<GameRecord>): (ts: seq<string>)
    ensures forall i, j :: 0 <= i < j < |ts| ==> ts[i] != ts[j]
  {
    if data == [] then []
    else
      var ts := TypesOf(data[..|data| - 1]);
      if data[|data| - 1].gameType in ts then ts else ts + [data[|data| - 1].gameType]
  }

  /** The sum of the map's values over the keys `ts`. */
  function SumOver(m: map<string, nat>, ts: seq<string>): nat
    requires forall t :: t in ts ==> t in m
  {
    if ts == [] then 0 else m[ts[0]] + SumOver(m, ts[1..])
  }

  lemma {:induction false} CountTypeSnoc(data: seq<GameRecord>, g: GameRecord, t: string)
    ensures CountType(data + [g], t) == CountType(data, t) + (if g.gameType == t then 1 else 0)
  {
    if data != [] {
      assert (data + [g])[1..] == data[1..] + [g];
      CountTypeSnoc(data[1..], g, t);
    }
  }

  lemma {:induction false} CountWinsSnoc(data: seq<GameRecord>, g: GameRecord)
    ensures CountWins(data + [g]) == CountWins(data) + (if Truthy(g.winner) then 1 else 0)
  {
    if data != [] {
      assert (data + [g])[1..] == data[1..] + [g];
      CountWinsSnoc(data[1..], g);
    }
  }

  /** Raising one key of a map by one raises the sum over distinct keys containing it by one. */
  lemma {:induction false} SumOverBump(m: map<string, nat>, ts: seq<string>, t: string, v: nat)
    requires forall u :: u in ts ==> u in m
    requires forall i, j :: 0 <= i < j < |ts| ==> ts[i] != ts[j]
    ensures t in ts && t in m && v == m[t] + 1 ==> SumOver(m[t := v], ts) == SumOver(m, ts) + 1
    ensures t !in ts ==> SumOver(m[t := v], ts) == SumOver(m, ts)
  {
    if ts != [] {
      SumOverBump(m, ts[1..], t, v);
      if ts[0] == t {
        assert t !in ts[1..] by {
          forall i | 0 <= i < |ts[1..]| ensures ts[1..][i] != t {
            assert ts[1..][i] == ts[i + 1];
          }
        }
      }
    }
  }

  lemma {:induction false} SumOverSnoc(m: map<string, nat>, ts: seq<string>, t: string)
    requires forall u :: u in ts ==> u in m
    requires t in m
    ensures SumOver(m, ts + [t]) == SumOver(m, ts) + m[t]
  {
    if ts != [] {
      assert (ts + [t])[1..] == ts[1..] + [t];
      SumOverSnoc(m, ts[1..], t);
    }
  }

  /** The statistics agree with the direct counts over `data` (the sum aside). */
  ghost predicate Tallied(st: GameStats, data: seq<GameRecord>) {
    && st.wins == CountWins(data)
    && (forall t :: t in st.gamesByType <==> t in TypesOf(data))
    && (forall t :: t in st.gamesByType ==> st.gamesByType[t] == CountType(data, t))
    && (forall t :: t !in TypesOf(data) ==> CountType(data, t) == 0)
  }

  lemma TypesOfSnoc(data: seq<GameRecord>, g: GameRecord)
    ensures TypesOf(data + [g]) == if g.gameType in TypesOf(data) then TypesOf(data) else TypesOf(data) + [g.gameType]
  {
    assert (data + [g])[..|data|] == data;
  }

  /** One step of the fold keeps the counts in line with the records seen so far. */
  lemma TallyStep(st0: GameStats, data: seq<GameRecord>, g: GameRecord)
    requires Tallied(st0, data)
    ensures Tallied(Step(st0, g), data + [g])
  {
    var gt := g.gameType;
    var m0 := st0.gamesByType;
    var m := Step(st0, g).gamesByType;
    var ts0 := TypesOf(data);
    var ts := TypesOf(data + [g]);
    TypesOfSnoc(data, g);
    CountWinsSnoc(data, g);
    assert forall t :: t in m <==> t in m0 || t == gt;
    assert forall t :: t in ts <==> t in ts0 || t == gt;
    forall t | t in m ensures m[t] == CountType(data + [g], t) {
      CountTypeSnoc(data, g, t);
      if t == gt && gt !in m0 {
        assert gt !in ts0;
      }
    }
    forall t | t !in ts ensures CountType(data + [g], t) == 0 {
      CountTypeSnoc(data, g, t);
      assert t != gt && t !in ts0;
    }
  }

  /**
   Bumping key `t` (counting a missing key as zero) and listing it if it is
   new adds one to the sum over the listed keys.
   */
  lemma SumStep(m0: map<string, nat>, ts0: seq<string>, t: string)
    requires forall u :: u in ts0 ==> u in m0
    requires forall i, j :: 0 <= i < j < |ts0| ==> ts0[i] != ts0[j]
    requires t in m0 ==> t in ts0
    ensures var m := m0[t := (if t in m0 then m0[t] else 0) + 1];
            var ts := if t in ts0 then ts0 else ts0 + [t];
            && (forall u :: u in ts ==> u in m)
            && SumOver(m, ts) == SumOver(m0, ts0) + 1
  {
    var prior := if t in m0 then m0[t] else 0;
    var m := m0[t := prior + 1];
    SumOverBump(m0, ts0, t, prior + 1);
    if t !in ts0 {
      SumOverSnoc(m, ts0, t);
    }
  }

  /** Statistics over `data` started from `total`: counts in line, per-type counts summing to `|data|`. */
  ghost predicate Counted(st: GameStats, data: seq<GameRecord>, total: nat) {
    && st.totalGames == total
    && Tallied(st, data)
    && SumOver(st.gamesByType, TypesOf(data)) == |data|
  }

  /** Folding one more record keeps the statistics counted. */
  lemma FoldSnoc(init: seq<GameRecord>, g: GameRecord, total: nat)
    requires Counted(Fold(init, total), init, total)
    ensures Counted(Fold(init + [g], total), init + [g], total)
  {
    var st0 := Fold(init, total);
    var gt := g.gameType;
    var m0 := st0.gamesByType;
    var ts0 := TypesOf(init);
    var st := Fold(init + [g], total);
    assert (init + [g])[..|init|] == init;
    assert st == Step(st0, g);
    TallyStep(st0, init, g);
    TypesOfSnoc(init, g);
    assert st.gamesByType == m0[gt := (if gt in m0 then m0[gt] else 0) + 1];
    assert TypesOf(init + [g]) == if gt in ts0 then ts0 else ts0 + [gt];
    SumStep(m0, ts0, gt);
  }

  /**
   The fold agrees with the direct counts: wins counts truthy winners, each
   type maps to its number of records, the keys are exactly the types that
   occur, and the per-type counts add up to the number of records.
   */
  lemma {:induction false} FoldCounts(data: seq<GameRecord>, total: nat)
    ensures Counted(Fold(data, total), data, total)
  {
    if data != [] {
      var init := data[..|data| - 1];
      var g := data[|data| - 1];
      FoldCounts(init, total);
      FoldSnoc(init, g, total);
      assert data == init + [g];
    }
  }

  /** `getGameStats`: total, wins and per-type counts, consistent with each other. */
  lemma GameStatsCounts(data: seq<GameRecord>)
    ensures var st := GetGameStats(Some(data));
            && st.totalGames == |data|
            && st.wins == CountWins(data) <= st.totalGames
            && (forall t :: t in st.gamesByType <==> t in TypesOf(data))
            && (forall t :: t in st.gamesByType ==> st.gamesByType[t] == CountType(data, t))
            && SumOver(st.gamesByType, TypesOf(data)) == st.totalGames
  {
    FoldCounts(data, |data|);
  }
}

=== FILE: edit_item.dfy ===
/**
 The edit dialog of the library editor: its form is filled from the item when
 it opens, the "auto emoji" button suggests an icon, and submitting merges the
 form over the original item.
 */
module EditItem {
  import opened Wrappers
  import opened Text
  import opened Types
  import Emoji

  /** The dialog's state: the form and the selected destination role and sub-category. */
  datatype Dialog = Dialog(form: Form, role: string, sub: string)

  /** The form an item opens with: each text field, or `''` when it is missing or empty. */
  function InitForm(item: Item): (f: Form)
    ensures f.content == Or(item.content, "") && f.icon == Or(item.icon, "")
    ensures f.title == Or(item.title, "") && f.description == Or(item.description, "")
  {
    Form(Or(item.content, ""), Or(item.icon, ""), Or(item.title, ""), Or(item.description, ""))
  }

  /** The dialog renders only when it is open and has an item. */
  predicate Renders(isOpen: bool, item: Option<Item>) {
    isOpen && item.Some?
  }

  /**
   The effect that runs when the dialog opens (or its item or the editor's view
   changes): with an item, the form is refilled and the destination resets to
   the editor's current role and sub-category; otherwise nothing changes.
   */
  function OnOpen(d: Dialog, isOpen: bool, item: Option<Item>, currentRole: string, currentSub: string): (r: Dialog)
    ensures Renders(isOpen, item) ==>
              r.form == InitForm(item.value) && r.role == currentRole && r.sub == currentSub
    ensures !Renders(isOpen, item) ==> r == d
  {
    if isOpen && item.Some? then Dialog(InitForm(item.value), currentRole, currentSub) else d
  }

  /**
   The "auto emoji" button: with some text in content or title, the icon
   becomes a suggestion for that text; with neither, the form is unchanged.
   */
  function AutoEmoji(f: Form, pick: nat): (r: Form)
    requires pick < |Emoji.PoolOf(Emoji.SmartCategory(TextContent(f)))|
    ensures TextContent(f) == "" ==> r == f
    ensures TextContent(f) != "" ==>
              && r == f.(icon := r.icon)
              && r.icon in Emoji.PoolOf(Emoji.SmartCategory(TextContent(f)))
              && r.icon != ""
  {
    var t := TextContent(f);
    if t != "" then f.(icon := Emoji.SmartEmoji(t, pick)) else f
  }

  /**
   `{ ...item, ...formData, icon: formData.icon || item.icon }`: the four form
   fields override the item (untrimmed), except that an empty form icon keeps
   the item's icon; every other field of the item is kept.
   */
  function Submit(item: Item, f: Form): (r: Item)
    ensures r.id == item.id && r.color == item.color && r.textColor == item.textColor
    ensures r.content == Some(f.content) && r.title == Some(f.title)
    ensures r.description == Some(f.description)
    ensures f.icon != "" ==> r.icon == Some(f.icon)
    ensures f.icon == "" ==> r.icon == item.icon
  {
    Item(item.id, Some(f.content), if f.icon != "" then Some(f.icon) else item.icon,
         Some(f.title), Some(f.description), item.color, item.textColor)
  }

  /**
   Submitting the form an item opened with gives the item back exactly when it
   has all three text fields; a task or punishment, which has no title or
   description, comes back with both set to `''`. The icon always survives.
   */
  lemma SubmitUnchangedForm(item: Item)
    ensures Submit(item, InitForm(item)).icon == item.icon
    ensures Submit(item, InitForm(item)) == item <==>
              (item.content.Some? && item.title.Some? && item.description.Some?)
    ensures item.title.None? ==> Submit(item, InitForm(item)).title == Some("")
    ensures item.description.None? ==> Submit(item, InitForm(item)).description == Some("")
  {
  }

  /** Submitting twice with the same form is the same as submitting once. */
  lemma SubmitIdempotent(item: Item, f: Form)
    ensures Submit(Submit(item, f), f) == Submit(item, f)
  {
  }
}

=== FILE: emoji.dfy ===
/**
 The emoji suggester: fourteen themed pools, a keyword router that picks a pool
 from an item's text, and batch drawing with or without repetition.

 `Math.random()` is replaced by a caller-supplied index into the pool being
 drawn from.
 */
module Emoji {
  import opened Wrappers
  import opened Text

  datatype Category =
    | Emotions | Actions | Body | Faces | Games | Romance | Food
    | Animals | Nature | Symbols | Objects | Fashion | Intimate | Cute

  const EMOTIONS: seq<string> :=
    ["😊", "😍", "🥰", "😘", "💋", "💕", "💖", "💗", "💓", "💞", "💝", "❤️", "🧡", "💛", "💚", "💙", "💜", "🤎", "🖤", "🤍"]

  const ACTIONS: seq<string> :=
    ["👋", "🤝", "👏", "🙌", "👐", "🤲", "🙏", "✋", "🤚", "👆", "👇", "👉", "👈", "✌️", "🤞", "🤟", "🤘", "👌", "🤌", "🤏"]

  const BODY: seq<string> :=
    ["👀", "👁️", "👄", "👅", "👃", "👂", "🦶", "🦵", "💪", "🫂", "🫱", "🫲", "🫳", "🫴", "🫰"]

  const FACES: seq<string> :=
    ["😳", "😈", "😇", "🥺", "🤭", "🤫", "🤗", "🙈", "🙊", "🙉", "💁", "🙆", "🙅", "🤷", "🤦", "🙋"]

  const GAMES: seq<string> :=
    ["🎮", "🎲", "🎯", "🎪", "🎭", "🎨", "🎬", "🎤", "🎧", "🎼", "🎹", "🎸", "🎺", "🎻", "🥁", "🎰", "🃏"]

  const ROMANCE: seq<string> :=
    ["💐", "🌹", "🌺", "🌸", "🌼", "🌻", "💍", "💎", "👑", "🎀", "🎁", "🎈", "🎉", "🎊", "✨", "⭐", "🌟", "💫"]

  const FOOD: seq<string> :=
    ["🍓", "🍒", "🍑", "🍇", "🍉", "🍌", "🍍", "🥝", "🍰", "🎂", "🧁", "🍪", "🍫", "🍬", "🍭", "🍮", "🍯", "🍷", "🥂", "🍾"]

  const ANIMALS: seq<string> :=
    ["🐱", "🐶", "🐭", "🐹", "🐰", "🦊", "🐻", "🐼", "🐨", "🐯", "🦁", "🐮", "🐷", "🐸", "🐵", "🙈", "🙉", "🙊", "🐔", "🐧"]

  const NATURE: seq<string> :=
    ["🌈", "☀️", "🌙", "⭐", "💫", "✨", "⚡", "🔥", "💧", "❄️", "🌊", "🌸", "🌺", "🌻", "🌹", "🌷", "🌴", "🌵", "🌾", "🍀"]

  const SYMBOLS: seq<string> :=
    ["✅", "❌", "⭕", "💯", "🔥", "💥", "💢", "💤", "💨", "💦", "💫", "💬", "💭", "🗨️", "🗯️", "💕", "💞", "💓", "💗", "💖"]

  const OBJECTS: seq<string> :=
    ["🎭", "🎨", "🖼️", "🎬", "🎪", "🎢", "🎡", "🎠", "🎰", "🧸", "🪆", "🎁", "🎀", "🎏", "🎐", "🧧", "🎑", "🧨", "🎇", "🎆"]

  const FASHION: seq<string> :=
    ["👗", "👔", "👕", "👖", "👙", "👚", "👛", "👜", "👝", "🎒", "👞", "👟", "👠", "👡", "👢", "👑", "👒", "🎩", "🎓", "🧢"]

  const INTIMATE: seq<string> :=
    ["🔥", "💋", "👄", "😈", "😏", "🤤", "🥵", "💦", "🍑", "🍆", "🌶️", "🔞", "⛓️", "🎀", "🕯️", "🧊", "🪶"]

  const CUTE: seq<string> :=
    ["🎀", "💗", "🌸", "🌺", "🦄", "🌈", "✨", "💫", "🧁", "🍰", "🍬", "🍭", "🧸", "🎈", "🌟", "⭐", "💖", "🫧", "🪅"]

  function Pool(c: Category): seq<string> {
    match c
    case Emotions => EMOTIONS
    case Actions => ACTIONS
    case Body => BODY
    case Faces => FACES
    case Games => GAMES
    case Romance => ROMANCE
    case Food => FOOD
    case Animals => ANIMALS
    case Nature => NATURE
    case Symbols => SYMBOLS
    case Objects => OBJECTS
    case Fashion => FASHION
    case Intimate => INTIMATE
    case Cute => CUTE
  }

  /** `ALL_EMOJIS`: the pools flattened in declaration order, duplicates kept. */
  const ALL_EMOJIS: seq<string> :=
    EMOTIONS + ACTIONS + BODY + FACES + GAMES + ROMANCE + FOOD
    + ANIMALS + NATURE + SYMBOLS + OBJECTS + FASHION + INTIMATE + CUTE

  /** The set of distinct emojis. */
  function AllEmojiSet(): set<string> {
    Elements(ALL_EMOJIS)
  }

  /** The pool a draw uses: the category's, or the union when no category is given. */
  function PoolOf(c: Option<Category>): seq<string> {
    if c.Some? then Pool(c.value) else ALL_EMOJIS
  }

  lemma PoolInAll(c: Option<Category>)
    ensures |PoolOf(c)| > 0
    ensures forall e :: e in PoolOf(c) ==> e in ALL_EMOJIS
  {
  }

  /**
   A glyph: a non-empty string whose first and last characters lie at or above
   U+2600 and are not white space, so `trim` leaves it alone.
   */
  predicate GlyphChar(c: char) {
    '\U{2600}' <= c && c != '\U{3000}' && c != '\U{FEFF}'
  }

  predicate Glyph(e: string) {
    |e| > 0 && GlyphChar(e[0]) && GlyphChar(e[|e| - 1])
  }

  lemma GlyphTrimmed(e: string)
    requires Glyph(e)
    ensures e != "" && Trimmed(e) && Trim(e) == e
  {
    TrimTrimmed(e);
  }

  predicate AllGlyphs(s: seq<string>) {
    forall i :: 0 <= i < |s| ==> Glyph(s[i])
  }

  lemma EmotionsGlyphs() ensures AllGlyphs(EMOTIONS) { }
  lemma ActionsGlyphs() ensures AllGlyphs(ACTIONS) { }
  lemma BodyGlyphs() ensures AllGlyphs(BODY) { }
  lemma FacesGlyphs() ensures AllGlyphs(FACES) { }
  lemma GamesGlyphs() ensures AllGlyphs(GAMES) { }
  lemma RomanceGlyphs() ensures AllGlyphs(ROMANCE) { }
  lemma FoodGlyphs() ensures AllGlyphs(FOOD) { }
  lemma AnimalsGlyphs() ensures AllGlyphs(ANIMALS) { }
  lemma NatureGlyphs() ensures AllGlyphs(NATURE) { }
  lemma SymbolsGlyphs() ensures AllGlyphs(SYMBOLS) { }
  lemma ObjectsGlyphs() ensures AllGlyphs(OBJECTS) { }
  lemma FashionGlyphs() ensures AllGlyphs(FASHION) { }
  lemma IntimateGlyphs() ensures AllGlyphs(INTIMATE) { }
  lemma CuteGlyphs() ensures AllGlyphs(CUTE) { }

  lemma PoolGlyphs(c: Category)
    ensures AllGlyphs(Pool(c))
  {
    match c
    case Emotions => EmotionsGlyphs();
    case Actions => ActionsGlyphs();
    case Body => BodyGlyphs();
    case Faces => FacesGlyphs();
    case Games => GamesGlyphs();
    case Romance => RomanceGlyphs();
    case Food => FoodGlyphs();
    case Animals => AnimalsGlyphs();
    case Nature => NatureGlyphs();
    case Symbols => SymbolsGlyphs();
    case Objects => ObjectsGlyphs();
    case Fashion => FashionGlyphs();
    case Intimate => IntimateGlyphs();
    case Cute => CuteGlyphs();
  }

  lemma GlyphsConcat(a: seq<string>, b: seq<string>)
    requires AllGlyphs(a) && AllGlyphs(b)
    ensures AllGlyphs(a + b)
  {
  }

  lemma EveryEmojiGlyph()
    ensures forall e :: e in ALL_EMOJIS ==> Glyph(e)
  {
    var acc: seq<string> := [];
    PoolGlyphs(Emotions); GlyphsConcat(acc, EMOTIONS); acc := acc + EMOTIONS;
    PoolGlyphs(Actions); GlyphsConcat(acc, ACTIONS); acc := acc + ACTIONS;
    PoolGlyphs(Body); GlyphsConcat(acc, BODY); acc := acc + BODY;
    PoolGlyphs(Faces); GlyphsConcat(acc, FACES); acc := acc + FACES;
    PoolGlyphs(Games); GlyphsConcat(acc, GAMES); acc := acc + GAMES;
    PoolGlyphs(Romance); GlyphsConcat(acc, ROMANCE); acc := acc + ROMANCE;
    PoolGlyphs(Food); GlyphsConcat(acc, FOOD); acc := acc + FOOD;
    PoolGlyphs(Animals); GlyphsConcat(acc, ANIMALS); acc := acc + ANIMALS;
    PoolGlyphs(Nature); GlyphsConcat(acc, NATURE); acc := acc + NATURE;
    PoolGlyphs(Symbols); GlyphsConcat(acc, SYMBOLS); acc := acc + SYMBOLS;
    PoolGlyphs(Objects); GlyphsConcat(acc, OBJECTS); acc := acc + OBJECTS;
    PoolGlyphs(Fashion); GlyphsConcat(acc, FASHION); acc := acc + FASHION;
    PoolGlyphs(Intimate); GlyphsConcat(acc, INTIMATE); acc := acc + INTIMATE;
    PoolGlyphs(Cute); GlyphsConcat(acc, CUTE); acc := acc + CUTE;
    assert acc == ALL_EMOJIS;
  }

  /**
   `getRandomEmoji(category?)`: an emoji of the category's pool, or of the
   union of all pools when no category is given.
   */
  function RandomEmoji(c: Option<Category>, pick: nat): (r: string)
    requires pick < |PoolOf(c)|
    ensures r in PoolOf(c) && r in ALL_EMOJIS
    ensures Glyph(r)
  {
    PoolInAll(c);
    EveryEmojiGlyph();
    PoolOf(c)[pick]
  }

  // ---------------------------------------------------------------------------
  // Keyword routing
  // ---------------------------------------------------------------------------

  datatype KeywordGroup = KeywordGroup(keywords: seq<string>, category: Category)

  /** The keyword groups `getSmartEmoji` tests, in the order it tests them. */
  const KEYWORD_GROUPS: seq<KeywordGroup> := [
    KeywordGroup(["亲", "吻", "kiss"], Intimate),
    KeywordGroup(["抱", "hug"], Emotions),
    KeywordGroup(["深蹲", "俯卧撑", "运动"], Actions),
    KeywordGroup(["可爱", "萌", "猫"], Cute),
    KeywordGroup(["情话", "浪漫", "玫瑰"], Romance),
    KeywordGroup(["惩罚", "绑", "跪"], Intimate),
    KeywordGroup(["表演", "跳舞", "唱"], Games)
  ]

  predicate Matches(text: string, g: KeywordGroup) {
    exists k :: k in g.keywords && Contains(text, k)
  }

  /** The category of the first group with a keyword in `text`, if any. */
  function FirstMatch(text: string, groups: seq<KeywordGroup>): (r: Option<Category>)
    ensures r.None? <==> forall i :: 0 <= i < |groups| ==> !Matches(text, groups[i])
    ensures r.Some? ==> exists i :: 0 <= i < |groups| && Matches(text, groups[i])
                           && groups[i].category == r.value
                           && forall j :: 0 <= j < i ==> !Matches(text, groups[j])
  {
    if groups == [] then None
    else if Matches(text, groups[0]) then Some(groups[0].category)
    else
      var r := FirstMatch(text, groups[1..]);
      assert forall i :: 0 <= i < |groups| - 1 ==> groups[1..][i] == groups[i + 1];
      r
  }

  /**
   The pool `getSmartEmoji` draws from: keyword routing on the lower-cased
   text. Only six of the fourteen pools can be chosen this way.
   */
  function SmartCategory(content: string): (r: Option<Category>)
    ensures r.None? <==> forall i :: 0 <= i < |KEYWORD_GROUPS| ==> !Matches(ToLower(content), KEYWORD_GROUPS[i])
    ensures r.Some? ==> r.value in {Intimate, Emotions, Actions, Cute, Romance, Games}
  {
    FirstMatch(ToLower(content), KEYWORD_GROUPS)
  }

  /**
   `getSmartEmoji(content)`: a draw from the pool of the first keyword group
   found in the lower-cased text, or from the union of all pools.
   */
  function SmartEmoji(content: string, pick: nat): (r: string)
    requires pick < |PoolOf(SmartCategory(content))|
    ensures r in PoolOf(SmartCategory(content)) && r in ALL_EMOJIS
    ensures Glyph(r) && Trim(r) == r
  {
    var r := RandomEmoji(SmartCategory(content), pick);
    GlyphTrimmed(r);
    r
  }

  /** Routing looks only at the lower-cased text, so ASCII case never matters. */
  lemma SmartCategoryIgnoresCase(content: string)
    ensures SmartCategory(ToLower(content)) == SmartCategory(content)
  {
    ToLowerIdempotent(content);
  }

  /** The first group wins: any text mentioning "kiss" routes to the intimate pool. */
  lemma KissRoutesToIntimate(content: string)
    requires Contains(ToLower(content), "kiss")
    ensures SmartCategory(content) == Some(Intimate)
  {
    assert Matches(ToLower(content), KEYWORD_GROUPS[0]);
  }

  // ---------------------------------------------------------------------------
  // Batch drawing
  // ---------------------------------------------------------------------------

  predicate ValidPicks(picks: seq<nat>) {
    forall i :: 0 <= i < |picks| ==> picks[i] < |ALL_EMOJIS|
  }

  predicate Distinct(s: seq<string>) {
    forall i, j :: 0 <= i < j < |s| ==> s[i] != s[j]
  }

  /**
   `getRandomEmojis(count, false)`: `count` draws from the union; a negative
   count is an array length of 0, as `Array.from` reads it.
   */
  function RandomEmojis(count: int, picks: seq<nat>): (r: seq<string>)
    requires ValidPicks(picks) && count <= |picks|
    ensures count <= 0 ==> r == []
    ensures count > 0 ==> |r| == count
    ensures forall i :: 0 <= i < |r| ==> r[i] == ALL_EMOJIS[picks[i]]
  {
    var n := if count < 0 then 0 else count;
    seq(n, i requires 0 <= i < n => RandomEmoji(None, picks[i]))
  }

  function Elements(s: seq<string>): set<string> {
    set e | e in s
  }

  /**
   The unique-mode loop of `getRandomEmojis` over `pool`: draw `pool[pick]` and
   keep it if unseen, while fewer than `count` are kept and fewer than `limit`
   distinct ones have been seen. The random stream is the finite `picks`; the
   loop also ends when it runs out.
   */
  method DrawUnique(pool: seq<string>, limit: nat, count: int, picks: seq<nat>)
    returns (result: seq<string>, drawn: nat)
    requires forall i :: 0 <= i < |picks| ==> picks[i] < |pool|
    ensures Distinct(result) && |result| <= (if count > 0 then count else 0)
    ensures Elements(result) <= Elements(pool)
    ensures drawn <= |picks| && forall j :: 0 <= j < drawn ==> pool[picks[j]] in result
    ensures |result| < count ==> drawn == |picks| || |result| >= limit
  {
    result := [];
    var used: set<string> := {};
    drawn := 0;
    while |result| < count && |used| < limit && drawn < |picks|
      invariant drawn <= |picks|
      invariant used == Elements(result) && |used| == |result|
      invariant Distinct(result)
      invariant used <= Elements(pool)
      invariant |result| <= (if count > 0 then count else 0)
      invariant forall j :: 0 <= j < drawn ==> pool[picks[j]] in result
    {
      var emoji := pool[picks[drawn]];
      if emoji !in used {
        DistinctAppend(result, emoji);
        used := used + {emoji};
        result := result + [emoji];
      }
      drawn := drawn + 1;
    }
  }

  lemma DistinctAppend(s: seq<string>, e: string)
    requires Distinct(s) && |Elements(s)| == |s| && e !in Elements(s)
    ensures Distinct(s + [e]) && Elements(s + [e]) == Elements(s) + {e}
    ensures |Elements(s + [e])| == |s + [e]|
  {
    assert Elements(s + [e]) == Elements(s) + {e};
  }

  /**
   `getRandomEmojis(count, true)` as written: the guard compares the number of
   distinct emojis seen with `ALL_EMOJIS.length`. That bound is never reached,
   so the loop stops short of `count` only when the random stream runs out: in
   JavaScript, asking for more than the number of distinct emojis never returns.
   */
  method RandomEmojisUnique(count: int, picks: seq<nat>) returns (result: seq<string>, drawn: nat)
    requires ValidPicks(picks)
    ensures Distinct(result) && |result| <= (if count > 0 then count else 0)
    ensures Elements(result) <= AllEmojiSet()
    ensures drawn <= |picks| && forall j :: 0 <= j < drawn ==> ALL_EMOJIS[picks[j]] in result
    ensures |result| < count ==> drawn == |picks|
    ensures count > |AllEmojiSet()| ==> drawn == |picks|
  {
    result, drawn := DrawUnique(ALL_EMOJIS, |ALL_EMOJIS|, count, picks);
    DistinctCardinality(result);
    SubsetCardinality(Elements(result), AllEmojiSet());
    FewerDistinctThanListed();
  }

  /**
   `getRandomEmojis(count, true)` with the guard measured against the number of
   distinct emojis: it stops short of `count` only when every distinct emoji
   has been kept (or the random stream ran out).
   */
  method RandomEmojisUniqueBounded(count: int, picks: seq<nat>) returns (result: seq<string>, drawn: nat)
    requires ValidPicks(picks)
    ensures Distinct(result) && |result| <= (if count > 0 then count else 0)
    ensures Elements(result) <= AllEmojiSet()
    ensures drawn <= |picks| && forall j :: 0 <= j < drawn ==> ALL_EMOJIS[picks[j]] in result
    ensures |result| < count ==> drawn == |picks| || Elements(result) == AllEmojiSet()
  {
    result, drawn := DrawUnique(ALL_EMOJIS, |AllEmojiSet()|, count, picks);
    DistinctCardinality(result);
    if Elements(result) != AllEmojiSet() {
      StrictSubsetCardinality(Elements(result), AllEmojiSet());
    }
  }

  lemma {:induction false} DistinctCardinality(s: seq<string>)
    requires Distinct(s)
    ensures |Elements(s)| == |s|
  {
    if s != [] {
      var t := s[..|s| - 1];
      DistinctCardinality(t);
      assert Elements(s) == Elements(t) + {s[|s| - 1]};
    }
  }

  /** A sequence with a repeated element has fewer distinct elements than entries. */
  lemma {:induction false} CardinalityOfElements(s: seq<string>)
    ensures |Elements(s)| <= |s|
    ensures (exists i, j :: 0 <= i < j < |s| && s[i] == s[j]) ==> |Elements(s)| < |s|
  {
    if s != [] {
      var t := s[1..];
      CardinalityOfElements(t);
      assert Elements(s) == Elements(t) + {s[0]};
      if exists i, j :: 0 <= i < j < |s| && s[i] == s[j] {
        var i, j :| 0 <= i < j < |s| && s[i] == s[j];
        if i == 0 {
          assert s[0] in t by { assert t[j - 1] == s[j]; }
          assert Elements(s) == Elements(t);
        } else {
          assert t[i - 1] == t[j - 1];
        }
      }
    }
  }

  /** "🙈" is listed twice (faces and animals), so there are fewer distinct emojis than entries. */
  lemma FewerDistinctThanListed()
    ensures |AllEmojiSet()| < |ALL_EMOJIS|
  {
    assert ALL_EMOJIS[62] == "🙈" == ALL_EMOJIS[141];
    CardinalityOfElements(ALL_EMOJIS);
  }

  lemma SubsetCardinality(a: set<string>, b: set<string>)
    requires a <= b
    ensures |a| <= |b|
  {
    assert b == a + (b - a);
  }

  lemma StrictSubsetCardinality(a: set<string>, b: set<string>)
    requires a <= b && a != b
    ensures |a| < |b|
  {
    var x :| x in b && x !in a;
    assert b == a + (b - a);
    assert x in b - a;
  }
}

=== FILE: helpers.dfy ===
/**
 The shared helpers: the static library configuration table, the board path,
 the `mm:ss` time formatter and `addIds`.
 */
module Helpers {
  import opened Wrappers
  import opened Text
  import opened Types

  // ---------------------------------------------------------------------------
  // Library configuration
  // ---------------------------------------------------------------------------

  /** The record fields the editor knows how to ask for. */
  datatype Field = ContentField | IconField | TitleField | DescriptionField | ColorField | TextColorField

  datatype Mode<K> = Mode(key: K, name: string)

  datatype LibraryConfig = LibraryConfig(
    name: string,
    modes: seq<Mode<Role>>,
    subModes: seq<Mode<Sub>>,
    defaultData: Library,
    fields: seq<Field>)

  function Keys<K>(ms: seq<Mode<K>>): (ks: seq<K>)
    ensures |ks| == |ms| && forall i :: 0 <= i < |ms| ==> ks[i] == ms[i].key
  {
    if ms == [] then [] else [ms[0].key] + Keys(ms[1..])
  }

  const ROLE_MODES: seq<Mode<Role>> := [Mode(Male, "👨 男生"), Mode(Female, "👩 女生")]

  /** `getLibraryConfig`: the configuration of a library, or `null` for any other key. */
  function GetLibraryConfig(key: string): (r: Option<LibraryConfig>)
    ensures r.Some? <==> key == "TASK_LIBRARY" || key == "POSITION_CARDS_LIBRARY" || key == "PUNISHMENT_LIBRARY"
    ensures forall k: LibraryKind :: key == LibraryKey(k) ==>
              && r.Some?
              && Keys(r.value.modes) == [Male, Female]
              && Keys(r.value.subModes) == SubsOf(k)
              && r.value.defaultData == DefaultLibrary(k)
    ensures key == "TASK_LIBRARY" ==> r.Some? && r.value.fields == [ContentField, IconField]
    ensures key == "POSITION_CARDS_LIBRARY" ==>
              r.Some? && r.value.fields == [TitleField, DescriptionField, IconField]
    ensures key == "PUNISHMENT_LIBRARY" ==> r.Some? && r.value.fields == [ContentField, IconField]
  {
    if key == "TASK_LIBRARY" then Some(TaskConfig())
    else if key == "POSITION_CARDS_LIBRARY" then Some(CardConfig())
    else if key == "PUNISHMENT_LIBRARY" then Some(PunishmentConfig())
    else None
  }

  /** The task library: three difficulties, content and icon required. */
  function TaskConfig(): (c: LibraryConfig)
    ensures Keys(c.modes) == [Male, Female] && Keys(c.subModes) == SubsOf(TaskLibrary)
    ensures c.defaultData == DefaultLibrary(TaskLibrary) && c.fields == [ContentField, IconField]
  {
    LibraryConfig(
      "飞行棋任务", ROLE_MODES,
      [Mode(Warmup, "🌟 热身"), Mode(Intimate, "💕 亲密"), Mode(Adventure, "🔥 挑战")],
      DefaultLibrary(TaskLibrary), [ContentField, IconField])
  }

  /** The position cards: three modes, title, description and icon required. */
  function CardConfig(): (c: LibraryConfig)
    ensures Keys(c.modes) == [Male, Female] && Keys(c.subModes) == SubsOf(PositionCardsLibrary)
    ensures c.defaultData == DefaultLibrary(PositionCardsLibrary) && c.fields == [TitleField, DescriptionField, IconField]
  {
    LibraryConfig(
      "姿势卡牌", ROLE_MODES,
      [Mode(Cute, "💗 可爱"), Mode(Fun, "😄 有趣"), Mode(Deep, "🌹 深度")],
      DefaultLibrary(PositionCardsLibrary), [TitleField, DescriptionField, IconField])
  }

  /** The punishments: three intensities, content and icon required. */
  function PunishmentConfig(): (c: LibraryConfig)
    ensures Keys(c.modes) == [Male, Female] && Keys(c.subModes) == SubsOf(PunishmentLibrary)
    ensures c.defaultData == DefaultLibrary(PunishmentLibrary) && c.fields == [ContentField, IconField]
  {
    LibraryConfig(
      "惩罚游戏", ROLE_MODES,
      [Mode(Mild, "😊 初级"), Mode(Medium, "😈 中级"), Mode(Intense, "🔥 高级")],
      DefaultLibrary(PunishmentLibrary), [ContentField, IconField])
  }

  /** The configuration of a library the application names. */
  function ConfigOf(k: LibraryKind): (c: LibraryConfig)
    ensures GetLibraryConfig(LibraryKey(k)) == Some(c)
  {
    GetLibraryConfig(LibraryKey(k)).value
  }

  /** The fields a record of the library must have. */
  function Fields(k: LibraryKind): seq<Field> {
    if k == PositionCardsLibrary then [TitleField, DescriptionField, IconField] else [ContentField, IconField]
  }

  lemma ConfigDefault(k: LibraryKind)
    ensures ConfigOf(k).defaultData == DefaultLibrary(k)
  {
  }

  lemma FieldsOfConfig(k: LibraryKind)
    ensures ConfigOf(k).fields == Fields(k)
  {
  }

  // ---------------------------------------------------------------------------
  // Board path
  // ---------------------------------------------------------------------------

  datatype Tile = Tile(index: int)

  /** `generateMapPath(total)`: one tile per cell, tile `i` carrying index `i`. */
  method GenerateMapPath(total: int) returns (path: seq<Tile>)
    ensures |path| == (if total > 0 then total else 0)
    ensures forall i :: 0 <= i < |path| ==> path[i] == Tile(i)
  {
    path := [];
    var i := 0;
    while i < total
      invariant 0 <= i && (i <= total || i == 0)
      invariant |path| == i
      invariant forall j :: 0 <= j < i ==> path[j] == Tile(j)
    {
      path := path + [Tile(i)];
      i := i + 1;
    }
  }

  // ---------------------------------------------------------------------------
  // Time formatting
  // ---------------------------------------------------------------------------

  /** JavaScript's `a % b`: the remainder takes the sign of the dividend. */
  function JsRem(a: int, b: int): (r: int)
    requires b > 0
    ensures a >= 0 ==> r == a % b
    ensures a < 0 ==> -b < r <= 0
  {
    if a >= 0 then a % b else -((-a) % b)
  }

  /**
   `formatTime(seconds)`: `Math.floor(seconds / 60)` and `seconds % 60`, each
   rendered with `String` and padded to two digits with `0`, joined by `:`.
   Dafny's `/` by a positive divisor is floor division.
   */
  function FormatTime(seconds: int): (t: string)
    ensures 0 <= seconds < 6000 ==>
              |t| == 5 && t[2] == ':' && forall i :: 0 <= i < 5 && i != 2 ==> IsDigit(t[i])
  {
    if 0 <= seconds < 6000 then
      PaddedValue(seconds / 60);
      PaddedValue(seconds % 60);
      PadStart2(IntToString(seconds / 60)) + ":" + PadStart2(IntToString(JsRem(seconds, 60)))
    else PadStart2(IntToString(seconds / 60)) + ":" + PadStart2(IntToString(JsRem(seconds, 60)))
  }

  /** Reads an `mm:ss` string back into seconds. */
  function DecodeTime(t: string): int
    requires |t| == 5 && t[2] == ':'
    requires forall i :: 0 <= i < 5 && i != 2 ==> IsDigit(t[i])
  {
    DigitsValue(t[0..2]) * 60 + DigitsValue(t[3..5])
  }

  lemma {:induction false} PaddedValue(n: nat)
    requires n < 100
    ensures var p := PadStart2(NatToString(n));
              |p| == 2 && IsDigit(p[0]) && IsDigit(p[1]) && DigitsValue(p) == n
  {
    var s := NatToString(n);
    var p := PadStart2(s);
    if n < 10 {
      assert p == "0" + s;
      assert p[..1] == "0";
      assert DigitsValue(p[..1]) == 0;
    }
  }

  /** `formatTime` on a non-negative time: the padded minutes and seconds around a colon. */
  lemma FormatTimeParts(seconds: int)
    requires 0 <= seconds
    ensures FormatTime(seconds) == PadStart2(NatToString(seconds / 60)) + ":" + PadStart2(NatToString(seconds % 60))
  {
  }

  /** Two two-digit fields around a colon make a string `DecodeTime` reads back. */
  lemma {:induction false} DecodeJoined(pm: string, ps: string)
    requires |pm| == 2 && IsDigit(pm[0]) && IsDigit(pm[1])
    requires |ps| == 2 && IsDigit(ps[0]) && IsDigit(ps[1])
    ensures var t := pm + ":" + ps;
              && |t| == 5 && t[2] == ':'
              && (forall i :: 0 <= i < 5 && i != 2 ==> IsDigit(t[i]))
              && DecodeTime(t) == DigitsValue(pm) * 60 + DigitsValue(ps)
  {
    var t := pm + ":" + ps;
    assert t[0..2] == pm && t[3..5] == ps;
  }

  /**
   For any time below 100 minutes the formatted string is exactly `mm:ss`, and
   it decodes back to the number of seconds.
   */
  lemma {:induction false} FormatTimeRoundTrip(seconds: int)
    requires 0 <= seconds < 6000
    ensures var t := FormatTime(seconds);
              && |t| == 5 && t[2] == ':'
              && (forall i :: 0 <= i < 5 && i != 2 ==> IsDigit(t[i]))
              && DecodeTime(t) == seconds
  {
    var m := seconds / 60;
    var s := seconds % 60;
    assert m * 60 + s == seconds && m < 100;
    FormatTimeParts(seconds);
    PaddedValue(m);
    PaddedValue(s);
    DecodeJoined(PadStart2(NatToString(m)), PadStart2(NatToString(s)));
  }

  // ---------------------------------------------------------------------------
  // addIds
  // ---------------------------------------------------------------------------

  /** A second-level value of the object handed to `addIds`. */
  datatype Nested = Arr(items: seq<Item>) | NotArray

  /** A first-level value: an object, an array, `null`, or anything else. */
  datatype Entry = Obj(subs: map<string, Nested>) | Flat(items: seq<Item>) | Null | Scalar

  /** A first-level value of the result: an object of arrays, or an array. */
  datatype OutEntry = OutObj(subs: map<string, seq<Item>>) | OutArr(items: seq<Item>)

  /** `{ ...item, id }` for each item, with ids supplied by `newId(i)`. */
  function Stamp(items: seq<Item>, newId: nat -> string): (r: seq<Item>)
    ensures |r| == |items|
    ensures forall i :: 0 <= i < |items| ==> r[i] == items[i].(id := Some(StrId(newId(i))))
  {
    seq(|items|, i requires 0 <= i < |items| => items[i].(id := Some(StrId(newId(i)))))
  }

  /**
   `addIds(obj)`. Every item gets a newId string id (`newId(mode, subMode, i)`
   stands for `Date.now().toString(36)` plus random digits; `subMode` is `None`
   for a first-level array). A first-level object (also `null`, whose `typeof`
   is `"object"`) keeps only its array-valued entries; any other first-level
   value that is not an array is dropped.
   */
  function AddIds(obj: map<string, Entry>, newId: (string, Option<string>, nat) -> string): (r: map<string, OutEntry>)
    ensures r.Keys == set k | k in obj && !obj[k].Scalar?
    ensures forall k :: k in obj && obj[k].Obj? ==>
              && r[k].OutObj?
              && r[k].subs.Keys == (set s | s in obj[k].subs && obj[k].subs[s].Arr?)
              && forall s :: s in r[k].subs ==>
                   && |r[k].subs[s]| == |obj[k].subs[s].items|
                   && forall i :: 0 <= i < |r[k].subs[s]| ==>
                        && r[k].subs[s][i].id.Some?
                        && r[k].subs[s][i] == obj[k].subs[s].items[i].(id := r[k].subs[s][i].id)
    ensures forall k :: k in obj && obj[k].Null? ==> r[k] == OutObj(map[])
    ensures forall k :: k in obj && obj[k].Flat? ==>
              && r[k].OutArr?
              && |r[k].items| == |obj[k].items|
              && forall i :: 0 <= i < |r[k].items| ==>
                   && r[k].items[i].id.Some?
                   && r[k].items[i] == obj[k].items[i].(id := r[k].items[i].id)
  {
    map k | k in obj && !obj[k].Scalar? ::
      match obj[k]
      case Obj(subs) =>
        OutObj(map s | s in subs && subs[s].Arr? :: Stamp(subs[s].items, (i: nat) => newId(k, Some(s), i)))
      case Flat(items) => OutArr(Stamp(items, (i: nat) => newId(k, None, i)))
      case _ => OutObj(map[])
  }

  /** A library seen as the input of `addIds`. */
  function AsEntries(lib: Library): map<string, Entry> {
    map k | k in lib :: Obj(map s | s in lib[k] :: Arr(lib[k][s]))
  }

  /** Stamping ids onto a library keeps its shape: same roles, same buckets, same lengths. */
  lemma AddIdsKeepsLibraryShape(lib: Library, newId: (string, Option<string>, nat) -> string)
    ensures var r := AddIds(AsEntries(lib), newId);
              && r.Keys == lib.Keys
              && forall k :: k in lib ==>
                   (&& r[k].OutObj? && r[k].subs.Keys == lib[k].Keys
                    && forall s :: s in lib[k] ==> |r[k].subs[s]| == |lib[k][s]|)
  {
    var e := AsEntries(lib);
    var r := AddIds(e, newId);
    assert r.Keys == lib.Keys;
    forall k | k in lib ensures r[k].OutObj? && r[k].subs.Keys == lib[k].Keys {
      assert e[k].Obj?;
      assert (set s | s in e[k].subs && e[k].subs[s].Arr?) == lib[k].Keys;
    }
  }
}

=== FILE: migration.dfy ===
/**
 The one-off move of the locally saved data to the remote store, and the
 rebuilding of the three libraries from the rows read back.

 A saved library is a JavaScript object read with `Object.entries`, so it is
 modelled as the sequence of its entries in enumeration order.
 */
module Migration {
  import opened Wrappers
  import opened Types
  import opened Helpers
  import opened Database

  /** A first-level value of a saved library: an object of sub-category entries, or anything else. */
  datatype RoleValue = RoleObj(subs: seq<(string, Nested)>) | NotObject

  /** A saved library as its entries in enumeration order. */
  type Saved = seq<(string, RoleValue)>

  predicate DistinctKeys<V>(es: seq<(string, V)>) {
    forall i, j :: 0 <= i < j < |es| ==> es[i].0 != es[j].0
  }

  /** What a JavaScript object satisfies: no key twice, at either level. */
  predicate WellFormed(lib: Saved) {
    DistinctKeys(lib) && forall i :: 0 <= i < |lib| && lib[i].1.RoleObj? ==> DistinctKeys(lib[i].1.subs)
  }

  /** `obj[key]`. */
  function Find<V>(es: seq<(string, V)>, key: string): (r: Option<V>)
    ensures r.None? <==> forall i :: 0 <= i < |es| ==> es[i].0 != key
  {
    if es == [] then None
    else if es[|es| - 1].0 == key then Some(es[|es| - 1].1)
    else Find(es[..|es| - 1], key)
  }

  /** `lib[role]?.[sub]` when it is an array, else nothing. */
  function SubBucket(subs: seq<(string, Nested)>, s: string): seq<Item> {
    var v := Find(subs, s);
    if v.Some? && v.value.Arr? then v.value.items else []
  }

  function BucketAt(lib: Saved, r: string, s: string): seq<Item> {
    var v := Find(lib, r);
    if v.Some? && v.value.RoleObj? then SubBucket(v.value.subs, s) else []
  }

  // ---------------------------------------------------------------------------
  // Flattening
  // ---------------------------------------------------------------------------

  /**
   How one library is flattened. `CardRuleKeepingTextColor` is the card rule
   with the text colour carried along (see the findings in the README).
   */
  datatype Rule = TaskRule | CardRule | PunishmentRule | CardRuleKeepingTextColor

  predicate IsCardRule(rule: Rule) {
    rule == CardRule || rule == CardRuleKeepingTextColor
  }

  /** Which records are migrated: tasks and punishments need content, cards a title and a description. */
  predicate Keep(rule: Rule, x: Item) {
    if IsCardRule(rule) then Truthy(x.title) && Truthy(x.description) else Truthy(x.content)
  }

  /** The object pushed for a kept record (without its role and sub-category tags). */
  function Shape(rule: Rule, x: Item): (y: Item)
    ensures y.id.None?
    ensures Truthy(y.icon)
  {
    match rule
    case TaskRule => Item(None, x.content, Some(Or(x.icon, TASK_ICON)), None, None, None, None)
    case PunishmentRule => Item(None, x.content, Some(Or(x.icon, PUNISHMENT_ICON)), None, None, None, None)
    case CardRule => Item(None, None, Some(Or(x.icon, CARD_ICON)), x.title, x.description, Some(Or(x.color, CARD_COLOR)), None)
    case CardRuleKeepingTextColor =>
      Item(None, None, Some(Or(x.icon, CARD_ICON)), x.title, x.description, Some(Or(x.color, CARD_COLOR)), x.textColor)
  }

  /** The kept records of one array, shaped, in order. */
  function Kept(rule: Rule, items: seq<Item>): (k: seq<Item>)
    ensures |k| <= |items|
  {
    if items == [] then []
    else
      var x := items[|items| - 1];
      Kept(rule, items[..|items| - 1]) + (if Keep(rule, x) then [Shape(rule, x)] else [])
  }

  function SubRows(rule: Rule, role: string, sub: string, items: seq<Item>): (rows: seq<Tagged>)
    ensures forall i :: 0 <= i < |rows| ==> rows[i].item.id.None? && Truthy(rows[i].item.icon)
  {
    if items == [] then []
    else
      var x := items[|items| - 1];
      SubRows(rule, role, sub, items[..|items| - 1]) + (if Keep(rule, x) then [Tagged(role, sub, Shape(rule, x))] else [])
  }

  function RoleRows(rule: Rule, role: string, subs: seq<(string, Nested)>): (rows: seq<Tagged>)
    ensures forall i :: 0 <= i < |rows| ==> rows[i].item.id.None? && Truthy(rows[i].item.icon)
  {
    if subs == [] then []
    else
      var e := subs[|subs| - 1];
      RoleRows(rule, role, subs[..|subs| - 1]) + (if e.1.Arr? then SubRows(rule, role, e.0, e.1.items) else [])
  }

  /**
   The nested loops of the migration: every role entry that is an object,
   every sub-category entry that is an array, every kept record, in
   enumeration order. No row carries an id (the remote store assigns new
   ones), and every row has an icon.
   */
  function Flatten(rule: Rule, lib: Saved): (rows: seq<Tagged>)
    ensures forall i :: 0 <= i < |rows| ==> rows[i].item.id.None? && Truthy(rows[i].item.icon)
  {
    if lib == [] then []
    else
      var e := lib[|lib| - 1];
      Flatten(rule, lib[..|lib| - 1]) + (if e.1.RoleObj? then RoleRows(rule, e.0, e.1.subs) else [])
  }

  // ---------------------------------------------------------------------------
  // Rebuilding
  // ---------------------------------------------------------------------------

  /** The items of the rows tagged `(r, s)`, in order. */
  function Select(rows: seq<Tagged>, r: string, s: string): seq<Item> {
    if rows == [] then []
    else
      var t := rows[|rows| - 1];
      Select(rows[..|rows| - 1], r, s) + (if t.role == r && t.sub == s then [t.item] else [])
  }

  /** `if (lib[role] && lib[role][sub]) lib[role][sub].push(item)`. */
  function Place(lib: Library, t: Tagged): Library {
    if HasBucket(lib, t.role, t.sub) then lib[t.role := lib[t.role][t.sub := lib[t.role][t.sub] + [t.item]]]
    else lib
  }

  /** The `forEach` of the build functions. */
  function BuildFrom(base: Library, rows: seq<Tagged>): Library {
    if rows == [] then base else Place(BuildFrom(base, rows[..|rows| - 1]), rows[|rows| - 1])
  }

  /** `{ id, content, icon }` for each task or punishment row read back. */
  function ContentRows(saved: seq<Database.Saved<ContentRecord>>): (r: seq<Tagged>)
    ensures |r| == |saved|
    ensures forall i :: 0 <= i < |saved| ==>
              r[i] == Tagged(saved[i].rec.role, saved[i].rec.sub,
                             Item(Some(saved[i].id), saved[i].rec.content, Some(saved[i].rec.icon), None, None, None, None))
  {
    seq(|saved|, i requires 0 <= i < |saved| =>
      Tagged(saved[i].rec.role, saved[i].rec.sub,
             Item(Some(saved[i].id), saved[i].rec.content, Some(saved[i].rec.icon), None, None, None, None)))
  }

  /** `{ id, title, description, icon, color, textColor: text_color }` for each card row read back. */
  function CardRows(saved: seq<Database.Saved<CardRecord>>): (r: seq<Tagged>)
    ensures |r| == |saved|
    ensures forall i :: 0 <= i < |saved| ==>
              var c := saved[i].rec;
              r[i] == Tagged(c.role, c.mode,
                             Item(Some(saved[i].id), None, Some(c.icon), c.title, c.description, Some(c.color), Some(c.textColor)))
  {
    seq(|saved|, i requires 0 <= i < |saved| =>
      var c := saved[i].rec;
      Tagged(c.role, c.mode, Item(Some(saved[i].id), None, Some(c.icon), c.title, c.description, Some(c.color), Some(c.textColor))))
  }

  /** `buildTaskLibrary`: both roles with all three buckets, each holding exactly its rows, in order. */
  function BuildTaskLibrary(saved: seq<Database.Saved<ContentRecord>>): (lib: Library)
    ensures lib.Keys == {"male", "female"}
    ensures forall r: Role, s :: s in SubsOf(TaskLibrary) ==> HasBucket(lib, RoleKey(r), SubKey(s))
    ensures forall r, s :: HasBucket(lib, r, s) ==> lib[r][s] == Select(ContentRows(saved), r, s)
  {
    BuildLibrary(TaskLibrary, ContentRows(saved));
    BuildFrom(DefaultLibrary(TaskLibrary), ContentRows(saved))
  }

  /** `buildPositionCardsLibrary`: both roles with all three buckets, each holding exactly its rows, in order. */
  function BuildPositionCardsLibrary(saved: seq<Database.Saved<CardRecord>>): (lib: Library)
    ensures lib.Keys == {"male", "female"}
    ensures forall r: Role, s :: s in SubsOf(PositionCardsLibrary) ==> HasBucket(lib, RoleKey(r), SubKey(s))
    ensures forall r, s :: HasBucket(lib, r, s) ==> lib[r][s] == Select(CardRows(saved), r, s)
  {
    BuildLibrary(PositionCardsLibrary, CardRows(saved));
    BuildFrom(DefaultLibrary(PositionCardsLibrary), CardRows(saved))
  }

  /** `buildPunishmentLibrary`: both roles with all three buckets, each holding exactly its rows, in order. */
  function BuildPunishmentLibrary(saved: seq<Database.Saved<ContentRecord>>): (lib: Library)
    ensures lib.Keys == {"male", "female"}
    ensures forall r: Role, s :: s in SubsOf(PunishmentLibrary) ==> HasBucket(lib, RoleKey(r), SubKey(s))
    ensures forall r, s :: HasBucket(lib, r, s) ==> lib[r][s] == Select(ContentRows(saved), r, s)
  {
    BuildLibrary(PunishmentLibrary, ContentRows(saved));
    BuildFrom(DefaultLibrary(PunishmentLibrary), ContentRows(saved))
  }

  /**
   The build keeps the shape of its base (so each build function returns the
   six buckets, even for no rows) and files each row under its own tags, in
   order; a row whose role or sub-category is not a bucket of the base is
   dropped.
   */
  lemma BuildFromSelect(base: Library, rows: seq<Tagged>)
    ensures var out := BuildFrom(base, rows);
            && out.Keys == base.Keys
            && (forall r :: r in base ==> out[r].Keys == base[r].Keys)
            && (forall r, s :: HasBucket(base, r, s) ==> out[r][s] == base[r][s] + Select(rows, r, s))
  {
    BuildFromShape(base, rows);
    BuildFromContents(base, rows);
  }

  /** The build keeps the roles and sub-categories of its base. */
  lemma {:induction false} BuildFromShape(base: Library, rows: seq<Tagged>)
    ensures var out := BuildFrom(base, rows);
            && out.Keys == base.Keys
            && (forall r :: r in base ==> out[r].Keys == base[r].Keys)
  {
    if rows != [] {
      BuildFromShape(base, rows[..|rows| - 1]);
      PlaceKeeps(BuildFrom(base, rows[..|rows| - 1]), rows[|rows| - 1]);
    }
  }

  /** The build appends to each bucket of its base the items of the rows tagged with it. */
  lemma {:induction false} BuildFromContents(base: Library, rows: seq<Tagged>)
    ensures forall r, s :: HasBucket(base, r, s) ==>
              HasBucket(BuildFrom(base, rows), r, s)
              && BuildFrom(base, rows)[r][s] == base[r][s] + Select(rows, r, s)
  {
    if rows != [] {
      var init := rows[..|rows| - 1];
      var t := rows[|rows| - 1];
      var prev := BuildFrom(base, init);
      var out := BuildFrom(base, rows);
      assert out == Place(prev, t);
      BuildFromContents(base, init);
      PlaceKeeps(prev, t);
      forall r, s | HasBucket(base, r, s) ensures HasBucket(out, r, s) && out[r][s] == base[r][s] + Select(rows, r, s) {
        assert HasBucket(prev, r, s);
        assert Select(rows, r, s) == Select(init, r, s) + (if t.role == r && t.sub == s then [t.item] else []);
      }
    }
  }

  /** One placement keeps the shape and appends the row's item to its own bucket only. */
  lemma PlaceKeeps(lib: Library, t: Tagged)
    ensures Place(lib, t).Keys == lib.Keys
    ensures forall r :: r in lib ==> Place(lib, t)[r].Keys == lib[r].Keys
    ensures forall r, s :: HasBucket(lib, r, s) ==>
              Place(lib, t)[r][s] == lib[r][s] + (if t.role == r && t.sub == s then [t.item] else [])
  {
  }

  /** A build of the rows read back: all six buckets, each holding exactly its rows. */
  lemma BuildLibrary(k: LibraryKind, rows: seq<Tagged>)
    ensures var out := BuildFrom(DefaultLibrary(k), rows);
            && out.Keys == {"male", "female"}
            && (forall r, s :: HasBucket(out, r, s) <==> HasBucket(DefaultLibrary(k), r, s))
            && (forall r: Role, s :: s in SubsOf(k) ==> HasBucket(out, RoleKey(r), SubKey(s)))
            && (forall r, s :: HasBucket(out, r, s) ==> out[r][s] == Select(rows, r, s))
  {
    BuildFromSelect(DefaultLibrary(k), rows);
    DefaultLibraryEmpty(k);
  }

  // ---------------------------------------------------------------------------
  // The round trip
  // ---------------------------------------------------------------------------

  /** What a shaped record becomes once inserted and read back, without the id the store assigns. */
  function Reload(rule: Rule, x: Item): Item {
    match rule
    case TaskRule => Item(None, x.content, Some(Or(x.icon, TASK_ICON)), None, None, None, None)
    case PunishmentRule => Item(None, x.content, Some(Or(x.icon, PUNISHMENT_ICON)), None, None, None, None)
    case _ =>
      Item(None, None, Some(Or(x.icon, CARD_ICON)), x.title, x.description,
           Some(Or(x.color, CARD_COLOR)), Some(Or(x.textColor, CARD_TEXT_COLOR)))
  }

  function Reloads(rule: Rule, xs: seq<Item>): (r: seq<Item>)
    ensures |r| == |xs| && forall i :: 0 <= i < |xs| ==> r[i] == Reload(rule, xs[i])
  {
    seq(|xs|, i requires 0 <= i < |xs| => Reload(rule, xs[i]))
  }

  function Strip(x: Item): Item {
    x.(id := None)
  }

  function Strips(xs: seq<Item>): (r: seq<Item>)
    ensures |r| == |xs| && forall i :: 0 <= i < |xs| ==> r[i] == Strip(xs[i])
  {
    seq(|xs|, i requires 0 <= i < |xs| => Strip(xs[i]))
  }

  /** The rows inserted for `rows` and read back with the ids `ids`. */
  function Roundtrip(rule: Rule, deviceId: string, rows: seq<Tagged>, ids: seq<Id>): (r: seq<Tagged>)
    requires |ids| == |rows|
    ensures |r| == |rows|
    ensures forall i :: 0 <= i < |rows| ==>
              r[i].role == rows[i].role && r[i].sub == rows[i].sub
              && Strip(r[i].item) == Reload(rule, rows[i].item)
  {
    match rule
    case TaskRule => ContentRows(Save(BulkImportTasks(deviceId, rows), ids))
    case PunishmentRule => ContentRows(Save(BulkImportPunishments(deviceId, rows), ids))
    case _ => CardRows(Save(BulkImportCards(deviceId, rows), ids))
  }

  function KindOfRule(rule: Rule): LibraryKind {
    match rule
    case TaskRule => TaskLibrary
    case PunishmentRule => PunishmentLibrary
    case _ => PositionCardsLibrary
  }

  lemma {:induction false} SelectConcat(a: seq<Tagged>, b: seq<Tagged>, r: string, s: string)
    ensures Select(a + b, r, s) == Select(a, r, s) + Select(b, r, s)
  {
    if b != [] {
      var b0 := b[..|b| - 1];
      assert (a + b)[..|a + b| - 1] == a + b0;
      assert (a + b)[|a + b| - 1] == b[|b| - 1];
      SelectConcat(a, b0, r, s);
    } else {
      assert a + b == a;
    }
  }

  /** Selecting commutes with a row-by-row rewrite that keeps the tags. */
  lemma {:induction false} SelectPointwise(rule: Rule, a: seq<Tagged>, b: seq<Tagged>, r: string, s: string)
    requires |a| == |b|
    requires forall i :: 0 <= i < |a| ==>
               b[i].role == a[i].role && b[i].sub == a[i].sub && Strip(b[i].item) == Reload(rule, a[i].item)
    ensures Strips(Select(b, r, s)) == Reloads(rule, Select(a, r, s))
  {
    if a != [] {
      var n := |a| - 1;
      SelectPointwise(rule, a[..n], b[..n], r, s);
    }
  }

  lemma {:induction false} SubRowsSelect(rule: Rule, role: string, sub: string, items: seq<Item>, r: string, s: string)
    ensures Select(SubRows(rule, role, sub, items), r, s) == if role == r && sub == s then Kept(rule, items) else []
  {
    if items != [] {
      var init := items[..|items| - 1];
      var x := items[|items| - 1];
      var tail := if Keep(rule, x) then [Tagged(role, sub, Shape(rule, x))] else [];
      SubRowsSelect(rule, role, sub, init, r, s);
      SelectConcat(SubRows(rule, role, sub, init), tail, r, s);
      if Keep(rule, x) {
        assert tail[..0] == [];
      }
    }
  }

  /** The lookup in a key list without duplicates is decided by the last entry when it has the key. */
  lemma FindLast<V>(es: seq<(string, V)>, key: string)
    requires es != [] && DistinctKeys(es)
    ensures var init := es[..|es| - 1]; var e := es[|es| - 1];
            && DistinctKeys(init)
            && Find(es, key) == (if e.0 == key then Some(e.1) else Find(init, key))
            && (e.0 == key ==> Find(init, key).None?)
  {
    var init := es[..|es| - 1];
    if es[|es| - 1].0 == key {
      assert forall i :: 0 <= i < |init| ==> init[i].0 != key;
    }
  }

  lemma {:induction false} RoleRowsSelect(rule: Rule, role: string, subs: seq<(string, Nested)>, r: string, s: string)
    requires DistinctKeys(subs)
    ensures Select(RoleRows(rule, role, subs), r, s) == if role == r then Kept(rule, SubBucket(subs, s)) else []
  {
    if subs != [] {
      var init := subs[..|subs| - 1];
      var e := subs[|subs| - 1];
      var own := if e.1.Arr? && role == r && e.0 == s then Kept(rule, e.1.items) else [];
      var prev := Select(RoleRows(rule, role, init), r, s);
      assert prev == if role == r then Kept(rule, SubBucket(init, s)) else [] by {
        assert DistinctKeys(init);
        RoleRowsSelect(rule, role, init, r, s);
      }
      assert Select(RoleRows(rule, role, subs), r, s) == prev + own by {
        var tail := if e.1.Arr? then SubRows(rule, role, e.0, e.1.items) else [];
        assert RoleRows(rule, role, subs) == RoleRows(rule, role, init) + tail;
        SelectConcat(RoleRows(rule, role, init), tail, r, s);
        if e.1.Arr? {
          SubRowsSelect(rule, role, e.0, e.1.items, r, s);
        }
      }
      if role == r {
        SubBucketLast(subs, s);
        if e.0 == s {
          assert prev == Kept(rule, []) == [];
          assert prev + own == own;
        } else {
          assert own == [] && prev + own == prev;
        }
      } else {
        assert prev == [] && own == [];
      }
    }
  }

  /** The bucket of a sub-category key is read from the last entry when that entry has the key. */
  lemma SubBucketLast(subs: seq<(string, Nested)>, s: string)
    requires subs != [] && DistinctKeys(subs)
    ensures var init := subs[..|subs| - 1]; var e := subs[|subs| - 1];
            SubBucket(subs, s) == if e.0 != s then SubBucket(init, s) else if e.1.Arr? then e.1.items else []
    ensures subs[|subs| - 1].0 == s ==> SubBucket(subs[..|subs| - 1], s) == []
  {
    FindLast(subs, s);
  }

  lemma {:induction false} FlattenSelect(rule: Rule, lib: Saved, r: string, s: string)
    requires WellFormed(lib)
    ensures Select(Flatten(rule, lib), r, s) == Kept(rule, BucketAt(lib, r, s))
  {
    if lib != [] {
      var init := lib[..|lib| - 1];
      var e := lib[|lib| - 1];
      var own := if e.1.RoleObj? && e.0 == r then Kept(rule, SubBucket(e.1.subs, s)) else [];
      var prev := Select(Flatten(rule, init), r, s);
      assert prev == Kept(rule, BucketAt(init, r, s)) by {
        assert WellFormed(init);
        FlattenSelect(rule, init, r, s);
      }
      assert Select(Flatten(rule, lib), r, s) == prev + own by {
        var tail := if e.1.RoleObj? then RoleRows(rule, e.0, e.1.subs) else [];
        assert Flatten(rule, lib) == Flatten(rule, init) + tail;
        SelectConcat(Flatten(rule, init), tail, r, s);
        if e.1.RoleObj? {
          assert DistinctKeys(e.1.subs);
          RoleRowsSelect(rule, e.0, e.1.subs, r, s);
        }
      }
      BucketAtLast(lib, r, s);
      if e.0 == r {
        assert prev == Kept(rule, []) == [];
        assert prev + own == own;
      } else {
        assert own == [] && prev + own == prev;
      }
    }
  }

  /** The bucket under a role key is read from the last entry when that entry has the key. */
  lemma BucketAtLast(lib: Saved, r: string, s: string)
    requires lib != [] && DistinctKeys(lib)
    ensures var init := lib[..|lib| - 1]; var e := lib[|lib| - 1];
            BucketAt(lib, r, s) == if e.0 != r then BucketAt(init, r, s) else if e.1.RoleObj? then SubBucket(e.1.subs, s) else []
    ensures lib[|lib| - 1].0 == r ==> BucketAt(lib[..|lib| - 1], r, s) == []
  {
    FindLast(lib, r);
  }

  /**
   Flattening a library, inserting the rows and rebuilding the library from
   what is read back gives, in every bucket of the rebuilt library, exactly the
   kept records of that bucket in the saved library, in order, each as it
   reads back; only the ids are new.
   */
  lemma RoundTripBuckets(rule: Rule, deviceId: string, lib: Saved, ids: seq<Id>, r: Role, s: Sub)
    requires WellFormed(lib)
    requires |ids| == |Flatten(rule, lib)|
    requires s in SubsOf(KindOfRule(rule))
    ensures var out := BuildFrom(DefaultLibrary(KindOfRule(rule)), Roundtrip(rule, deviceId, Flatten(rule, lib), ids));
            && HasBucket(out, RoleKey(r), SubKey(s))
            && Strips(out[RoleKey(r)][SubKey(s)]) == Reloads(rule, Kept(rule, BucketAt(lib, RoleKey(r), SubKey(s))))
  {
    var rows := Flatten(rule, lib);
    var back := Roundtrip(rule, deviceId, rows, ids);
    BuildLibrary(KindOfRule(rule), back);
    SelectPointwise(rule, rows, back, RoleKey(r), SubKey(s));
    FlattenSelect(rule, lib, RoleKey(r), SubKey(s));
  }

  /** Tasks and punishments come back unchanged apart from their ids. */
  lemma ContentSurvives(rule: Rule, items: seq<Item>)
    requires rule == TaskRule || rule == PunishmentRule
    ensures Reloads(rule, Kept(rule, items)) == Kept(rule, items)
  {
    var k := Kept(rule, items);
    forall i | 0 <= i < |k| ensures Reload(rule, k[i]) == k[i] {
      KeptShaped(rule, items, i);
    }
  }

  lemma {:induction false} KeptShaped(rule: Rule, items: seq<Item>, i: nat)
    requires i < |Kept(rule, items)|
    ensures exists x :: x in items && Keep(rule, x) && Kept(rule, items)[i] == Shape(rule, x)
  {
    var init := items[..|items| - 1];
    var x := items[|items| - 1];
    if i < |Kept(rule, init)| {
      KeptShaped(rule, init, i);
      var y :| y in init && Keep(rule, y) && Kept(rule, init)[i] == Shape(rule, y);
      assert y in items;
    } else {
      assert Kept(rule, items)[i] == Shape(rule, x);
    }
  }

  /** As written, every migrated card reads back with the text colour `text-white`. */
  lemma CardsLoseTextColor(items: seq<Item>)
    ensures forall y :: y in Reloads(CardRule, Kept(CardRule, items)) ==> y.textColor == Some(CARD_TEXT_COLOR)
  {
  }

  /** A card with its own text colour, which the migration as written replaces. */
  lemma CardTextColorExample()
    ensures var card := Item(None, None, Some("💕"), Some("a"), Some("b"), Some("bg-pink-100"), Some("text-pink-800"));
            var lib := [("male", RoleObj([("cute", Arr([card]))]))];
            && BucketAt(lib, "male", "cute") == [card]
            && Reloads(CardRule, Kept(CardRule, [card])) == [card.(textColor := Some(CARD_TEXT_COLOR))]
            && Reloads(CardRuleKeepingTextColor, Kept(CardRuleKeepingTextColor, [card])) == [card]
  {
    var card := Item(None, None, Some("💕"), Some("a"), Some("b"), Some("bg-pink-100"), Some("text-pink-800"));
    assert [card][..0] == [];
  }

  /** With the text colour carried along, every migrated card reads back as its kept form, a set text colour included. */
  lemma CardsKeepTextColor(items: seq<Item>)
    ensures var k := Kept(CardRuleKeepingTextColor, items);
            var back := Reloads(CardRuleKeepingTextColor, k);
            forall i :: 0 <= i < |k| ==>
              back[i] == k[i].(textColor := Some(Or(k[i].textColor, CARD_TEXT_COLOR)))
              && (Truthy(k[i].textColor) ==> back[i] == k[i])
  {
    var k := Kept(CardRuleKeepingTextColor, items);
    forall i | 0 <= i < |k| ensures Truthy(k[i].textColor) ==> Reload(CardRuleKeepingTextColor, k[i]) == k[i] {
      KeptShaped(CardRuleKeepingTextColor, items, i);
    }
  }

  // ---------------------------------------------------------------------------
  // The migration run
  // ---------------------------------------------------------------------------

  /** The saved settings object: how many keys it has and the values the migration reads. */
  datatype LocalSettings = LocalSettings(keyCount: nat, chessDifficulty: Option<string>, focus: Option<int>, brk: Option<int>)

  /**
   What the device has saved: the per-device migration flag, the players, the
   settings, and each library (`None` when the key is missing or falsy; a
   truthy value that is not an object has no entries).
   */
  datatype Local = Local(
    flag: Option<string>, players: seq<Player>, settings: LocalSettings,
    tasks: Option<Saved>, cards: Option<Saved>, punishments: Option<Saved>)

  /** A remote call of the migration. */
  datatype Call =
    | UpdatePlayerInfo(name1: string, avatar1: string, name2: string, avatar2: string)
    | UpdateSettingsCall(u: SettingsUpdate)
    | ImportTasks(rows: seq<Tagged>)
    | ImportCards(rows: seq<Tagged>)
    | ImportPunishments(rows: seq<Tagged>)

  /** The settings update: difficulty, focus and break, falling back to `warmup`, 25 and 5. */
  function SettingsCall(ls: LocalSettings): (u: SettingsUpdate)
    ensures u.chessDifficulty == Or(ls.chessDifficulty, "warmup")
    ensures u.focus == NumOr(ls.focus, 25) && u.brk == NumOr(ls.brk, 5)
  {
    SettingsUpdate(Or(ls.chessDifficulty, "warmup"), NumOr(ls.focus, 25), NumOr(ls.brk, 5))
  }

  function PlayerCalls(players: seq<Player>): seq<Call> {
    if |players| >= 2 then [UpdatePlayerInfo(players[0].name, players[0].avatar, players[1].name, players[1].avatar)] else []
  }

  function SettingsCalls(ls: LocalSettings): seq<Call> {
    if ls.keyCount > 0 then [UpdateSettingsCall(SettingsCall(ls))] else []
  }

  /** The flattened rows of a library that is present, as a bulk import when there is at least one. */
  function ImportCalls(lib: Option<Saved>, rule: Rule): (r: seq<Call>)
    ensures |r| <= 1
    ensures |r| == 1 <==> lib.Some? && Flatten(rule, lib.value) != []
    ensures forall i :: 0 <= i < |r| ==>
              && (r[i].ImportTasks? || r[i].ImportCards? || r[i].ImportPunishments?)
              && (r[i].ImportTasks? <==> rule == TaskRule)
              && (r[i].ImportPunishments? <==> rule == PunishmentRule)
              && r[i].rows == Flatten(rule, lib.value)
  {
    if lib.None? then []
    else
      var rows := Flatten(rule, lib.value);
      if rows == [] then []
      else if rule == TaskRule then [ImportTasks(rows)]
      else if rule == PunishmentRule then [ImportPunishments(rows)]
      else [ImportCards(rows)]
  }

  /**
   The remote calls of `migrateDataToSupabase`, in order: players, settings,
   tasks, cards, punishments. Cards are flattened with their text colour
   (the corrected rule).
   */
  function Plan(d: Local): (plan: seq<Call>)
    ensures d.flag == Some("true") ==> plan == []
    ensures |plan| <= 5
  {
    if d.flag == Some("true") then []
    else
      PlayerCalls(d.players) + SettingsCalls(d.settings)
      + ImportCalls(d.tasks, TaskRule) + ImportCalls(d.cards, CardRuleKeepingTextColor)
      + ImportCalls(d.punishments, PunishmentRule)
  }

  /** The plan laid out: players, settings, then the three imports. */
  lemma {:induction false} PlanParts(d: Local)
    requires d.flag != Some("true")
    ensures var a := PlayerCalls(d.players); var b := SettingsCalls(d.settings);
            var t := ImportCalls(d.tasks, TaskRule);
            var c := ImportCalls(d.cards, CardRuleKeepingTextColor);
            var p := ImportCalls(d.punishments, PunishmentRule);
            Plan(d) == a + b + (t + c + p)
  {
  }

  /** The kind of a remote call, in the order the plan makes them. */
  function CallKind(c: Call): nat {
    match c
    case UpdatePlayerInfo(_, _, _, _) => 0
    case UpdateSettingsCall(_) => 1
    case ImportTasks(_) => 2
    case ImportCards(_) => 3
    case ImportPunishments(_) => 4
  }

  /** Every call of `cs` is of kind `k`. */
  predicate AllOfKind(cs: seq<Call>, k: nat) {
    forall x :: x in cs ==> CallKind(x) == k
  }

  /** In a plan whose parts each hold one kind of call, the calls of a kind are those of its part. */
  lemma Locate(parts: seq<seq<Call>>, plan: seq<Call>, j: nat)
    requires j < |parts|
    requires forall m :: 0 <= m < |parts| ==> AllOfKind(parts[m], m)
    requires plan == Concat(parts)
    ensures forall i :: 0 <= i < |plan| && CallKind(plan[i]) == j ==> plan[i] in parts[j]
    ensures (exists i :: 0 <= i < |plan| && CallKind(plan[i]) == j) <==> parts[j] != []
  {
    forall i | 0 <= i < |plan| && CallKind(plan[i]) == j ensures plan[i] in parts[j] {
      ConcatMember(parts, plan[i]);
    }
    if parts[j] != [] {
      ConcatMember(parts, parts[j][0]);
      var i :| 0 <= i < |plan| && plan[i] == parts[j][0];
    }
  }

  function Concat(parts: seq<seq<Call>>): seq<Call> {
    if parts == [] then [] else Concat(parts[..|parts| - 1]) + parts[|parts| - 1]
  }

  lemma {:induction false} ConcatMember(parts: seq<seq<Call>>, x: Call)
    ensures x in Concat(parts) <==> exists m :: 0 <= m < |parts| && x in parts[m]
  {
    if parts != [] {
      var init := parts[..|parts| - 1];
      ConcatMember(init, x);
      if x in Concat(parts) && x !in parts[|parts| - 1] {
        var m :| 0 <= m < |init| && x in init[m];
        assert parts[m] == init[m];
      }
      if m :| 0 <= m < |parts| && x in parts[m] {
        if m < |init| {
          assert init[m] == parts[m];
        }
      }
    }
  }

  lemma ConcatFive(a: seq<Call>, b: seq<Call>, t: seq<Call>, c: seq<Call>, p: seq<Call>)
    ensures Concat([a, b, t, c, p]) == a + b + (t + c + p)
  {
    assert [a][..0] == [];
    assert Concat([a]) == a;
    assert [a, b][..1] == [a];
    assert Concat([a, b]) == a + b;
    assert [a, b, t][..2] == [a, b];
    assert Concat([a, b, t]) == a + b + t;
    assert [a, b, t, c][..3] == [a, b, t];
    assert Concat([a, b, t, c]) == a + b + t + c;
    assert [a, b, t, c, p][..4] == [a, b, t, c];
    assert Concat([a, b, t, c, p]) == a + b + t + c + p;
    assert a + b + t + c + p == a + b + (t + c + p);
  }

  /** Each import call is of its rule's kind. */
  lemma ImportCallsKind(lib: Option<Saved>, rule: Rule, k: nat)
    requires k == (if rule == TaskRule then 2 else if rule == PunishmentRule then 4 else 3)
    ensures AllOfKind(ImportCalls(lib, rule), k)
  {
    var r := ImportCalls(lib, rule);
    forall x | x in r ensures CallKind(x) == k {
      assert x == r[0];
    }
  }

  /** The plan as its five parts, each of one kind of call. */
  lemma PlanKinds(d: Local)
    requires d.flag != Some("true")
    ensures var parts := [PlayerCalls(d.players), SettingsCalls(d.settings), ImportCalls(d.tasks, TaskRule),
                          ImportCalls(d.cards, CardRuleKeepingTextColor), ImportCalls(d.punishments, PunishmentRule)];
            && Plan(d) == Concat(parts)
            && forall m :: 0 <= m < |parts| ==> AllOfKind(parts[m], m)
  {
    var a := PlayerCalls(d.players);
    var b := SettingsCalls(d.settings);
    var t := ImportCalls(d.tasks, TaskRule);
    var c := ImportCalls(d.cards, CardRuleKeepingTextColor);
    var p := ImportCalls(d.punishments, PunishmentRule);
    PlanParts(d);
    ConcatFive(a, b, t, c, p);
    assert AllOfKind(a, 0) && AllOfKind(b, 1);
    ImportCallsKind(d.tasks, TaskRule, 2);
    ImportCallsKind(d.cards, CardRuleKeepingTextColor, 3);
    ImportCallsKind(d.punishments, PunishmentRule, 4);
  }

  /** The player update is in the plan exactly when two players are saved, and carries the first two. */
  lemma PlanPlayers(d: Local)
    requires d.flag != Some("true")
    ensures var plan := Plan(d);
            && ((exists i :: 0 <= i < |plan| && plan[i].UpdatePlayerInfo?) <==> |d.players| >= 2)
            && (forall i :: 0 <= i < |plan| && plan[i].UpdatePlayerInfo? ==>
                  plan[i] == UpdatePlayerInfo(d.players[0].name, d.players[0].avatar, d.players[1].name, d.players[1].avatar))
  {
    var parts := [PlayerCalls(d.players), SettingsCalls(d.settings), ImportCalls(d.tasks, TaskRule),
                  ImportCalls(d.cards, CardRuleKeepingTextColor), ImportCalls(d.punishments, PunishmentRule)];
    PlanKinds(d);
    Locate(parts, Plan(d), 0);
  }

  /** The settings update is in the plan exactly when the saved settings have a key. */
  lemma PlanSettings(d: Local)
    requires d.flag != Some("true")
    ensures var plan := Plan(d);
            && ((exists i :: 0 <= i < |plan| && plan[i].UpdateSettingsCall?) <==> d.settings.keyCount > 0)
            && (forall i :: 0 <= i < |plan| && plan[i].UpdateSettingsCall? ==> plan[i].u == SettingsCall(d.settings))
  {
    var parts := [PlayerCalls(d.players), SettingsCalls(d.settings), ImportCalls(d.tasks, TaskRule),
                  ImportCalls(d.cards, CardRuleKeepingTextColor), ImportCalls(d.punishments, PunishmentRule)];
    PlanKinds(d);
    Locate(parts, Plan(d), 1);
  }

  /** Each import in the plan carries the non-empty flattened rows of its own library. */
  lemma PlanImports(d: Local)
    requires d.flag != Some("true")
    ensures var plan := Plan(d);
            && (forall i :: 0 <= i < |plan| && plan[i].ImportTasks? ==>
                  d.tasks.Some? && plan[i].rows == Flatten(TaskRule, d.tasks.value) != [])
            && (forall i :: 0 <= i < |plan| && plan[i].ImportCards? ==>
                  d.cards.Some? && plan[i].rows == Flatten(CardRuleKeepingTextColor, d.cards.value) != [])
            && (forall i :: 0 <= i < |plan| && plan[i].ImportPunishments? ==>
                  d.punishments.Some? && plan[i].rows == Flatten(PunishmentRule, d.punishments.value) != [])
  {
    var parts := [PlayerCalls(d.players), SettingsCalls(d.settings), ImportCalls(d.tasks, TaskRule),
                  ImportCalls(d.cards, CardRuleKeepingTextColor), ImportCalls(d.punishments, PunishmentRule)];
    var plan := Plan(d);
    assert forall i :: 0 <= i < |plan| && plan[i].ImportTasks? ==>
             d.tasks.Some? && plan[i].rows == Flatten(TaskRule, d.tasks.value) != [] by {
      PlanKinds(d);
      Locate(parts, plan, 2);
      ImportCallsRows(d.tasks, TaskRule);
    }
    assert forall i :: 0 <= i < |plan| && plan[i].ImportCards? ==>
             d.cards.Some? && plan[i].rows == Flatten(CardRuleKeepingTextColor, d.cards.value) != [] by {
      PlanKinds(d);
      Locate(parts, plan, 3);
      ImportCallsRows(d.cards, CardRuleKeepingTextColor);
    }
    assert forall i :: 0 <= i < |plan| && plan[i].ImportPunishments? ==>
             d.punishments.Some? && plan[i].rows == Flatten(PunishmentRule, d.punishments.value) != [] by {
      PlanKinds(d);
      Locate(parts, plan, 4);
      ImportCallsRows(d.punishments, PunishmentRule);
    }
  }

  /** An import call carries the non-empty flattened rows of a present library. */
  lemma ImportCallsRows(lib: Option<Saved>, rule: Rule)
    ensures forall x :: x in ImportCalls(lib, rule) ==> lib.Some? && x.rows == Flatten(rule, lib.value) != []
  {
    var r := ImportCalls(lib, rule);
    forall x | x in r ensures x == r[0] {
    }
  }

  /** A library with at least one kept record is imported. */
  lemma NonEmptyLibraryImported(d: Local)
    requires d.flag != Some("true") && d.tasks.Some? && Flatten(TaskRule, d.tasks.value) != []
    ensures exists i :: 0 <= i < |Plan(d)| && Plan(d)[i] == ImportTasks(Flatten(TaskRule, d.tasks.value))
  {
    var pre := PlayerCalls(d.players) + SettingsCalls(d.settings);
    assert Plan(d)[|pre|] == ImportTasks(Flatten(TaskRule, d.tasks.value));
  }

  /** The calls that went through, and whether the migration flag was then written. */
  datatype Outcome = Outcome(done: seq<Call>, flagSet: bool)

  /** The calls run in order; the first failure throws and ends the run before the flag is written. */
  function Run(plan: seq<Call>, succeeds: Call -> bool): (o: Outcome)
    ensures o.flagSet <==> forall i :: 0 <= i < |plan| ==> succeeds(plan[i])
    ensures |o.done| <= |plan| && o.done == plan[..|o.done|]
    ensures forall i :: 0 <= i < |o.done| ==> succeeds(o.done[i])
    ensures !o.flagSet ==> |o.done| < |plan| && !succeeds(plan[|o.done|])
  {
    if plan == [] then Outcome([], true)
    else if !succeeds(plan[0]) then Outcome([], false)
    else
      var o := Run(plan[1..], succeeds);
      assert forall i :: 1 <= i < |plan| ==> plan[i] == plan[1..][i - 1];
      Outcome([plan[0]] + o.done, o.flagSet)
  }

  /**
   `migrateDataToSupabase`: nothing at all when the flag is already `'true'`;
   otherwise the plan is run and the flag is written only when every call of
   it succeeded.
   */
  function Migrate(d: Local, succeeds: Call -> bool): (o: Outcome)
    ensures d.flag == Some("true") ==> o == Outcome([], false)
    ensures o.flagSet <==> d.flag != Some("true") && forall i :: 0 <= i < |Plan(d)| ==> succeeds(Plan(d)[i])
    ensures |o.done| <= |Plan(d)| && o.done == Plan(d)[..|o.done|]
  {
    if d.flag == Some("true") then Outcome([], false) else Run(Plan(d), succeeds)
  }

  /** The settings as `loadDataFromSupabase` hands them to the application. */
  datatype LoadedSettings = LoadedSettings(focus: int, brk: int, chessDifficulty: string, boardRows: Option<int>, boardCols: Option<int>)

  /** `pomodoro_focus`/`_break`, `chess_difficulty` and `board_rows`/`_cols` under their in-app names. */
  function LoadSettings(row: SettingsRow): (l: LoadedSettings)
    ensures l.focus == row.focus && l.brk == row.brk && l.chessDifficulty == row.chessDifficulty
    ensures l.boardRows == row.boardRows && l.boardCols == row.boardCols
  {
    LoadedSettings(row.focus, row.brk, row.chessDifficulty, row.boardRows, row.boardCols)
  }

  /**
   Settings migrated and loaded back keep their difficulty, focus and break
   when those were set (non-empty, non-zero); the board size is whatever the
   remote row had.
   */
  lemma SettingsRoundTrip(ls: LocalSettings, row: SettingsRow)
    requires Truthy(ls.chessDifficulty)
    requires ls.focus.Some? && ls.focus.value != 0 && ls.brk.Some? && ls.brk.value != 0
    ensures LoadSettings(UpdateSettings(row, SettingsCall(ls)))
            == LoadedSettings(ls.focus.value, ls.brk.value, ls.chessDifficulty.value, row.boardRows, row.boardCols)
  {
  }
}

=== FILE: pomodoro.dfy ===
/**
 The pomodoro timer: a focus phase and a break phase, counted down one
 second per tick, switching phase (and stopping) when the count reaches zero.
 The interval timer is modelled as discrete ticks.
 */
module Pomodoro {
  import opened Wrappers
  import opened Text
  import opened Types

  /** Phase lengths in seconds. */
  datatype Lengths = Lengths(focus: int, brk: int)

  /** Minutes to seconds, for both phases. */
  function LengthsOf(s: Settings): (l: Lengths)
    ensures l.focus == s.focus * 60 && l.brk == s.brk * 60
  {
    Lengths(s.focus * 60, s.brk * 60)
  }

  /** The timer, plus the message of the end-of-phase dialog while it is open. */
  datatype Timer = Timer(timeLeft: int, running: bool, isFocus: bool, alert: Option<string>)

  function PhaseLength(t: Timer, l: Lengths): int {
    if t.isFocus then l.focus else l.brk
  }

  function FocusOverMessage(breakMinutes: int): string {
    "专注时间结束！休息 " + IntToString(breakMinutes) + " 分钟吧。"
  }

  function BreakOverMessage(focusMinutes: int): string {
    "休息时间结束！继续专注 " + IntToString(focusMinutes) + " 分钟吧。"
  }

  /**
   The zero effect: at zero the timer stops, switches phase, starts the new
   phase from its full length and opens the dialog; otherwise nothing.
   */
  function Rollover(t: Timer, s: Settings): (r: Timer)
    ensures t.timeLeft != 0 ==> r == t
    ensures t.timeLeft == 0 ==>
              && !r.running && r.isFocus == !t.isFocus
              && r.timeLeft == PhaseLength(r, LengthsOf(s))
              && r.alert == Some(if t.isFocus then FocusOverMessage(s.brk) else BreakOverMessage(s.focus))
  {
    if t.timeLeft != 0 then t
    else if t.isFocus then Timer(LengthsOf(s).brk, false, false, Some(FocusOverMessage(s.brk)))
    else Timer(LengthsOf(s).focus, false, true, Some(BreakOverMessage(s.focus)))
  }

  /** Stopped at the start of the focus phase: the initial state, reset, and any change of the lengths. */
  function Restart(t: Timer, s: Settings): (r: Timer)
    ensures s.focus != 0 ==> !r.running && r.isFocus && r.timeLeft == LengthsOf(s).focus && r.alert == t.alert
  {
    Rollover(Timer(LengthsOf(s).focus, false, true, t.alert), s)
  }

  function Initial(s: Settings): (r: Timer)
    ensures s.focus != 0 ==> r == Timer(s.focus * 60, false, true, None)
  {
    Restart(Timer(0, false, true, None), s)
  }

  /** One second: only while running and not at zero, and by exactly one. */
  function Tick(t: Timer, s: Settings): (r: Timer)
    ensures !t.running || t.timeLeft == 0 ==> r == t
    ensures t.running && t.timeLeft != 0 ==> r == Rollover(t.(timeLeft := t.timeLeft - 1), s)
  {
    if !t.running || t.timeLeft == 0 then t else Rollover(t.(timeLeft := t.timeLeft - 1), s)
  }

  /** Play/pause toggles the running flag and nothing else. */
  function PlayPause(t: Timer): (r: Timer)
    ensures r.running == !t.running
    ensures r.(running := t.running) == t
  {
    t.(running := !t.running)
  }

  /** Skip: stopped, in the other phase, at its full length. */
  function Skip(t: Timer, s: Settings): (r: Timer)
    ensures LengthsOf(s).focus != 0 && LengthsOf(s).brk != 0 ==>
              && !r.running && r.isFocus == !t.isFocus
              && r.timeLeft == PhaseLength(r, LengthsOf(s)) && r.alert == t.alert
  {
    Rollover(Timer(if t.isFocus then LengthsOf(s).brk else LengthsOf(s).focus, false, !t.isFocus, t.alert), s)
  }

  /** Closing the dialog. */
  function CloseAlert(t: Timer): (r: Timer)
    ensures r.alert.None? && r.(alert := t.alert) == t
  {
    t.(alert := None)
  }

  datatype Event = TickEvent | PlayPauseEvent | SkipEvent | ResetEvent | CloseAlertEvent | SettingsChanged(s: Settings)

  /**
   The timer after one event. A settings change restarts the timer only when
   it changes a phase length (the effect depends on the two lengths alone).
   */
  function Apply(t: Timer, s: Settings, e: Event): (r: Timer)
    ensures e.SettingsChanged? && LengthsOf(e.s) != LengthsOf(s) && e.s.focus != 0 ==>
              !r.running && r.isFocus && r.timeLeft == e.s.focus * 60
    ensures e.SettingsChanged? && LengthsOf(e.s) == LengthsOf(s) ==> r == t
  {
    match e
    case TickEvent => Tick(t, s)
    case PlayPauseEvent => PlayPause(t)
    case SkipEvent => Skip(t, s)
    case ResetEvent => Restart(t, s)
    case CloseAlertEvent => CloseAlert(t)
    case SettingsChanged(s') => if LengthsOf(s') != LengthsOf(s) then Restart(t, s') else t
  }

  function SettingsAfter(s: Settings, e: Event): Settings {
    if e.SettingsChanged? then e.s else s
  }

  /** Between events the count lies in (0, phase length]. */
  predicate Inv(t: Timer, s: Settings) {
    0 < t.timeLeft <= PhaseLength(t, LengthsOf(s))
  }

  predicate Positive(s: Settings) {
    s.focus > 0 && s.brk > 0
  }

  lemma InitialInv(s: Settings)
    requires Positive(s)
    ensures Inv(Initial(s), s)
  {
  }

  /** With positive lengths every event keeps the count within its phase. */
  lemma ApplyInv(t: Timer, s: Settings, e: Event)
    requires Positive(s) && Positive(SettingsAfter(s, e))
    requires Inv(t, s)
    ensures Inv(Apply(t, s, e), SettingsAfter(s, e))
  {
  }

  function Ticks(t: Timer, s: Settings, n: nat): Timer
    decreases n
  {
    if n == 0 then t else Ticks(Tick(t, s), s, n - 1)
  }

  /**
   A running phase with `k` seconds left ends after exactly `k` ticks:
   stopped, in the other phase at its full length, with the dialog open.
   */
  lemma {:induction false} PhaseEnds(t: Timer, s: Settings, k: nat)
    requires t.running && t.timeLeft == k > 0
    ensures var r := Ticks(t, s, k);
            && !r.running && r.isFocus == !t.isFocus
            && r.timeLeft == PhaseLength(r, LengthsOf(s))
            && r.alert == Some(if t.isFocus then FocusOverMessage(s.brk) else BreakOverMessage(s.focus))
    decreases k
  {
    if k > 1 {
      var t' := Tick(t, s);
      assert t' == t.(timeLeft := k - 1);
      PhaseEnds(t', s, k - 1);
    }
  }

  /**
   A number input of the settings dialog: `parseInt(value) || 1`. Zero and
   unparsable entries give 1; negative numbers pass through.
   */
  function DurationInput(entry: string): (m: int)
    ensures ParseInt(entry).None? ==> m == 1
    ensures ParseInt(entry).Some? && ParseInt(entry).value == 0 ==> m == 1
    ensures ParseInt(entry).Some? && ParseInt(entry).value != 0 ==> m == ParseInt(entry).value
    ensures m != 0
  {
    var p := ParseInt(entry);
    if p.Some? && p.value != 0 then p.value else 1
  }

  /** The dialog reads back any non-zero number it wrote. */
  lemma DurationInputRoundTrip(m: int)
    requires m != 0
    ensures DurationInput(IntToString(m)) == m
  {
    ParseIntRoundTrip(m);
  }

  /** Editing the focus minutes changes only the focus length. */
  function SetFocus(s: Settings, entry: string): (r: Settings)
    ensures r.focus == DurationInput(entry) && r.(focus := s.focus) == s
  {
    s.(focus := DurationInput(entry))
  }

  /** Editing the break minutes changes only the break length. */
  function SetBreak(s: Settings, entry: string): (r: Settings)
    ensures r.brk == DurationInput(entry) && r.(brk := s.brk) == s
  {
    s.(brk := DurationInput(entry))
  }
}

=== FILE: position_cards.dfy ===
/**
 The position-card screen: one card drawn from a single bucket (role × mode),
 with default colours, redrawn when the role, the mode or the data change.
 */
module PositionCards {
  import opened Wrappers
  import opened Types

  datatype Screen = Screen(role: Role, mode: Sub, card: Item)

  /** The placeholder the screen is created with; the mount effect replaces it at once. */
  const LOADING_CARD: Item :=
    Item(None, None, Some("🎴"), Some("加载中..."), Some("正在初始化卡牌"), Some("bg-pink-100"), Some("text-pink-800"))

  /** The card shown for an empty or missing bucket. */
  const NO_CARD: Item :=
    Item(None, None, Some(WARNING_ICON), Some("无卡牌"), Some("请前往任务库添加"), Some("bg-red-100"), Some("text-red-800"))

  /** The screen as created, before its effect has run: male, cute, the placeholder. */
  const INITIAL: Screen := Screen(Male, Cute, LOADING_CARD)

  /** The pool: the one bucket of the role and mode, with no union across modes. */
  function Pool(lib: Library, role: Role, mode: Sub): seq<Item> {
    Bucket(lib, RoleKey(role), SubKey(mode))
  }

  /** `{ ...card, color: card.color || 'bg-pink-100', textColor: card.textColor || 'text-pink-800' }`. */
  function WithDefaults(card: Item): (r: Item)
    ensures r == card.(color := r.color, textColor := r.textColor)
    ensures r.color == Some(Or(card.color, "bg-pink-100"))
    ensures r.textColor == Some(Or(card.textColor, "text-pink-800"))
  {
    card.(color := Some(Or(card.color, "bg-pink-100")), textColor := Some(Or(card.textColor, "text-pink-800")))
  }

  /** Defaults are applied once: a card that already has both colours is unchanged. */
  lemma WithDefaultsIdempotent(card: Item)
    ensures WithDefaults(WithDefaults(card)) == WithDefaults(card)
    ensures Truthy(card.color) && Truthy(card.textColor) ==> WithDefaults(card) == card
  {
  }

  /** `drawCard`: the sentinel for an empty pool, else the card at `pick` with default colours. */
  function Draw(lib: Library, role: Role, mode: Sub, pick: nat): (card: Item)
    requires Pool(lib, role, mode) == [] || pick < |Pool(lib, role, mode)|
    ensures Pool(lib, role, mode) == [] ==> card == NO_CARD
    ensures Pool(lib, role, mode) != [] ==> card == WithDefaults(Pool(lib, role, mode)[pick])
    ensures Truthy(card.color) && Truthy(card.textColor)
  {
    var pool := Pool(lib, role, mode);
    if |pool| == 0 then NO_CARD else WithDefaults(pool[pick])
  }

  /**
   A drawn card other than the sentinel agrees with a card of the role and
   mode's bucket on every field but the colours.
   */
  lemma DrawFromBucket(lib: Library, role: Role, mode: Sub, pick: nat)
    requires pick < |Pool(lib, role, mode)|
    ensures exists c :: c in Bucket(lib, RoleKey(role), SubKey(mode))
              && Draw(lib, role, mode, pick) == c.(color := Draw(lib, role, mode, pick).color,
                                                   textColor := Draw(lib, role, mode, pick).textColor)
  {
    var c := Pool(lib, role, mode)[pick];
    assert c in Bucket(lib, RoleKey(role), SubKey(mode));
  }

  /**
   The redraw effect: a new card is drawn when the role, the mode or the
   library differ from the last render (the library by value here).
   */
  predicate Redraws(prevRole: Role, prevMode: Sub, prevLib: Library, role: Role, mode: Sub, lib: Library) {
    prevRole != role || prevMode != mode || prevLib != lib
  }

  /**
   A render after the role, the mode or the library may have changed: the
   selection is taken over and, when any of the three differs from the last
   render, a new card is drawn; otherwise the screen is as it was.
   */
  function Rerender(s: Screen, prevLib: Library, lib: Library, role: Role, mode: Sub, pick: nat): (r: Screen)
    requires Pool(lib, role, mode) == [] || pick < |Pool(lib, role, mode)|
    ensures r.role == role && r.mode == mode
    ensures Redraws(s.role, s.mode, prevLib, role, mode, lib) ==> r.card == Draw(lib, role, mode, pick)
    ensures !Redraws(s.role, s.mode, prevLib, role, mode, lib) ==> r == s
  {
    if Redraws(s.role, s.mode, prevLib, role, mode, lib) then Screen(role, mode, Draw(lib, role, mode, pick)) else s
  }

  /**
   The screen after mounting: the draw effect always runs on mount, so the
   placeholder gives way to a card of the male cute bucket, or to the
   sentinel when that bucket is empty or missing. The placeholder stays on
   view only when the drawn card carries the placeholder's own title.
   */
  function Mount(lib: Library, pick: nat): (r: Screen)
    requires Pool(lib, Male, Cute) == [] || pick < |Pool(lib, Male, Cute)|
    ensures r.role == INITIAL.role && r.mode == INITIAL.mode
    ensures Pool(lib, Male, Cute) == [] ==> r.card == NO_CARD
    ensures Pool(lib, Male, Cute) != [] ==>
              r.card == WithDefaults(Bucket(lib, "male", "cute")[pick])
    ensures r.card == LOADING_CARD ==>
              Pool(lib, Male, Cute) != [] && Bucket(lib, "male", "cute")[pick].title == LOADING_CARD.title
  {
    Screen(INITIAL.role, INITIAL.mode, Draw(lib, INITIAL.role, INITIAL.mode, pick))
  }

  /**
   Once mounted the screen is stable: a render with the same role, mode and
   library keeps the drawn card, and a change draws from the new bucket.
   */
  lemma MountThenRerender(lib: Library, pick: nat, lib': Library, role: Role, mode: Sub, pick': nat)
    requires Pool(lib, Male, Cute) == [] || pick < |Pool(lib, Male, Cute)|
    requires Pool(lib', role, mode) == [] || pick' < |Pool(lib', role, mode)|
    ensures var r := Rerender(Mount(lib, pick), lib, lib', role, mode, pick');
            && (lib' == lib && role == Male && mode == Cute ==> r == Mount(lib, pick))
            && (!(lib' == lib && role == Male && mode == Cute) ==> r.card == Draw(lib', role, mode, pick'))
  {
  }
}

=== FILE: punishment_game.dfy ===
/**
 The punishment game: the player picks a role and which intensity tiers are
 enabled, and draws one punishment from the enabled tiers of that role.
 */
module PunishmentGame {
  import opened Wrappers
  import opened Types

  /** Which tiers are enabled. */
  datatype Tiers = Tiers(mild: bool, medium: bool, intense: bool)

  /** Mild and medium on, intense off. */
  const DEFAULT_TIERS: Tiers := Tiers(true, true, false)

  datatype Screen = Screen(active: Option<Item>, flipped: bool, role: Role, tiers: Tiers)

  const INITIAL: Screen := Screen(None, false, Male, DEFAULT_TIERS)

  /** The card shown when there is nothing to draw. */
  const EMPTY_POOL_CARD: Item :=
    Item(None, Some("未选择模式或模式库为空。请在任务库中添加卡牌。"), Some(WARNING_ICON), None, None, None, None)

  function Tier(lib: Library, role: Role, on: bool, sub: Sub): seq<Item> {
    if on then Bucket(lib, RoleKey(role), SubKey(sub)) else []
  }

  /**
   The pool: the enabled tiers of the role, in the order mild, medium,
   intense; a missing role or tier counts as empty.
   */
  function Pool(lib: Library, role: Role, t: Tiers): (pool: seq<Item>)
    ensures |pool| == |Tier(lib, role, t.mild, Mild)| + |Tier(lib, role, t.medium, Medium)|
                      + |Tier(lib, role, t.intense, Intense)|
    ensures forall x :: x in pool <==>
              || (t.mild && x in Bucket(lib, RoleKey(role), "mild"))
              || (t.medium && x in Bucket(lib, RoleKey(role), "medium"))
              || (t.intense && x in Bucket(lib, RoleKey(role), "intense"))
  {
    Tier(lib, role, t.mild, Mild) + Tier(lib, role, t.medium, Medium) + Tier(lib, role, t.intense, Intense)
  }

  /** No record of the pool has a truthy content (vacuously so for an empty pool). */
  predicate NoContent(pool: seq<Item>) {
    forall i :: 0 <= i < |pool| ==> !Truthy(pool[i].content)
  }

  /**
   `drawPunishment`: the sentinel card when the pool is empty or none of its
   records has content, else the record at `pick`, which may itself lack
   content. Every draw shows the card face down.
   */
  function Draw(s: Screen, lib: Library, pick: nat): (r: Screen)
    requires var pool := Pool(lib, s.role, s.tiers); NoContent(pool) || pick < |pool|
    ensures !r.flipped && r.role == s.role && r.tiers == s.tiers && r.active.Some?
    ensures NoContent(Pool(lib, s.role, s.tiers)) ==> r.active == Some(EMPTY_POOL_CARD)
    ensures !NoContent(Pool(lib, s.role, s.tiers)) ==>
              r.active.value == Pool(lib, s.role, s.tiers)[pick]
  {
    var pool := Pool(lib, s.role, s.tiers);
    if |pool| == 0 || NoContent(pool) then s.(active := Some(EMPTY_POOL_CARD), flipped := false)
    else s.(active := Some(pool[pick]), flipped := false)
  }

  /** Whatever is drawn is the sentinel or a record of an enabled tier of the role. */
  lemma DrawFromEnabledTiers(s: Screen, lib: Library, pick: nat)
    requires var pool := Pool(lib, s.role, s.tiers); NoContent(pool) || pick < |pool|
    ensures var c := Draw(s, lib, pick).active.value;
            c == EMPTY_POOL_CARD
            || (s.tiers.mild && c in Bucket(lib, RoleKey(s.role), "mild"))
            || (s.tiers.medium && c in Bucket(lib, RoleKey(s.role), "medium"))
            || (s.tiers.intense && c in Bucket(lib, RoleKey(s.role), "intense"))
  {
    var pool := Pool(lib, s.role, s.tiers);
    if !NoContent(pool) {
      assert pool[pick] in pool;
    }
  }

  /** With every tier off nothing can be drawn but the sentinel. */
  lemma AllTiersOff(s: Screen, lib: Library, pick: nat)
    requires !s.tiers.mild && !s.tiers.medium && !s.tiers.intense
    ensures Draw(s, lib, pick).active == Some(EMPTY_POOL_CARD)
  {
  }

  /** `closePunishment`: no active card, face down. */
  function Close(s: Screen): (r: Screen)
    ensures r.active.None? && !r.flipped && r.role == s.role && r.tiers == s.tiers
  {
    s.(active := None, flipped := false)
  }

  datatype TierToggle = ToggleMild | ToggleMedium | ToggleIntense

  /** A tier button flips its own flag and no other. */
  function Toggle(t: Tiers, which: TierToggle): (r: Tiers)
    ensures which == ToggleMild ==> r.mild == !t.mild && r.medium == t.medium && r.intense == t.intense
    ensures which == ToggleMedium ==> r.medium == !t.medium && r.mild == t.mild && r.intense == t.intense
    ensures which == ToggleIntense ==> r.intense == !t.intense && r.mild == t.mild && r.medium == t.medium
  {
    match which
    case ToggleMild => t.(mild := !t.mild)
    case ToggleMedium => t.(medium := !t.medium)
    case ToggleIntense => t.(intense := !t.intense)
  }

  lemma ToggleTwice(t: Tiers, which: TierToggle)
    ensures Toggle(Toggle(t, which), which) == t
  {
  }
}

=== FILE: task_editor.dfy ===
/**
 The library editor: the bucket on view, adding, deleting and editing records,
 import, export, the import template and the reset to defaults.

 The editor looks at one bucket at a time, chosen by a `View`: a library, a
 role key and a sub-category key. `Date.now()` is the parameter `now`;
 `Math.random()` draws are indices into the pool being drawn from.
 */
module TaskEditor {
  import opened Wrappers
  import opened Text
  import opened Types
  import opened Helpers
  import Emoji

  datatype View = View(kind: LibraryKind, role: string, sub: string)

  /** The keys of a library's sub-categories, in display order. */
  function SubKeys(k: LibraryKind): (ks: seq<string>)
    ensures |ks| == 3 && forall i :: 0 <= i < 3 ==> ks[i] == SubKey(SubsOf(k)[i])
  {
    var s := SubsOf(k);
    [SubKey(s[0]), SubKey(s[1]), SubKey(s[2])]
  }

  /** `getCurrentData()`: the bucket on view, empty when any level is missing. */
  function CurrentData(libs: Libraries, v: View): (items: seq<Item>)
    ensures v.kind in libs && HasBucket(libs[v.kind], v.role, v.sub) ==> items == libs[v.kind][v.role][v.sub]
    ensures !(v.kind in libs && HasBucket(libs[v.kind], v.role, v.sub)) ==> items == []
  {
    if v.kind in libs then Bucket(libs[v.kind], v.role, v.sub) else []
  }

  /**
   The effect that keeps the sub-category valid: one the library does not have
   is replaced by the library's first sub-category; a valid one is kept.
   */
  function SyncSubMode(v: View): (r: View)
    ensures r.kind == v.kind && r.role == v.role
    ensures r.sub in SubKeys(v.kind)
    ensures v.sub in SubKeys(v.kind) ==> r == v
    ensures v.sub !in SubKeys(v.kind) ==> r.sub == SubKeys(v.kind)[0]
  {
    if v.sub in SubKeys(v.kind) then v else v.(sub := SubKeys(v.kind)[0])
  }

  /** Switching library tabs keeps the role and re-validates the sub-category. */
  function SelectLibrary(v: View, k: LibraryKind): (r: View)
    ensures r.kind == k && r.role == v.role && r.sub in SubKeys(k)
  {
    SyncSubMode(v.(kind := k))
  }

  lemma SyncSubModeIdempotent(v: View)
    ensures SyncSubMode(SyncSubMode(v)) == SyncSubMode(v)
  {
  }

  // ---------------------------------------------------------------------------
  // Frame conditions
  // ---------------------------------------------------------------------------

  /** `a` and `b` hold the same buckets everywhere except possibly at (`role`, `sub`). */
  ghost predicate SameElsewhere(a: Library, b: Library, role: string, sub: string) {
    forall r, s :: !(r == role && s == sub) ==>
      (HasBucket(a, r, s) <==> HasBucket(b, r, s)) && Bucket(a, r, s) == Bucket(b, r, s)
  }

  /** The libraries other than `k` are untouched. */
  ghost predicate OthersUnchanged(a: Libraries, b: Libraries, k: LibraryKind) {
    k in b && forall j :: j != k ==> (j in a <==> j in b) && (j in a ==> a[j] == b[j])
  }

  /** `lib` with the bucket at (`role`, `sub`) set to `items`, creating the role if needed. */
  function SetBucket(lib: Library, role: string, sub: string, items: seq<Item>): (r: Library)
    ensures HasBucket(r, role, sub) && r[role][sub] == items
    ensures SameElsewhere(lib, r, role, sub)
  {
    var roleData := if role in lib then lib[role] else map[];
    lib[role := roleData[sub := items]]
  }

  /** The libraries with the bucket on view set to `items`; nothing else changes. */
  function WithBucket(libs: Libraries, v: View, items: seq<Item>): (r: Libraries)
    requires v.kind in libs
    ensures OthersUnchanged(libs, r, v.kind)
    ensures HasBucket(r[v.kind], v.role, v.sub) && CurrentData(r, v) == items
    ensures SameElsewhere(libs[v.kind], r[v.kind], v.role, v.sub)
  {
    var lib' := SetBucket(libs[v.kind], v.role, v.sub, items);
    var r := libs[v.kind := lib'];
    assert r[v.kind] == lib';
    r
  }

  // ---------------------------------------------------------------------------
  // Adding
  // ---------------------------------------------------------------------------

  /** The form's text for a field; the form has no colour inputs and no library asks for them. */
  function FormText(f: Form, fld: Field): string {
    match fld
    case ContentField => f.content
    case IconField => f.icon
    case TitleField => f.title
    case DescriptionField => f.description
    case ColorField => ""
    case TextColorField => ""
  }

  /** The pool every suggestion for this form draws from. */
  function SuggestPool(f: Form): seq<string> {
    Emoji.PoolOf(Emoji.SmartCategory(TextContent(f)))
  }

  /**
   The value validation sees for one field: the trimmed text, or for the icon
   the first character of the trimmed icon, else a suggested emoji.
   */
  function CheckedValue(f: Form, fld: Field, pick: nat): string
    requires pick < |SuggestPool(f)|
  {
    if fld == IconField then
      var userIcon := Trim(f.icon);
      if userIcon != "" then userIcon[..1] else Emoji.SmartEmoji(TextContent(f), pick)
    else Trim(FormText(f, fld))
  }

  /** The icon validation sees is never empty. */
  lemma IconNeverEmpty(f: Form, pick: nat)
    requires pick < |SuggestPool(f)|
    ensures CheckedValue(f, IconField, pick) != ""
  {
  }

  /** Some field of `fields` is empty as validation sees it. */
  predicate AnyEmpty(f: Form, fields: seq<Field>, pick: nat)
    requires pick < |SuggestPool(f)|
  {
    fields != [] && (CheckedValue(f, fields[0], pick) == "" || AnyEmpty(f, fields[1..], pick))
  }

  /**
   Adding is refused outside the task library when a field the library asks
   for is empty after trimming; the task library accepts anything.
   */
  predicate Refused(k: LibraryKind, f: Form, pick: nat)
    requires pick < |SuggestPool(f)|
  {
    k != TaskLibrary && AnyEmpty(f, Fields(k), pick)
  }

  /** The icon alone never makes a form empty. */
  lemma IconAloneNotEmpty(f: Form, pick: nat)
    requires pick < |SuggestPool(f)|
    ensures !AnyEmpty(f, [IconField], pick)
  {
    IconNeverEmpty(f, pick);
    assert [IconField][1..] == [];
  }

  /** The task library accepts any form, empty content included. */
  lemma TaskNeverRefused(f: Form, pick: nat)
    requires pick < |SuggestPool(f)|
    ensures !Refused(TaskLibrary, f, pick)
  {
  }

  /** A position card is refused exactly when its title or its description trims to empty. */
  lemma CardRefusedIff(f: Form, pick: nat)
    requires pick < |SuggestPool(f)|
    ensures Refused(PositionCardsLibrary, f, pick) <==> Trim(f.title) == "" || Trim(f.description) == ""
  {
    var tail := [DescriptionField] + [IconField];
    IconAloneNotEmpty(f, pick);
    EmptyStep(f, DescriptionField, [IconField], pick);
    EmptyStep(f, TitleField, tail, pick);
    assert Fields(PositionCardsLibrary) == [TitleField] + tail;
  }

  /** One step of the field check on a text field: it is empty, or the rest of the list is. */
  lemma EmptyStep(f: Form, fld: Field, rest: seq<Field>, pick: nat)
    requires pick < |SuggestPool(f)|
    requires fld != IconField
    ensures AnyEmpty(f, [fld] + rest, pick) <==> Trim(FormText(f, fld)) == "" || AnyEmpty(f, rest, pick)
  {
    assert ([fld] + rest)[0] == fld && ([fld] + rest)[1..] == rest;
  }

  /** A punishment is refused exactly when its content trims to empty. */
  lemma PunishmentRefusedIff(f: Form, pick: nat)
    requires pick < |SuggestPool(f)|
    ensures Refused(PunishmentLibrary, f, pick) <==> Trim(f.content) == ""
  {
    assert Fields(PunishmentLibrary) == [ContentField] + [IconField];
    IconAloneNotEmpty(f, pick);
    EmptyStep(f, ContentField, [IconField], pick);
  }

  /** The stored icon before trimming: the trimmed user icon, or a suggested emoji. */
  function FinalIcon(f: Form, pick: nat): (r: string)
    requires pick < |SuggestPool(f)|
    ensures r != "" && Trim(r) == r
    ensures Trim(f.icon) != "" ==> r == Trim(f.icon)
    ensures Trim(f.icon) == "" ==> r in SuggestPool(f)
  {
    if Trim(f.icon) != "" then
      TrimIdempotent(f.icon);
      Trim(f.icon)
    else Emoji.SmartEmoji(TextContent(f), pick)
  }

  /**
   The record `handleAddItem` stores: every form field trimmed, the icon
   decided by `FinalIcon`, and the numeric id `now`.
   */
  function NewItem(f: Form, now: int, pick: nat): (item: Item)
    requires pick < |SuggestPool(f)|
    ensures item.id == Some(NumId(now))
    ensures item.content == Some(Trim(f.content)) && item.title == Some(Trim(f.title))
    ensures item.description == Some(Trim(f.description))
    ensures item.icon.Some? && item.icon.value != "" && Trimmed(item.icon.value)
    ensures Trim(f.icon) != "" ==> item.icon == Some(Trim(f.icon))
    ensures Trim(f.icon) == "" ==> item.icon.value in SuggestPool(f)
    ensures item.color.None? && item.textColor.None?
  {
    Item(Some(NumId(now)), Some(Trim(f.content)), Some(Trim(FinalIcon(f, pick))),
         Some(Trim(f.title)), Some(Trim(f.description)), None, None)
  }

  /**
   `handleAddItem`: unless refused, the new record is appended to the end of
   the bucket on view (created if missing); every other bucket and every other
   library is unchanged. `None` is a refusal, which changes nothing.
   */
  function Add(libs: Libraries, v: View, f: Form, now: int, checkPick: nat, pick: nat): (r: Option<Libraries>)
    requires v.kind in libs
    requires checkPick < |SuggestPool(f)| && pick < |SuggestPool(f)|
    ensures r.None? <==> Refused(v.kind, f, checkPick)
    ensures r.Some? ==>
              && OthersUnchanged(libs, r.value, v.kind)
              && HasBucket(r.value[v.kind], v.role, v.sub)
              && CurrentData(r.value, v) == CurrentData(libs, v) + [NewItem(f, now, pick)]
              && SameElsewhere(libs[v.kind], r.value[v.kind], v.role, v.sub)
  {
    if Refused(v.kind, f, checkPick) then None
    else Some(WithBucket(libs, v, CurrentData(libs, v) + [NewItem(f, now, pick)]))
  }

  // ---------------------------------------------------------------------------
  // Deleting
  // ---------------------------------------------------------------------------

  /** `items.filter(item => item.id !== id)`; an absent id is `None` (`undefined`). */
  function RemoveId(items: seq<Item>, id: Option<Id>): (r: seq<Item>)
    ensures |r| <= |items|
  {
    if items == [] then []
    else if items[0].id != id then [items[0]] + RemoveId(items[1..], id)
    else RemoveId(items[1..], id)
  }

  /** The survivors are exactly the records whose id differs. */
  lemma {:induction false} RemoveIdMembers(items: seq<Item>, id: Option<Id>)
    ensures forall x :: x in RemoveId(items, id) <==> x in items && x.id != id
  {
    if items != [] {
      RemoveIdMembers(items[1..], id);
      assert forall x :: x in items <==> x == items[0] || x in items[1..];
    }
  }

  /** Filtering distributes over concatenation: survivors keep their relative order. */
  lemma {:induction false} RemoveIdConcat(a: seq<Item>, b: seq<Item>, id: Option<Id>)
    ensures RemoveId(a + b, id) == RemoveId(a, id) + RemoveId(b, id)
  {
    if a != [] {
      assert (a + b)[0] == a[0] && (a + b)[1..] == a[1..] + b;
      RemoveIdConcat(a[1..], b, id);
      var tail := RemoveId(a[1..], id) + RemoveId(b, id);
      assert a + b != [];
      if a[0].id != id {
        assert RemoveId(a + b, id) == [a[0]] + RemoveId(a[1..] + b, id);
        assert RemoveId(a, id) == [a[0]] + RemoveId(a[1..], id);
        assert [a[0]] + tail == ([a[0]] + RemoveId(a[1..], id)) + RemoveId(b, id);
      } else {
        assert RemoveId(a + b, id) == RemoveId(a[1..] + b, id);
        assert RemoveId(a, id) == RemoveId(a[1..], id);
      }
    } else {
      assert a + b == b;
    }
  }

  /** A bucket without the id is left exactly as it was. */
  lemma {:induction false} RemoveIdAbsent(items: seq<Item>, id: Option<Id>)
    requires forall i :: 0 <= i < |items| ==> items[i].id != id
    ensures RemoveId(items, id) == items
  {
    if items != [] {
      RemoveIdAbsent(items[1..], id);
    }
  }

  /** The number of records carrying an id. */
  function CountId(items: seq<Item>, id: Option<Id>): nat {
    if items == [] then 0 else (if items[0].id == id then 1 else 0) + CountId(items[1..], id)
  }

  lemma {:induction false} RemoveIdCount(items: seq<Item>, id: Option<Id>)
    ensures |RemoveId(items, id)| == |items| - CountId(items, id)
  {
    if items != [] {
      RemoveIdCount(items[1..], id);
    }
  }

  /**
   `handleDeleteItem`: every record of the bucket on view whose id is `id` is
   removed; the library and role are created if missing; nothing else changes.
   */
  function Delete(libs: Libraries, v: View, id: Id): (r: Libraries)
    ensures OthersUnchanged(libs, r, v.kind)
    ensures HasBucket(r[v.kind], v.role, v.sub)
    ensures CurrentData(r, v) == RemoveId(CurrentData(libs, v), Some(id))
    ensures v.kind in libs ==> SameElsewhere(libs[v.kind], r[v.kind], v.role, v.sub)
    ensures v.kind !in libs ==> r[v.kind].Keys == {v.role} && r[v.kind][v.role].Keys == {v.sub}
  {
    var lib := if v.kind in libs then libs[v.kind] else map[];
    libs[v.kind := SetBucket(lib, v.role, v.sub, RemoveId(Bucket(lib, v.role, v.sub), Some(id)))]
  }

  /** Deleting an id no record on view has leaves the bucket's contents as they were. */
  lemma DeleteAbsentId(libs: Libraries, v: View, id: Id)
    requires forall x :: x in CurrentData(libs, v) ==> x.id != Some(id)
    ensures CurrentData(Delete(libs, v, id), v) == CurrentData(libs, v)
  {
    RemoveIdAbsent(CurrentData(libs, v), Some(id));
  }

  /**
   Adding a record and deleting it by its new id restores the bucket, provided
   no record there already had that id.
   */
  lemma AddThenDelete(libs: Libraries, v: View, f: Form, now: int, checkPick: nat, pick: nat)
    requires v.kind in libs
    requires checkPick < |SuggestPool(f)| && pick < |SuggestPool(f)|
    requires !Refused(v.kind, f, checkPick)
    requires forall x :: x in CurrentData(libs, v) ==> x.id != Some(NumId(now))
    ensures CurrentData(Delete(Add(libs, v, f, now, checkPick, pick).value, v, NumId(now)), v)
            == CurrentData(libs, v)
  {
    var before := CurrentData(libs, v);
    var item := NewItem(f, now, pick);
    var added := Add(libs, v, f, now, checkPick, pick).value;
    assert CurrentData(added, v) == before + [item];
    assert RemoveId(before + [item], Some(NumId(now))) == before by {
      RemoveIdConcat(before, [item], Some(NumId(now)));
      RemoveIdAbsent(before, Some(NumId(now)));
      assert RemoveId([item], Some(NumId(now))) == [];
    }
  }

  /** The argument of the delete button: `item.id || index`. */
  function DeleteKey(item: Item, index: nat): (k: Id)
    ensures item.id.Some? && IdTruthy(item.id.value) ==> k == item.id.value
    ensures !(item.id.Some? && IdTruthy(item.id.value)) ==> k == NumId(index)
  {
    if item.id.Some? && IdTruthy(item.id.value) then item.id.value else NumId(index)
  }

  /** The delete button of the record at `index`, as written. */
  function DeleteClicked(libs: Libraries, v: View, index: nat): (r: Libraries)
    requires index < |CurrentData(libs, v)|
    ensures CurrentData(r, v) == RemoveId(CurrentData(libs, v), Some(DeleteKey(CurrentData(libs, v)[index], index)))
  {
    Delete(libs, v, DeleteKey(CurrentData(libs, v)[index], index))
  }

  /**
   A record without an id falls back to its index as the key, which no record's
   `id` equals (`undefined !== index`): the click deletes nothing of it.
   */
  lemma IdlessRecordSurvivesDelete(libs: Libraries, v: View, index: nat)
    requires index < |CurrentData(libs, v)|
    requires CurrentData(libs, v)[index].id.None?
    ensures CurrentData(libs, v)[index] in CurrentData(DeleteClicked(libs, v, index), v)
  {
    var items := CurrentData(libs, v);
    RemoveIdMembers(items, Some(DeleteKey(items[index], index)));
  }

  /** A concrete case: the one id-less record of a bucket stays after its delete click. */
  lemma IdlessDeleteExample()
    ensures var item := Item(None, Some("x"), Some("🎯"), None, None, None, None);
            var libs := map[TaskLibrary := map["male" := map["warmup" := [item]]]];
            var v := View(TaskLibrary, "male", "warmup");
            CurrentData(DeleteClicked(libs, v, 0), v) == [item]
  {
    var item := Item(None, Some("x"), Some("🎯"), None, None, None, None);
    assert RemoveId([item], Some(NumId(0))) == [item] by {
      assert [item][1..] == [];
    }
  }

  /** The delete button as evidently intended: remove the clicked record itself. */
  function DeleteAt(libs: Libraries, v: View, index: nat): (r: Libraries)
    requires index < |CurrentData(libs, v)|
    ensures OthersUnchanged(libs, r, v.kind)
    ensures v.kind in libs ==> SameElsewhere(libs[v.kind], r[v.kind], v.role, v.sub)
    ensures |CurrentData(r, v)| == |CurrentData(libs, v)| - 1
    ensures forall i :: 0 <= i < index ==> CurrentData(r, v)[i] == CurrentData(libs, v)[i]
    ensures forall i :: index <= i < |CurrentData(r, v)| ==> CurrentData(r, v)[i] == CurrentData(libs, v)[i + 1]
  {
    var items := CurrentData(libs, v);
    WithBucket(libs, v, items[..index] + items[index + 1..])
  }

  /**
   On a record with a truthy id that no other record of the bucket shares, the
   intended delete and the delete as written agree.
   */
  lemma DeleteAtAgrees(libs: Libraries, v: View, index: nat)
    requires index < |CurrentData(libs, v)|
    requires var x := CurrentData(libs, v)[index]; x.id.Some? && IdTruthy(x.id.value)
    requires forall i :: 0 <= i < |CurrentData(libs, v)| && i != index ==>
               CurrentData(libs, v)[i].id != CurrentData(libs, v)[index].id
    ensures CurrentData(DeleteAt(libs, v, index), v) == CurrentData(DeleteClicked(libs, v, index), v)
  {
    var items := CurrentData(libs, v);
    assert Some(DeleteKey(items[index], index)) == items[index].id;
    RemoveIdUnique(items, index);
  }

  /** Filtering by the id of a record that no other record shares removes just that record. */
  lemma {:induction false} RemoveIdUnique(items: seq<Item>, index: nat)
    requires index < |items|
    requires forall i :: 0 <= i < |items| && i != index ==> items[i].id != items[index].id
    ensures RemoveId(items, items[index].id) == items[..index] + items[index + 1..]
  {
    var id := items[index].id;
    var tail := items[1..];
    if index == 0 {
      assert forall i :: 0 <= i < |tail| ==> tail[i].id == items[i + 1].id;
      RemoveIdAbsent(tail, id);
    } else {
      assert tail[index - 1] == items[index];
      assert forall i :: 0 <= i < |tail| && i != index - 1 ==> tail[i] == items[i + 1];
      RemoveIdUnique(tail, index - 1);
      assert items[..index] == [items[0]] + tail[..index - 1];
      assert items[index + 1..] == tail[index..];
    }
  }

  // ---------------------------------------------------------------------------
  // Editing
  // ---------------------------------------------------------------------------

  /** `items.map(item => item.id === u.id ? u : item)`; two absent ids are equal. */
  function Replace(items: seq<Item>, u: Item): (r: seq<Item>)
    ensures |r| == |items|
    ensures forall i :: 0 <= i < |items| ==> r[i].id == items[i].id
    ensures forall i :: 0 <= i < |items| ==> items[i].id == u.id ==> r[i] == u
    ensures forall i :: 0 <= i < |items| ==> items[i].id != u.id ==> r[i] == items[i]
  {
    seq(|items|, i requires 0 <= i < |items| => if items[i].id == u.id then u else items[i])
  }

  lemma ReplaceIdempotent(items: seq<Item>, u: Item)
    ensures Replace(Replace(items, u), u) == Replace(items, u)
  {
  }

  /**
   `handleUpdateItemFromModal`. With the category unchanged, matching records
   are replaced in place. Otherwise the records with the item's id leave the
   bucket on view and the item is appended to the target bucket, which must
   exist, and the view moves to the target. The bucket on view must exist too.
   */
  function Update(libs: Libraries, v: View, u: Item, newRole: string, newSub: string): (r: (Libraries, View))
    requires v.kind in libs && HasBucket(libs[v.kind], v.role, v.sub)
    requires HasBucket(libs[v.kind], newRole, newSub)
    ensures OthersUnchanged(libs, r.0, v.kind)
    ensures r.1 == View(v.kind, newRole, newSub)
    ensures newRole == v.role && newSub == v.sub ==>
              && CurrentData(r.0, v) == Replace(CurrentData(libs, v), u)
              && SameElsewhere(libs[v.kind], r.0[v.kind], v.role, v.sub)
    ensures !(newRole == v.role && newSub == v.sub) ==>
              && CurrentData(r.0, v) == RemoveId(CurrentData(libs, v), u.id)
              && CurrentData(r.0, r.1) == CurrentData(libs, r.1) + [u]
              && forall ro, s :: !(ro == v.role && s == v.sub) && !(ro == newRole && s == newSub) ==>
                   (HasBucket(r.0[v.kind], ro, s) <==> HasBucket(libs[v.kind], ro, s))
                   && Bucket(r.0[v.kind], ro, s) == Bucket(libs[v.kind], ro, s)
  {
    var lib := libs[v.kind];
    if newRole == v.role && newSub == v.sub then
      (libs[v.kind := SetBucket(lib, v.role, v.sub, Replace(lib[v.role][v.sub], u))], v)
    else
      var filtered := RemoveId(lib[v.role][v.sub], u.id);
      var target := lib[newRole][newSub] + [u];
      var lib1 := SetBucket(lib, v.role, v.sub, filtered);
      var lib2 := SetBucket(lib1, newRole, newSub, target);
      (libs[v.kind := lib2], View(v.kind, newRole, newSub))
  }

  /** An in-place edit never changes the ids of the bucket, nor their order. */
  lemma UpdateInPlaceKeepsIds(libs: Libraries, v: View, u: Item)
    requires v.kind in libs && HasBucket(libs[v.kind], v.role, v.sub)
    ensures var after := CurrentData(Update(libs, v, u, v.role, v.sub).0, v);
            |after| == |CurrentData(libs, v)|
            && forall i :: 0 <= i < |after| ==> after[i].id == CurrentData(libs, v)[i].id
  {
  }

  /**
   A move of a record whose id occurs exactly once in its bucket keeps the
   number of records: one leaves the source, one arrives at the target, and
   every other bucket is untouched.
   */
  lemma MoveKeepsCount(libs: Libraries, v: View, u: Item, newRole: string, newSub: string)
    requires v.kind in libs && HasBucket(libs[v.kind], v.role, v.sub)
    requires HasBucket(libs[v.kind], newRole, newSub)
    requires !(newRole == v.role && newSub == v.sub)
    requires CountId(CurrentData(libs, v), u.id) == 1
    ensures var r := Update(libs, v, u, newRole, newSub);
            |CurrentData(r.0, v)| + |CurrentData(r.0, r.1)|
            == |CurrentData(libs, v)| + |CurrentData(libs, r.1)|
  {
    RemoveIdCount(CurrentData(libs, v), u.id);
  }

  // ---------------------------------------------------------------------------
  // Export, import, template, reset
  // ---------------------------------------------------------------------------

  /** `handleExportLibrary`: refused only when the library is absent; an empty one exports. */
  function Export(libs: Libraries, k: LibraryKind): (r: Option<Library>)
    ensures r.None? <==> k !in libs
    ensures r.Some? ==> r.value == libs[k]
  {
    if k in libs then Some(libs[k]) else None
  }

  function SectionKey(k: LibraryKind): string {
    match k
    case TaskLibrary => "taskLibrary"
    case PositionCardsLibrary => "positionCardsLibrary"
    case PunishmentLibrary => "punishmentLibrary"
  }

  /**
   A parsed import file, read both ways the importer reads the one object:
   `sections` holds its values under `taskLibrary`, `positionCardsLibrary`
   and `punishmentLibrary`, each read as a whole library, and `asLibrary` is
   the object itself read as one library.
   */
  datatype RawPayload = Payload(sections: map<string, Library>, asLibrary: Library)

  /** Both readings are of one object: a section is there exactly when the object has its key. */
  predicate OneObject(p: RawPayload) {
    && (forall key :: key in p.sections ==> key in {"taskLibrary", "positionCardsLibrary", "punishmentLibrary"})
    && (forall k: LibraryKind :: SectionKey(k) in p.sections <==> SectionKey(k) in p.asLibrary)
  }

  type Payload = p: RawPayload | OneObject(p) witness Payload(map[], map[])

  datatype ImportOutcome =
    | ParseFailed
    | Malformed
    | ImportedAll(libs: Libraries, count: nat)
    | ImportedOne(libs: Libraries)

  /**
   `importedData.taskLibrary || importedData.positionCardsLibrary ||
   importedData.punishmentLibrary`: the object has a key naming a section.
   */
  function IsBundle(p: Payload): (b: bool)
    ensures b <==> SectionKey(TaskLibrary) in p.sections || SectionKey(PositionCardsLibrary) in p.sections
                   || SectionKey(PunishmentLibrary) in p.sections
  {
    SectionKey(TaskLibrary) in p.asLibrary || SectionKey(PositionCardsLibrary) in p.asLibrary
    || SectionKey(PunishmentLibrary) in p.asLibrary
  }

  /** A file is read as a bundle exactly when it carries a section. */
  lemma BundleIffSections(p: Payload)
    ensures IsBundle(p) <==> exists k: LibraryKind :: SectionKey(k) in p.sections
  {
    if IsBundle(p) {
      if SectionKey(TaskLibrary) in p.asLibrary {
        assert SectionKey(TaskLibrary) in p.sections;
      } else if SectionKey(PositionCardsLibrary) in p.asLibrary {
        assert SectionKey(PositionCardsLibrary) in p.sections;
      } else {
        assert SectionKey(PunishmentLibrary) in p.sections;
      }
    }
  }

  /** One section of a bundle applied: the library it carries replaces `k`; nothing else changes. */
  function Section(libs: Libraries, p: Payload, k: LibraryKind): (r: Libraries)
    ensures SectionKey(k) in p.sections ==> k in r && r[k] == p.sections[SectionKey(k)]
    ensures SectionKey(k) !in p.sections ==> r == libs
    ensures forall j :: j != k ==> (j in r <==> j in libs) && (j in libs ==> r[j] == libs[j])
  {
    if SectionKey(k) in p.sections then libs[k := p.sections[SectionKey(k)]] else libs
  }

  /** Every section of a bundle applied: exactly the carried libraries are replaced. */
  function ApplyBundle(libs: Libraries, p: Payload): (r: Libraries)
    ensures forall k: LibraryKind ::
              && (SectionKey(k) in p.sections ==> k in r && r[k] == p.sections[SectionKey(k)])
              && (SectionKey(k) !in p.sections ==> (k in r <==> k in libs) && (k in libs ==> r[k] == libs[k]))
  {
    var a := Section(libs, p, TaskLibrary);
    var b := Section(a, p, PositionCardsLibrary);
    Section(b, p, PunishmentLibrary)
  }

  /**
   `handleImportLibrary`, after parsing (`None` is a file that does not parse).
   A bundle replaces exactly the libraries it carries and counts them; any
   other object must have both roles and replaces the library on view.
   */
  function Import(libs: Libraries, v: View, data: Option<Payload>): (r: ImportOutcome)
    ensures data.None? ==> r == ParseFailed
    ensures data.Some? && IsBundle(data.value) ==>
              && r.ImportedAll?
              && r.count == |Carried(data.value)|
              && forall k: LibraryKind ::
                   && (SectionKey(k) in data.value.sections ==>
                         k in r.libs && r.libs[k] == data.value.sections[SectionKey(k)])
                   && (SectionKey(k) !in data.value.sections ==>
                         (k in r.libs <==> k in libs) && (k in libs ==> r.libs[k] == libs[k]))
    ensures data.Some? && !IsBundle(data.value) ==>
              if "male" in data.value.asLibrary && "female" in data.value.asLibrary
              then r == ImportedOne(libs[v.kind := data.value.asLibrary])
              else r == Malformed
  {
    if data.None? then ParseFailed
    else
      var p := data.value;
      if IsBundle(p) then
        ImportedAll(ApplyBundle(libs, p), BundleCount(p))
      else if "male" in p.asLibrary && "female" in p.asLibrary then
        ImportedOne(libs[v.kind := p.asLibrary])
      else Malformed
  }

  /** The libraries a bundle carries, in the order the importer tests them. */
  function Carried(p: Payload): (ks: seq<LibraryKind>)
    ensures forall k :: k in ks <==> SectionKey(k) in p.sections
    ensures forall i, j :: 0 <= i < j < |ks| ==> ks[i] != ks[j]
  {
    (if SectionKey(TaskLibrary) in p.sections then [TaskLibrary] else [])
    + (if SectionKey(PositionCardsLibrary) in p.sections then [PositionCardsLibrary] else [])
    + (if SectionKey(PunishmentLibrary) in p.sections then [PunishmentLibrary] else [])
  }

  /** The importer's counter: one per library the bundle carries. */
  function BundleCount(p: Payload): (n: nat)
    ensures n == |Carried(p)|
  {
    (if SectionKey(TaskLibrary) in p.sections then 1 else 0)
    + (if SectionKey(PositionCardsLibrary) in p.sections then 1 else 0)
    + (if SectionKey(PunishmentLibrary) in p.sections then 1 else 0)
  }

  /**
   Exporting the library on view and importing the file back restores it
   exactly when the file reads as a single library: it has both roles and no
   role key that names a bundle section. A role key such as `taskLibrary`
   makes the importer take the file for a bundle instead.
   */
  lemma ExportImportRoundTrip(libs: Libraries, v: View, p: Payload)
    requires v.kind in libs && Export(libs, v.kind) == Some(p.asLibrary)
    ensures Import(libs, v, Some(p)) == ImportedOne(libs) <==>
              && "male" in libs[v.kind] && "female" in libs[v.kind]
              && forall k: LibraryKind :: SectionKey(k) !in libs[v.kind]
    ensures (exists k: LibraryKind :: SectionKey(k) in libs[v.kind]) ==> Import(libs, v, Some(p)).ImportedAll?
  {
    var lib := libs[v.kind];
    assert libs[v.kind := lib] == libs;
    if exists k: LibraryKind :: SectionKey(k) in lib {
      var k: LibraryKind :| SectionKey(k) in lib;
      assert IsBundle(p) by {
        match k
        case TaskLibrary =>
        case PositionCardsLibrary =>
        case PunishmentLibrary =>
      }
    }
  }

  /** The example record of the template: the library's fields with sample values. */
  function ExampleItem(k: LibraryKind): (item: Item)
    ensures item.id == Some(StrId("example-id-1"))
    ensures item.content.Some? <==> ContentField in Fields(k)
    ensures item.title.Some? <==> TitleField in Fields(k)
    ensures item.description.Some? <==> DescriptionField in Fields(k)
    ensures item.icon == Some("🎯")
    ensures item.color.None? && item.textColor.None?
  {
    var base := Item(Some(StrId("example-id-1")), None, None, None, None, None, None);
    FillExample(base, Fields(k))
  }

  /** Sets the sample value of each field in `fields`, as the template's `switch` does. */
  function FillExample(item: Item, fields: seq<Field>): (r: Item)
    decreases |fields|
    ensures r.id == item.id
    ensures r.content == (if ContentField in fields then Some("示例任务内容") else item.content)
    ensures r.icon == (if IconField in fields then Some("🎯") else item.icon)
    ensures r.title == (if TitleField in fields then Some("示例标题") else item.title)
    ensures r.description == (if DescriptionField in fields then Some("示例描述") else item.description)
    ensures r.color == (if ColorField in fields then Some("bg-pink-100") else item.color)
    ensures r.textColor == (if TextColorField in fields then Some("text-pink-800") else item.textColor)
  {
    if fields == [] then item
    else
      var next := match fields[0]
        case ContentField => item.(content := Some("示例任务内容"))
        case IconField => item.(icon := Some("🎯"))
        case TitleField => item.(title := Some("示例标题"))
        case DescriptionField => item.(description := Some("示例描述"))
        case ColorField => item.(color := Some("bg-pink-100"))
        case TextColorField => item.(textColor := Some("text-pink-800"));
      FillExample(next, fields[1..])
  }

  /** `handleDownloadTemplate`'s data: both roles, each sub-category holding the example record. */
  function Template(k: LibraryKind): (t: Library)
    ensures t.Keys == {"male", "female"}
    ensures forall r :: r in t ==> t[r].Keys == set s | s in SubKeys(k)
    ensures forall r, s :: HasBucket(t, r, s) ==> t[r][s] == [ExampleItem(k)]
  {
    var roleData := map s | s in SubKeys(k) :: [ExampleItem(k)];
    map["male" := roleData, "female" := roleData]
  }

  /** The template passes the single-library check, so importing it replaces the library on view. */
  lemma TemplateImports(libs: Libraries, v: View)
    ensures OneObject(Payload(map[], Template(v.kind)))
    ensures Import(libs, v, Some(Payload(map[], Template(v.kind)))) == ImportedOne(libs[v.kind := Template(v.kind)])
    ensures forall s :: (v.role == "male" || v.role == "female") && s in SubKeys(v.kind) ==>
              CurrentData(libs[v.kind := Template(v.kind)], v.(sub := s)) == [ExampleItem(v.kind)]
  {
    var t := Template(v.kind);
    assert "male" in t && "female" in t;
  }

  /** The reset action: the library on view goes back to its empty default; nothing else changes. */
  function Reset(libs: Libraries, k: LibraryKind): (r: Libraries)
    ensures OthersUnchanged(libs, r, k)
    ensures r[k] == ConfigOf(k).defaultData == DefaultLibrary(k)
  {
    ConfigDefault(k);
    libs[k := DefaultLibrary(k)]
  }

  /** A sub-category key of the library names one of its sub-categories. */
  lemma SubOfKey(k: LibraryKind, key: string) returns (s: Sub)
    requires key in SubKeys(k)
    ensures s in SubsOf(k) && SubKey(s) == key
  {
    var i :| 0 <= i < 3 && SubKeys(k)[i] == key;
    s := SubsOf(k)[i];
  }

  /** After a reset every bucket of the library is empty, and every bucket of its sub-categories exists. */
  lemma ResetEmpties(libs: Libraries, v: View)
    ensures CurrentData(Reset(libs, v.kind), v) == []
    ensures v.role in {"male", "female"} && v.sub in SubKeys(v.kind) ==>
              HasBucket(Reset(libs, v.kind)[v.kind], v.role, v.sub)
  {
    assert Reset(libs, v.kind)[v.kind] == DefaultLibrary(v.kind);
    DefaultLibraryBuckets(v.kind, v.role, v.sub);
    if v.role in {"male", "female"} && v.sub in SubKeys(v.kind) {
      var s := SubOfKey(v.kind, v.sub);
    }
  }

  // ---------------------------------------------------------------------------
  // The default objects, shared after a reset
  // ---------------------------------------------------------------------------

  /**
   The editor's libraries together with the three default library objects
   the reset stores. A library in `shared` is, since its last reset, the very
   default object: adding writes into that object, so the default changes
   with it. Deleting, editing and importing build a new object, which ends
   the sharing.
   */
  datatype Store = Store(libs: Libraries, defaults: map<LibraryKind, Library>, shared: set<LibraryKind>)

  /** Every library has a default, and a shared library is its default. */
  ghost predicate Valid(st: Store) {
    && (forall k: LibraryKind :: k in st.defaults)
    && (forall k :: k in st.shared ==> k in st.libs && st.libs[k] == st.defaults[k])
  }

  /** The store at start-up: the defaults as declared, and no library shares them. */
  function InitialStore(libs: Libraries): (st: Store)
    ensures Valid(st) && st.libs == libs && st.shared == {}
    ensures forall k: LibraryKind :: st.defaults[k] == DefaultLibrary(k)
  {
    Store(libs, map k: LibraryKind | true :: DefaultLibrary(k), {})
  }

  /**
   The reset action as written: the library on view becomes the default
   object itself. With the defaults as declared this is `Reset`.
   */
  function StoreReset(st: Store, k: LibraryKind): (r: Store)
    requires Valid(st)
    ensures Valid(r) && k in r.shared && r.defaults == st.defaults
    ensures OthersUnchanged(st.libs, r.libs, k) && r.libs[k] == st.defaults[k]
    ensures st.defaults[k] == DefaultLibrary(k) ==> r.libs == Reset(st.libs, k)
  {
    Store(st.libs[k := st.defaults[k]], st.defaults, st.shared + {k})
  }

  /** Replacing one library keeps the store valid, when a shared one's default follows it. */
  lemma SharedStep(st: Store, libs: Libraries, k: LibraryKind)
    requires Valid(st) && OthersUnchanged(st.libs, libs, k)
    ensures Valid(Store(libs, if k in st.shared then st.defaults[k := libs[k]] else st.defaults, st.shared))
  {
  }

  /**
   `handleAddItem` on the store: the libraries change as `Add` says, and when
   the library on view is shared the default object receives the same record.
   */
  function StoreAdd(st: Store, v: View, f: Form, now: int, checkPick: nat, pick: nat): (r: Option<Store>)
    requires Valid(st) && v.kind in st.libs
    requires checkPick < |SuggestPool(f)| && pick < |SuggestPool(f)|
    ensures r.None? <==> Refused(v.kind, f, checkPick)
    ensures r.Some? ==>
              && Valid(r.value) && r.value.shared == st.shared
              && Some(r.value.libs) == Add(st.libs, v, f, now, checkPick, pick)
              && (v.kind in st.shared ==> r.value.defaults == st.defaults[v.kind := r.value.libs[v.kind]])
              && (v.kind !in st.shared ==> r.value.defaults == st.defaults)
  {
    match Add(st.libs, v, f, now, checkPick, pick)
    case None => None
    case Some(libs) =>
      SharedStep(st, libs, v.kind);
      Some(Store(libs, if v.kind in st.shared then st.defaults[v.kind := libs[v.kind]] else st.defaults, st.shared))
  }

  /** `handleDeleteItem` on the store: a new library object, so the sharing of `v.kind` ends. */
  function StoreDelete(st: Store, v: View, id: Id): (r: Store)
    requires Valid(st)
    ensures Valid(r) && r.shared == st.shared - {v.kind} && r.defaults == st.defaults
    ensures r.libs == Delete(st.libs, v, id)
  {
    Store(Delete(st.libs, v, id), st.defaults, st.shared - {v.kind})
  }

  /** `handleUpdateItemFromModal` on the store: a new library object, so the sharing of `v.kind` ends. */
  function StoreUpdate(st: Store, v: View, u: Item, newRole: string, newSub: string): (r: (Store, View))
    requires Valid(st)
    requires v.kind in st.libs && HasBucket(st.libs[v.kind], v.role, v.sub)
    requires HasBucket(st.libs[v.kind], newRole, newSub)
    ensures Valid(r.0) && r.0.shared == st.shared - {v.kind} && r.0.defaults == st.defaults
    ensures (r.0.libs, r.1) == Update(st.libs, v, u, newRole, newSub)
  {
    var (libs, view) := Update(st.libs, v, u, newRole, newSub);
    (Store(libs, st.defaults, st.shared - {v.kind}), view)
  }

  /**
   `handleImportLibrary` on the store: every library the import replaces is a
   freshly parsed object, so its sharing ends; a failed import changes nothing.
   */
  function StoreImport(st: Store, v: View, data: Option<Payload>): (r: Store)
    requires Valid(st)
    ensures Valid(r) && r.defaults == st.defaults && r.shared <= st.shared
    ensures Import(st.libs, v, data).ImportedAll? ==>
              r.libs == Import(st.libs, v, data).libs
              && r.shared == st.shared - set k: LibraryKind | SectionKey(k) in data.value.sections
    ensures Import(st.libs, v, data).ImportedOne? ==>
              r.libs == Import(st.libs, v, data).libs && r.shared == st.shared - {v.kind}
    ensures Import(st.libs, v, data).ParseFailed? || Import(st.libs, v, data).Malformed? ==> r == st
  {
    match Import(st.libs, v, data)
    case ImportedAll(libs, _) =>
      Store(libs, st.defaults, st.shared - set k: LibraryKind | SectionKey(k) in data.value.sections)
    case ImportedOne(libs) => Store(libs, st.defaults, st.shared - {v.kind})
    case _ => st
  }

  /**
   A second reset after an add restores the default object as the add left
   it: the added record survives the reset, and the defaults stay changed.
   */
  lemma ResetAfterAddKeepsRecord(st: Store, v: View, f: Form, now: int, checkPick: nat, pick: nat)
    requires Valid(st) && v.kind in st.libs
    requires checkPick < |SuggestPool(f)| && pick < |SuggestPool(f)|
    requires !Refused(v.kind, f, checkPick)
    ensures var s1 := StoreReset(st, v.kind);
            var s2 := StoreAdd(s1, v, f, now, checkPick, pick);
            && s2.Some?
            && CurrentData(StoreReset(s2.value, v.kind).libs, v)
               == CurrentData(st.defaults, v) + [NewItem(f, now, pick)]
            && CurrentData(s2.value.defaults, v) == CurrentData(st.defaults, v) + [NewItem(f, now, pick)]
  {
    var s1 := StoreReset(st, v.kind);
    var s2 := StoreAdd(s1, v, f, now, checkPick, pick).value;
    assert CurrentData(s1.libs, v) == CurrentData(st.defaults, v);
    assert s2.defaults[v.kind] == s2.libs[v.kind];
  }

  /**
   From start-up: reset, add one record, reset again. The bucket is not empty
   afterwards, although the reset is meant to restore the empty default.
   */
  lemma ResetAddResetExample(libs: Libraries, v: View, f: Form, now: int, checkPick: nat, pick: nat)
    requires v.kind in libs
    requires checkPick < |SuggestPool(f)| && pick < |SuggestPool(f)|
    requires !Refused(v.kind, f, checkPick)
    ensures var s1 := StoreReset(InitialStore(libs), v.kind);
            var s2 := StoreAdd(s1, v, f, now, checkPick, pick);
            && s2.Some?
            && CurrentData(StoreReset(s2.value, v.kind).libs, v) == [NewItem(f, now, pick)]
            && CurrentData(Reset(s2.value.libs, v.kind), v) == []
  {
    var st := InitialStore(libs);
    ResetAfterAddKeepsRecord(st, v, f, now, checkPick, pick);
    ResetEmpties(libs, v);
    assert CurrentData(st.defaults, v) == CurrentData(Reset(libs, v.kind), v);
    ResetEmpties(StoreAdd(StoreReset(st, v.kind), v, f, now, checkPick, pick).value.libs, v);
  }
}

=== FILE: text.dfy ===
/**
 The few JavaScript string primitives the application relies on, stated over
 `seq<char>`: `String.prototype.trim`, ASCII `toLowerCase`, `includes`,
 `String(n)` for integers, `padStart(2, '0')` and `parseInt` in base 10.
 */
module Text {
  import opened Wrappers

  /** ECMAScript WhiteSpace and LineTerminator code points: what `trim` removes. */
  predicate IsSpace(c: char) {
    || c == '\t' || c == '\n' || c == '\U{000B}' || c == '\U{000C}' || c == '\r'
    || c == ' ' || c == '\U{00A0}' || c == '\U{1680}'
    || ('\U{2000}' <= c <= '\U{200A}')
    || c == '\U{2028}' || c == '\U{2029}' || c == '\U{202F}' || c == '\U{205F}'
    || c == '\U{3000}' || c == '\U{FEFF}'
  }

  predicate AllSpace(s: string) {
    forall i :: 0 <= i < |s| ==> IsSpace(s[i])
  }

  /** A string that `trim` leaves alone: empty, or no white space at either end. */
  predicate Trimmed(s: string) {
    s == [] || (!IsSpace(s[0]) && !IsSpace(s[|s| - 1]))
  }

  /** `trimStart`: drops the leading white space, keeping the rest as a suffix. */
  function TrimStart(s: string): (r: string)
    ensures |r| <= |s| && (r == [] || !IsSpace(r[0]))
  {
    if |s| > 0 && IsSpace(s[0]) then TrimStart(s[1..]) else s
  }

  lemma {:induction false} TrimStartSuffix(s: string)
    ensures var r := TrimStart(s);
              && r == s[|s| - |r|..]
              && forall i :: 0 <= i < |s| - |r| ==> IsSpace(s[i])
  {
    if |s| > 0 && IsSpace(s[0]) {
      TrimStartSuffix(s[1..]);
    }
  }

  /** `trimEnd`: drops the trailing white space, keeping the rest as a prefix. */
  function TrimEnd(s: string): (r: string)
    ensures |r| <= |s| && r == s[..|r|]
    ensures r == [] || !IsSpace(r[|r| - 1])
  {
    if |s| > 0 && IsSpace(s[|s| - 1]) then TrimEnd(s[..|s| - 1]) else s
  }

  lemma {:induction false} TrimEndPrefix(s: string)
    ensures forall i :: |TrimEnd(s)| <= i < |s| ==> IsSpace(s[i])
  {
    if |s| > 0 && IsSpace(s[|s| - 1]) {
      TrimEndPrefix(s[..|s| - 1]);
    }
  }

  /** `trim`: white space removed from both ends. */
  function Trim(s: string): (r: string)
    ensures Trimmed(r) && |r| <= |s|
  {
    TrimEnd(TrimStart(s))
  }

  /** `trim` leaves the infix of `s` between a white-space prefix and a white-space suffix. */
  lemma TrimInfix(s: string)
    ensures var r := Trim(s); var i := |s| - |TrimStart(s)|;
              && i + |r| <= |s| && r == s[i..i + |r|]
              && (forall k :: 0 <= k < i ==> IsSpace(s[k]))
              && (forall k :: i + |r| <= k < |s| ==> IsSpace(s[k]))
  {
    var a := TrimStart(s);
    var r := TrimEnd(a);
    var i := |s| - |a|;
    TrimStartSuffix(s);
    TrimEndPrefix(a);
    assert a == s[i..];
    assert r == a[..|r|];
    assert r == s[i..i + |r|];
    forall k | i + |r| <= k < |s| ensures IsSpace(s[k]) {
      assert s[k] == a[k - i];
    }
  }

  /** A string trims to nothing exactly when it is all white space. */
  lemma {:induction false} TrimEmptyIff(s: string)
    ensures Trim(s) == [] <==> AllSpace(s)
  {
    var r := Trim(s);
    var i := |s| - |TrimStart(s)|;
    TrimInfix(s);
    if r != [] {
      assert r[0] == s[i] && !IsSpace(r[0]);
    }
  }

  /** `trim` changes nothing on a string without white space at its ends. */
  lemma {:induction false} TrimTrimmed(s: string)
    requires Trimmed(s)
    ensures Trim(s) == s
  {
    assert TrimStart(s) == s;
    assert TrimEnd(s) == s;
  }

  /** `trim` is idempotent. */
  lemma TrimIdempotent(s: string)
    ensures Trim(Trim(s)) == Trim(s)
  {
    TrimTrimmed(Trim(s));
  }

  /** `toLowerCase` restricted to ASCII letters; every other character is kept. */
  function LowerChar(c: char): (r: char)
    ensures 'A' <= c <= 'Z' ==> 'a' <= r <= 'z' && r as int - c as int == 32
    ensures !('A' <= c <= 'Z') ==> r == c
  {
    if 'A' <= c <= 'Z' then (c as int + 32) as char else c
  }

  function ToLower(s: string): (r: string)
    ensures |r| == |s|
    ensures forall i :: 0 <= i < |s| ==> r[i] == LowerChar(s[i])
  {
    if s == [] then [] else [LowerChar(s[0])] + ToLower(s[1..])
  }

  lemma {:induction false} ToLowerIdempotent(s: string)
    ensures ToLower(ToLower(s)) == ToLower(s)
  {
    var l := ToLower(s);
    assert forall i :: 0 <= i < |l| ==> LowerChar(l[i]) == l[i];
  }

  predicate StartsWith(s: string, t: string) {
    |t| <= |s| && s[..|t|] == t
  }

  /** `s.includes(t)`: `t` occurs in `s` at some position. */
  predicate Contains(s: string, t: string) {
    StartsWith(s, t) || (s != [] && Contains(s[1..], t))
  }

  // ---------------------------------------------------------------------------
  // Decimal rendering and parsing
  // ---------------------------------------------------------------------------

  predicate IsDigit(c: char) {
    '0' <= c <= '9'
  }

  function DigitChar(d: nat): (c: char)
    requires d < 10
    ensures IsDigit(c) && c as int - '0' as int == d
  {
    ('0' as int + d) as char
  }

  /** The value of a string of decimal digits (leading zeros allowed). */
  function DigitsValue(s: string): nat
    requires forall i :: 0 <= i < |s| ==> IsDigit(s[i])
  {
    if s == [] then 0
    else
      var last := s[|s| - 1];
      assert IsDigit(last);
      DigitsValue(s[..|s| - 1]) * 10 + (last as int - '0' as int)
  }

  /** `String(n)` for a natural number: shortest decimal form, no leading zero. */
  function NatToString(n: nat): (r: string)
    ensures |r| >= 1 && (forall i :: 0 <= i < |r| ==> IsDigit(r[i]))
    ensures DigitsValue(r) == n
    ensures n < 10 <==> |r| == 1
    ensures 10 <= n < 100 ==> |r| == 2
  {
    if n < 10 then [DigitChar(n)]
    else
      var r := NatToString(n / 10) + [DigitChar(n % 10)];
      assert r[..|r| - 1] == NatToString(n / 10);
      r
  }

  /** `String(i)` for an integer. */
  function IntToString(i: int): (r: string)
    ensures i >= 0 ==> r == NatToString(i)
    ensures i < 0 ==> r == "-" + NatToString(-i)
  {
    if i < 0 then "-" + NatToString(-i) else NatToString(i)
  }

  /** `s.padStart(2, '0')`. */
  function PadStart2(s: string): (r: string)
    ensures |s| >= 2 ==> r == s
    ensures |s| < 2 ==> |r| == 2 && r[2 - |s|..] == s && (forall i :: 0 <= i < 2 - |s| ==> r[i] == '0')
  {
    if |s| == 0 then "00" else if |s| == 1 then "0" + s else s
  }

  /** Number of leading decimal digits of `s`. */
  function LeadingDigits(s: string): (n: nat)
    ensures n <= |s|
    ensures forall i :: 0 <= i < n ==> IsDigit(s[i])
    ensures n < |s| ==> !IsDigit(s[n])
  {
    if s != [] && IsDigit(s[0]) then 1 + LeadingDigits(s[1..]) else 0
  }

  /**
   `parseInt(s)` with the default radix on decimal input: leading white space is
   skipped, one optional sign is read, then the longest run of digits. `None`
   is JavaScript's NaN (no digit where one was expected).
   */
  function ParseInt(s: string): (r: Option<int>)
    ensures s == [] ==> r.None?
    ensures s != [] && (forall i :: 0 <= i < |s| ==> IsDigit(s[i])) ==> r == Some(DigitsValue(s))
  {
    DigitsRead(s);
    var t := TrimStart(s);
    var neg := |t| > 0 && t[0] == '-';
    var body := if |t| > 0 && (t[0] == '-' || t[0] == '+') then t[1..] else t;
    var n := LeadingDigits(body);
    if n == 0 then None
    else if neg then Some(-(DigitsValue(body[..n]) as int))
    else Some(DigitsValue(body[..n]))
  }

  /** A non-empty run of digits starts with no white space and is all leading digits. */
  lemma DigitsRead(s: string)
    ensures s != [] && (forall i :: 0 <= i < |s| ==> IsDigit(s[i])) ==>
              TrimStart(s) == s && LeadingDigits(s) == |s| && s[..|s|] == s
  {
    if s != [] && (forall i :: 0 <= i < |s| ==> IsDigit(s[i])) {
      LeadingDigitsAll(s);
    }
  }

  lemma {:induction false} LeadingDigitsAll(s: string)
    requires forall i :: 0 <= i < |s| ==> IsDigit(s[i])
    ensures LeadingDigits(s) == |s|
  {
    if s != [] {
      LeadingDigitsAll(s[1..]);
    }
  }

  /** `parseInt` reads back what `String` wrote. */
  lemma ParseIntRoundTrip(i: int)
    ensures ParseInt(IntToString(i)) == Some(i)
  {
    var s := IntToString(i);
    if i < 0 {
      var d := NatToString(-i);
      assert s[1..] == d;
      LeadingDigitsAll(d);
      assert d[..|d|] == d;
    } else {
      LeadingDigitsAll(s);
      assert s[..|s|] == s;
    }
  }
}

=== FILE: types.dfy ===
/**
 The application's data model: roles, sub-categories, library records, players,
 settings, and the fixed game constants.

 A library is a JavaScript object `role -> sub-category -> array of items` that
 users can import from arbitrary JSON, so its keys are kept as strings: a
 missing or unexpected key is representable. `Role` and `Sub` name the keys the
 application itself uses.
 */
module Types {
  import opened Wrappers

  // ---------------------------------------------------------------------------
  // Keys
  // ---------------------------------------------------------------------------

  datatype Role = Male | Female

  function RoleKey(r: Role): string {
    match r
    case Male => "male"
    case Female => "female"
  }

  /** The three sub-categories of each of the three libraries. */
  datatype Sub =
    | Warmup | Intimate | Adventure   // task library difficulties
    | Cute | Fun | Deep               // position-card modes
    | Mild | Medium | Intense         // punishment intensities

  function SubKey(s: Sub): string {
    match s
    case Warmup => "warmup"
    case Intimate => "intimate"
    case Adventure => "adventure"
    case Cute => "cute"
    case Fun => "fun"
    case Deep => "deep"
    case Mild => "mild"
    case Medium => "medium"
    case Intense => "intense"
  }

  datatype LibraryKind = TaskLibrary | PositionCardsLibrary | PunishmentLibrary

  /** The key of each library inside the saved libraries object. */
  function LibraryKey(k: LibraryKind): string {
    match k
    case TaskLibrary => "TASK_LIBRARY"
    case PositionCardsLibrary => "POSITION_CARDS_LIBRARY"
    case PunishmentLibrary => "PUNISHMENT_LIBRARY"
  }

  /** The sub-categories of each library, in display order. */
  function SubsOf(k: LibraryKind): seq<Sub> {
    match k
    case TaskLibrary => [Warmup, Intimate, Adventure]
    case PositionCardsLibrary => [Cute, Fun, Deep]
    case PunishmentLibrary => [Mild, Medium, Intense]
  }

  /** The library a sub-category belongs to. */
  function KindOf(s: Sub): LibraryKind {
    match s
    case Warmup | Intimate | Adventure => TaskLibrary
    case Cute | Fun | Deep => PositionCardsLibrary
    case Mild | Medium | Intense => PunishmentLibrary
  }

  /**
   The sub-categories are partitioned among the libraries: three distinct ones
   each, and a sub-category lists under exactly one library.
   */
  lemma SubsPartition(k: LibraryKind, s: Sub)
    ensures |SubsOf(k)| == 3
    ensures forall i, j :: 0 <= i < j < 3 ==> SubsOf(k)[i] != SubsOf(k)[j]
    ensures s in SubsOf(k) <==> KindOf(s) == k
  {
  }

  lemma KeysInjective()
    ensures forall a: Role, b: Role :: RoleKey(a) == RoleKey(b) ==> a == b
    ensures forall a: Sub, b: Sub :: SubKey(a) == SubKey(b) ==> a == b
  {
  }

  // ---------------------------------------------------------------------------
  // Items
  // ---------------------------------------------------------------------------

  /**
   Item ids: a number (`Date.now()` for items added in the editor) or a string
   (ids from `addIds`, from the remote store, or from imported files). The two
   are never equal to each other, as with JavaScript's `===`.
   */
  datatype Id = NumId(n: int) | StrId(s: string)

  /** JavaScript truthiness of an id: neither `0` nor `""`. */
  predicate IdTruthy(id: Id) {
    match id
    case NumId(n) => n != 0
    case StrId(s) => s != ""
  }

  /**
   One record of any library. Tasks and punishments use `content` and `icon`;
   position cards use `title`, `description`, `icon`, `color` and `textColor`;
   but records are open JavaScript objects and may carry any of them.
   */
  datatype Item = Item(
    id: Option<Id>,
    content: Option<string>,
    icon: Option<string>,
    title: Option<string>,
    description: Option<string>,
    color: Option<string>,
    textColor: Option<string>)

  /** JavaScript truthiness of an optional string field. */
  predicate Truthy(o: Option<string>) {
    o.Some? && o.value != ""
  }

  /** JavaScript's `o || d` on an optional string field. */
  function Or(o: Option<string>, d: string): (r: string)
    ensures Truthy(o) ==> r == o.value
    ensures !Truthy(o) ==> r == d
  {
    if Truthy(o) then o.value else d
  }

  /** JavaScript's `n || d` on an optional number: a missing value or `0` gives the default. */
  function NumOr(o: Option<int>, d: int): (r: int)
    ensures o.Some? && o.value != 0 ==> r == o.value
    ensures !(o.Some? && o.value != 0) ==> r == d
  {
    if o.Some? && o.value != 0 then o.value else d
  }

  /** JavaScript's `${o}` on an optional string field. */
  function Show(o: Option<string>): string {
    o.GetOr("undefined")
  }

  /** The four text inputs of the editor and of the edit dialog. */
  datatype Form = Form(content: string, icon: string, title: string, description: string)

  const EMPTY_FORM: Form := Form("", "", "", "")

  /** `content || title || ''`: the text the emoji suggester reads. */
  function TextContent(f: Form): (t: string)
    ensures f.content != "" ==> t == f.content
    ensures f.content == "" ==> t == f.title
  {
    if f.content != "" then f.content else if f.title != "" then f.title else ""
  }

  // ---------------------------------------------------------------------------
  // Libraries
  // ---------------------------------------------------------------------------

  type RoleData = map<string, seq<Item>>
  type Library = map<string, RoleData>
  type Libraries = map<LibraryKind, Library>

  /** `lib?.[role]?.[sub] || []`: every reader treats a missing bucket as empty. */
  function Bucket(lib: Library, role: string, sub: string): (b: seq<Item>)
    ensures role in lib && sub in lib[role] ==> b == lib[role][sub]
    ensures !(role in lib && sub in lib[role]) ==> b == []
  {
    if role in lib && sub in lib[role] then lib[role][sub] else []
  }

  predicate HasBucket(lib: Library, role: string, sub: string) {
    role in lib && sub in lib[role]
  }

  /** A role entry holding an empty array for each of `subs`. */
  function EmptyRoleData(subs: seq<Sub>): (d: RoleData)
    ensures forall s :: s in subs ==> SubKey(s) in d && d[SubKey(s)] == []
    ensures forall k :: k in d ==> exists s :: s in subs && SubKey(s) == k
    ensures forall k :: k in d ==> d[k] == []
  {
    map s | s in subs :: SubKey(s) := []
  }

  /** `DEFAULT_TASK_LIBRARY` and its siblings: both roles, every sub-category empty. */
  function DefaultLibrary(k: LibraryKind): Library {
    map["male" := EmptyRoleData(SubsOf(k)), "female" := EmptyRoleData(SubsOf(k))]
  }

  lemma DefaultLibraryEmpty(k: LibraryKind)
    ensures forall r: Role, s :: s in SubsOf(k) ==>
              HasBucket(DefaultLibrary(k), RoleKey(r), SubKey(s))
              && Bucket(DefaultLibrary(k), RoleKey(r), SubKey(s)) == []
    ensures forall r, s :: HasBucket(DefaultLibrary(k), r, s) ==> DefaultLibrary(k)[r][s] == []
  {
    forall r: Role, s | s in SubsOf(k)
      ensures HasBucket(DefaultLibrary(k), RoleKey(r), SubKey(s)) && Bucket(DefaultLibrary(k), RoleKey(r), SubKey(s)) == []
    {
      DefaultLibraryBuckets(k, RoleKey(r), SubKey(s));
    }
    forall r, s | HasBucket(DefaultLibrary(k), r, s) ensures DefaultLibrary(k)[r][s] == [] {
      DefaultLibraryBuckets(k, r, s);
    }
  }

  /** Every bucket of a default library reads as empty; those of its own sub-categories exist, for both roles. */
  lemma DefaultLibraryBuckets(k: LibraryKind, role: string, sub: string)
    ensures Bucket(DefaultLibrary(k), role, sub) == []
    ensures (role == "male" || role == "female") && (exists s :: s in SubsOf(k) && SubKey(s) == sub) ==>
              HasBucket(DefaultLibrary(k), role, sub)
  {
  }

  // ---------------------------------------------------------------------------
  // Players, settings, modal tasks
  // ---------------------------------------------------------------------------

  datatype Player = Player(id: int, name: string, avatar: string, pos: int, color: string, gender: Role)

  /**
   The saved settings. `chessDifficulty` is one of the task-library keys in
   normal use, but a value loaded from the remote store is not checked; board
   rows and columns may be missing.
   */
  datatype Settings = Settings(
    focus: int,
    brk: int,
    chessDifficulty: Sub,
    boardRows: Option<int>,
    boardCols: Option<int>)

  /** What the board game's result modal shows. */
  datatype ModalTask = ModalTask(title: string, content: Option<string>, icon: Option<string>, isWinner: bool)

  // ---------------------------------------------------------------------------
  // Constants (src/constants/index.ts)
  // ---------------------------------------------------------------------------

  const TOTAL_STEPS: int := 72
  const GRID_ROWS: int := 8
  const GRID_COLS: int := 9
  /** Probability that a non-winning move shows a task. */
  const TASK_TRIGGER_CHANCE: real := 1.0

  const WARNING_ICON: string := "⚠️"
}

=== FILE: wrappers.dfy ===
/**
 Optional values, standing for JavaScript's `undefined`/`null` on one side and
 a present value on the other.
 */
module Wrappers {

  datatype Option<+T> = None | Some(value: T) {

    /** The value, or `default` when absent (JavaScript's `x ?? default`). */
    function GetOr(default: T): T {
      match this
      case Some(v) => v
      case None => default
    }
  }
}
